=== FILE: README.md ===
# rabot core, modelled in Dafny

rabot is a Discord bot for learners of Greek. This project models the logic
behind its dictionary, conjugation and helper commands:

- `longest.py` (module `Longest`): the greedy "longest common substring"
  `lcs`, the normalised distance `get_delta` built on it, and
  `highlight_synonyms`, which puts `**…**` around sentence tokens that are
  close to a synonym.
- `entry.py` (module `Entry`): the `Entry` record of a WordReference lookup.
  It covers the validity test, the embed length test, the sentence sort, the
  Greek/English swap, and the rendering of title, description and footer in
  `get_embed` / `add_embed`.
- `wordref.py` (module `WordRef`):
  - `parse_words`, the loop that strips part-of-speech tags from a cell text;
  - the odd/even row grouping of `fetch_wordref_entries` and the items built
    from each group;
  - the direction handling and filtering of `try_fetch_entry`;
  - `fetch_accented_word`;
  - the request set-up of `Wordref.__init__`;
  - the retry loop of `fetch_embed`.
- `wiktionary.py` (module `Wiktionary`):
  - the two conjugation table layouts (voices in `NavFrame`s in blocks of
    eight rows, or seven-row tables);
  - the transposition into tense → forms maps;
  - the fall-back to suggested words;
  - the part-of-speech sections.
- `utils.py` (module `Utils`):
  - `is_english`, `get_language_code`, the Greeklish transliteration and
    `fix_greek_spelling`;
  - page counting and the button/index logic of the `Pagination` view.
- `faqs.py` (module `Faqs`): the FAQ table, footer credit and lookup by name
  or alias.
- `coptic.py` (module `Coptic`): the Greek → Coptic letter table.

Two further modules support the rest:

- `Wrappers` holds `Option`, `Result` and the Python exception kinds that
  the source raises.
- `Text` holds the Python `str` built-ins that the source relies on, over
  `string`: `in`, `strip()`, `strip(",")`, `split()`, `split(", ")`,
  `", ".join`, `replace` and `str(n)`.

## How the model is built

- Operations are pure functions.
  - A Python exception becomes `Err(kind)` of a `Result`.
  - An operation that returns `None` on failure returns `Option` or
    `Ok(None)`.
  - Mutating methods return the new state.
- Everything the source gets from outside is a parameter:
  - the parsed HTML, as datatypes of rows and cells, or as functions from a
    section id to its contents;
  - the iteration order of sets;
  - Unicode normalisation and case folding;
  - the length Discord computes for an embed;
  - each attempt of a retry loop.
- Python dictionaries are Dafny `map`s.

## Model

| member | source | states |
|---|---|---|
| Longest.RunEnd | src/rabot/cogs/wordref/longest.py:11-17 | The inner loop stops at a prefix length whose shorter prefix occurs in `b`. It stops either at the end of the text or where the next prefix no longer occurs in `b`. |
| Longest.Scan | src/rabot/cogs/wordref/longest.py:9-21 | The outer loop never lowers its running maximum. The result is the starting value or the length of a piece of `a` that occurs in `b`, strictly shorter than `a`. |
| Longest.RunEndMaximal | src/rabot/cogs/wordref/longest.py:11-17 | Where the inner loop breaks, no longer prefix of `a` (short of all of `a`) occurs in `b`. |
| Longest.PassesGreedy | src/rabot/cogs/wordref/longest.py:9-19 | The passes cover `a` exactly: each pass starts where the previous one cut `a`, its piece occurs in `b`, and it stops one short of the end or where one more character no longer occurs. |
| Longest.ScanMax | src/rabot/cogs/wordref/longest.py:9-19 | The outer loop returns the largest of the starting value and the pass lengths `i - 1`. |
| Longest.Lcs | src/rabot/cogs/wordref/longest.py:5-21 | `lcs(a, b)` is `len(a)` for equal strings. Otherwise it is the length of a common piece, bounded by both lengths and strictly below a non-empty `len(a)`, and no prefix of `a` short of `a` that occurs in `b` is longer. |
| Longest.LcsFirstPass | src/rabot/cogs/wordref/longest.py:10-18 | The first pass finds the longest prefix of `a`, short of `a`, that occurs in `b`. |
| Longest.LcsPasses | src/rabot/cogs/wordref/longest.py:9-21 | For different strings, `lcs` is the longest greedy pass, or 0 when no pass finds anything. |
| Longest.Overlap | src/rabot/cogs/wordref/longest.py:40-41 | The larger of the two `lcs` values never exceeds the longer normalised word. It reaches that length exactly when the normalised words are equal. |
| Longest.Delta | src/rabot/cogs/wordref/longest.py:36-43 | The distance is undefined (division by zero) exactly when both normalised words are empty. Otherwise it lies in [0, 1] and is 0 exactly for equal normalised words. |
| Longest.Distance | src/rabot/cogs/wordref/longest.py:40-43 | `(maxLen - m) / maxLen` with `m <= maxLen` is undefined exactly for `maxLen = 0`. Otherwise it lies in [0, 1] and is 0 exactly when `m = maxLen`. |
| Longest.Ratio | src/rabot/cogs/wordref/longest.py:43 | `p / n` with `0 <= p <= n` lies in [0, 1] and is 0 only for p = 0. |
| Longest.DistanceThreshold | src/rabot/cogs/wordref/longest.py:43-55 | A distance is at most 0.3 exactly when `10 (maxLen - m) <= 3 maxLen`. |
| Longest.DeltaSymmetric | src/rabot/cogs/wordref/longest.py:36-43 | The distance does not depend on argument order. |
| Longest.DeltaAlphaVariants | src/rabot/cogs/wordref/longest.py:24-33 | The four accent/case variants of the docstring, all normalising to "αλφα", are pairwise at distance 0. |
| Longest.HitsCrossMultiplied | src/rabot/cogs/wordref/longest.py:52-55 | The `dif <= 0.3` test is the integer test `10 (maxLen - m) <= 3 maxLen`. |
| Longest.StripPunctuation | src/rabot/cogs/wordref/longest.py:49 | The token keeps exactly its characters other than `( ) , .`, and it never grows. |
| Longest.ShiftDistances | src/rabot/cogs/wordref/longest.py:50-57 | Past a first distance above 0.3, the first distance within 0.3 and "all above 0.3" are those of the remaining distances. |
| Longest.MatchShift | src/rabot/cogs/wordref/longest.py:50-57 | Past a first synonym that misses, first hits and total misses are those of the remaining synonyms. |
| Longest.MatchSynonyms | src/rabot/cogs/wordref/longest.py:50-57 | A token is emphasised exactly when some synonym is within 0.3 and every earlier one is above it. It is left alone exactly when all synonyms are above 0.3. The only failure is the division by zero. |
| Longest.HighlightSynonyms | src/rabot/cogs/wordref/longest.py:46-59 | Over any iteration order of the set of the sentence's `split()` tokens: it fails (division by zero) exactly when some token of the sentence makes its synonym scan fail. Otherwise the result is the sentence after emphasising each matched stripped token in order. No synonyms leaves the sentence unchanged. |
| Longest.HighlightTokens | src/rabot/cogs/wordref/longest.py:47-57 | The loop over a given token order fails exactly when some token's synonym scan fails. Otherwise deleting `*` gives back the sentence with `*` deleted, and a changed sentence implies some token matched. |
| Longest.HighlightedWords | src/rabot/cogs/wordref/longest.py:47-56 | The emphasised words are exactly the stripped tokens of the sentence that match a synonym. |
| Longest.HighlightWithoutSynonyms | src/rabot/cogs/wordref/longest.py:46-59 | With an empty synonym set every sentence comes back unchanged, whatever the token order. |
| Longest.MatchedTokens | src/rabot/cogs/wordref/longest.py:50-57 | A word is in the list of emphasised words exactly when it is a stripped token whose synonym scan reports a match. |
| Longest.HighlightEmphasises | src/rabot/cogs/wordref/longest.py:46-59 | A successful result is the sentence after the `replace` of each matched stripped token, one after the other, in token order. |
| Longest.ReplaceBoldContains | src/rabot/cogs/wordref/longest.py:56 | After `s.replace(w, f"**{w}**")` on a text that contains a non-empty `w`, the text contains `**w**`. |
| Longest.HighlightSingleMatch | src/rabot/cogs/wordref/longest.py:46-59 | When exactly one stripped token matches and it occurs in the sentence, the result shows it in bold. |
| Longest.EmphasisOverwritten | src/rabot/cogs/wordref/longest.py:56 | When "ab" and then "b" match, the second `replace` rewrites the inside of "**ab**": the result "**a**b****" no longer shows "**ab**". |
| Text.Contains | src/rabot/cogs/wordref/longest.py:14 | Python's `p in s` holds exactly when `p` occurs at some position of `s`. |
| Text.Strip | src/rabot/cogs/wordref/wordref.py:51 | `strip()` gives a piece of the text framed by whitespace only, with no whitespace at either end. It equals the text when nothing is removed. |
| Text.StripUnique | src/rabot/cogs/wordref/wordref.py:51 | Any piece of the text framed by whitespace only, with no whitespace at its own ends, is what `strip()` returns. |
| Text.StripIdempotent | src/rabot/cogs/wordref/wordref.py:50-51 | Stripping twice is stripping once. |
| Text.SplitWs | src/rabot/cogs/wordref/longest.py:47 | `split()` gives non-empty tokens without whitespace, and no token exactly when the text is all whitespace. |
| Text.SplitWsRun | src/rabot/cogs/wordref/longest.py:47 | Whitespace, a run of non-whitespace, then whitespace or the end: `split()` gives the run first and then the split of the rest. |
| Text.SetOrderFrom | src/rabot/cogs/wordref/longest.py:47 | Reading any listing against a sequence gives an iteration order of its set: every element exactly once and nothing else. |
| Text.SetOrderFromValid | src/rabot/cogs/wordref/longest.py:47 | An iteration order of the set is read back unchanged, so every iteration order arises. |
| Text.SplitComma | src/rabot/cogs/wordref/wordref.py:59 | `split(", ")` gives at least one piece, none containing the separator, and the first piece starts the text. |
| Text.SplitCommaJoin | src/rabot/cogs/wordref/wordref.py:59 | `", ".join(text.split(", ")) == text`. |
| Text.SplitCommaPiecesContained | src/rabot/cogs/wordref/wordref.py:59 | Every piece of `split(", ")` occurs in the text. |
| Text.ReplaceWrapErase | src/rabot/cogs/wordref/longest.py:56 | Replacing a word by `**word**` only inserts `*` characters. |
| Text.StripChar | src/rabot/utils.py:91 | `strip(",")` gives a piece of the text framed by commas only, that neither starts nor ends with a comma, and loses no other character. |
| Text.StripCharUnique | src/rabot/utils.py:91 | Any piece framed by commas only, not itself starting or ending with a comma, is what `strip(",")` returns. |
| Text.StripCharUnchanged | src/rabot/cogs/wordref/wordref.py:177 | A text that neither starts nor ends with the character is its own `strip`. |
| Text.DecimalRoundTrip | src/rabot/cogs/wordref/entry.py:162 | The index printed in `"> {idx + 1}: "` reads back as the same number. |
| Utils.IsEnglish | src/rabot/utils.py:41-42 | A word is "English" exactly when every code point is below 200. |
| Utils.IsEnglishConcat | src/rabot/utils.py:41-42 | A concatenation is English exactly when both parts are, and the empty word is English. |
| Utils.LanguageCode | src/rabot/utils.py:45-52 | "english"/"en" give "en" and "greek"/"el"/"ελληνικά" give "el", in both directions. Anything else raises `NotImplementedError`. |
| Utils.LanguageCodeIdempotent | src/rabot/utils.py:45-52 | A returned code is itself accepted and maps to itself. |
| Utils.Greeklish | src/rabot/utils.py:9-38 | The table covers exactly the lower-case Latin letters. Each maps to one Greek letter except `j`, which gives two, and no image holds a Latin letter. |
| Utils.TranslateLength | src/rabot/utils.py:9-38 | Transliteration adds one character per `j` (→ "τζ") and keeps the length otherwise. |
| Utils.Translate | src/rabot/utils.py:9-38 | No lower-case Latin letter survives the table, and text without capitals gets none. |
| Utils.TranslateChar | src/rabot/utils.py:9-38 | One character becomes its table image: the Greek letters for `a`-`z` (`τζ` for `j`), and itself for every other character. |
| Utils.TranslateImages | src/rabot/utils.py:9-38 | Translating a text is concatenating the table images of its characters, in order. |
| Utils.TranslateUnmapped | src/rabot/utils.py:56 | Text without lower-case Latin letters is left unchanged. |
| Utils.GreeklishNotInjective | src/rabot/utils.py:13-35 | c/s, b/v, k/q and u/y give the same Greek letter. |
| Utils.TranslateSameImage | src/rabot/utils.py:55-56 | Swapping one letter for another with the same table image leaves the transliteration unchanged, so it cannot be inverted. |
| Utils.GreeklishAsciiLength | src/rabot/utils.py:55-56 | On ASCII input the output is longer by the number of `j`/`J` and holds no Latin letter. |
| Utils.GreeklishToGreek | src/rabot/utils.py:55-56 | The output is the concatenated table images of the lower-cased word's characters. It is longer than the lower-cased word by its number of `j`, and holds no lower-case Latin letter. |
| Utils.FixGreekSpelling | src/rabot/utils.py:59-93 | The result never starts or ends with a comma. When the lookup finds nothing, it is the input with commas stripped. When the lookup finds a token, the result is the first token with commas stripped, so it lies within that token and holds no whitespace. |
| Utils.FixGreekSpellingUnknown | src/rabot/utils.py:64-68 | An unknown word without stray commas comes back unchanged ("nonsense" ⇒ "nonsense"). |
| Utils.FloorDiv | src/rabot/utils.py:163 | `a // b` rounds toward negative infinity for either sign of `b`. |
| Utils.ComputeTotalPages | src/rabot/utils.py:161-163 | A zero page size raises `ZeroDivisionError`. For n ≥ 1 results the page count p is the least with `n <= p * perPage`, and no results give 0 pages. |
| Utils.UpdateButtons | src/rabot/utils.py:130-136 | "previous" is disabled exactly on page 1 and "next" exactly on the last page. The end button shows "⏮️" exactly past half of the pages. |
| Utils.OnClick | src/rabot/utils.py:138-154 | "previous" and "next" move the index by one. "end" goes to the last page exactly when the index is at most half the old page count (or there is one page), and to page 1 otherwise. The stored page count is the one the page source reports. |
| Utils.ClickKeepsRange | src/rabot/utils.py:130-154 | While the page count stays the same, a click on an enabled button keeps the index within 1..total. |
| Utils.RunKeepsRange | src/rabot/utils.py:130-154 | While the page count stays the same, any run of enabled clicks keeps the index within 1..total. |
| Utils.EndAlternates | src/rabot/utils.py:148-154 | From the first half, "end" goes to the last page and then back to page 1, showing "⏮️" in between. |
| Utils.Navigate | src/rabot/utils.py:115-123 | A non-positive page count fails the assertion. One page is sent without buttons, and more pages with the buttons set for the stored state. |
| Utils.NavigateStartsInRange | src/rabot/utils.py:98-123 | A fresh view reporting at least one page starts on page 1 of its pages, with "previous" disabled. |
| Faqs.FaqFooter | src/rabot/cogs/faqs/faqs.py:55-59 | The footer always ends with the FAQ-list hint. It is only that hint exactly when the author is "me". Otherwise it credits the author first. |
| Faqs.FaqFooterInjective | src/rabot/cogs/faqs/faqs.py:55-59 | Different authors give different footers. |
| Faqs.ToEmbed | src/rabot/cogs/faqs/faqs.py:62-65 | The embed has the FAQ's title and description and the FAQ colour. Its footer ends with the FAQ-list hint, and is only that hint exactly when the author is "me". |
| Faqs.Lookup | src/rabot/cogs/faqs/faqs.py:69-71 | The lookup finds the first entry whose key or an alias is the command, or none exactly when no entry answers it. |
| Faqs.GetFaq | src/rabot/cogs/faqs/faqs.py:62-72 | The reply is the first answering FAQ, or the default when none answers. It always has the FAQ colour and the FAQ-list hint. |
| Faqs.EntriesAnswerOnce | src/rabot/cogs/faqs/faqs.py:3-52 | No command is answered by two of the three FAQs, whatever their texts. |
| Faqs.GetFaqAnswering | src/rabot/cogs/faqs/faqs.py:68-71 | A command that a FAQ answers gets that FAQ's embed. |
| Faqs.LookupEntries | src/rabot/cogs/faqs/faqs.py:3-71 | Whatever the answers' texts, "lt" is answered by the second entry, "explain quiz" by the third and "hello" by none. |
| Faqs.GetFaqAlias | src/rabot/cogs/faqs/faqs.py:13-22 | The alias "lt" reaches the Language Transfer answer, credited to scarlettparker. |
| Faqs.GetFaqOwner | src/rabot/cogs/faqs/faqs.py:35-40 | An answer by "me" carries the hint only. |
| Faqs.GetFaqUnknown | src/rabot/cogs/faqs/faqs.py:68-72 | An unknown command gets the default "FAQ list" answer. |
| Coptic.Transliterate | src/rabot/cogs/fun/coptic.py:11-20 | The translation keeps the length and maps each character through the Greek→Coptic table. |
| Coptic.CopticChar | src/rabot/cogs/fun/coptic.py:13-15 | A character changes exactly when it is one of the 49 letters of `chars_gr`, and then becomes the `chars_co` letter at its position (its last one, as `dict` keeps the last pair). Changed characters come from the Greek block and land in the Coptic block. |
| Coptic.Lookup | src/rabot/cogs/fun/coptic.py:15 | A table built by `dict(zip(...))` maps a character of the first string to the second string's letter at its last position, since a later pair overwrites an earlier one, and leaves every other character alone. |
| Coptic.LookupLastWins | src/rabot/cogs/fun/coptic.py:15 | For a repeated key the later pair wins: `dict(zip("aa", "xy"))` maps `a` to `y`. |
| Coptic.CopticAt | src/rabot/cogs/fun/coptic.py:13-15 | The letter at its last position i of `chars_gr` becomes the letter at position i of `chars_co`. |
| Coptic.AccentedKept | src/rabot/cogs/fun/coptic.py:14-15 | Accented letters such as ά and έ lie in the Greek block but not in `chars_gr`, so they are kept. |
| Coptic.TransliterateNonGreek | src/rabot/cogs/fun/coptic.py:14-20 | Text with no letter of `chars_gr` is unchanged. |
| Coptic.TransliterateIdempotent | src/rabot/cogs/fun/coptic.py:13-20 | A second translation changes nothing. |
| Coptic.SigmasMerge | src/rabot/cogs/fun/coptic.py:13-15 | Medial and final sigma both become ⲥ, so the table is not invertible. |
| Coptic.ToCoptic | src/rabot/cogs/fun/coptic.py:11-20 | Without accent removal each output character is the table image of the input character. The output is always a fixed point of the table. |
| WordRef.TagsFor | src/rabot/cogs/wordref/wordref.py:14-47 | English text is stripped with the English tags (in some iteration order of the set) and other text with the Greek tags, none of them empty. |
| WordRef.CutSuffix | src/rabot/cogs/wordref/wordref.py:53-55 | `re.sub(tag + "$", "", t)` removes the tag exactly when the text ends with it. |
| WordRef.Pass | src/rabot/cogs/wordref/wordref.py:50-55 | One pass of the loop gives a piece of the text, and equals the text if it keeps the length. |
| WordRef.StripTags | src/rabot/cogs/wordref/wordref.py:49-57 | The loop ends on a text that a further pass leaves unchanged, and that text lies within the input. |
| WordRef.CutTagsUnchanged | src/rabot/cogs/wordref/wordref.py:52-57 | When cutting the tags changes nothing, the text ends with no tag and no `+`. |
| WordRef.FixedPointShape | src/rabot/cogs/wordref/wordref.py:49-57 | The cleaned text has no edge whitespace and ends with neither a tag nor a `+`. |
| WordRef.ParseWords | src/rabot/cogs/wordref/wordref.py:42-61 | Every word is non-empty, free of ", " and occurs in the cell text. |
| WordRef.WordsRejoin | src/rabot/cogs/wordref/wordref.py:59 | When no piece is empty, joining the words with ", " gives back the text. |
| WordRef.ParseWordsCleanWord | src/rabot/cogs/wordref/wordref.py:42-61 | A single clean word (no tag, no ", ", no edge whitespace) is returned as the only word. |
| WordRef.ParseWordsCutsIntoWord | src/rabot/cogs/wordref/wordref.py:47-61 | For an English word ending in "n" followed by the tag " n", the loop also cuts the word's own final "n". |
| WordRef.GroupRows | src/rabot/cogs/wordref/wordref.py:205-219 | Rows are cut into non-empty runs of one class, neighbouring runs differ in class, and the runs concatenate back to the rows. |
| WordRef.GroupRowsFlatten | src/rabot/cogs/wordref/wordref.py:205-219 | Every such grouping is recovered from its rows: grouping inverts flattening. |
| WordRef.GroupRowsExample | src/rabot/cogs/wordref/wordref.py:185-204 | The docstring layout odd,odd / even / odd,odd,odd / even,even gives four groups. |
| WordRef.InvertInvolution | src/rabot/cogs/wordref/wordref.py:153-155 | Inverting twice restores an item. An item is its own inverse exactly when both sides agree. |
| WordRef.InvertAll | src/rabot/cogs/wordref/wordref.py:153-155 | Every item of the table is inverted, in place, and the count is kept. |
| WordRef.CellsOf | src/rabot/cogs/wordref/wordref.py:223-224 | Exactly the group's cells of the requested class, in row and cell order. |
| WordRef.CellsOfAppend | src/rabot/cogs/wordref/wordref.py:223-224 | The cells of two runs of rows are those of each, concatenated. |
| WordRef.WordsOf | src/rabot/cogs/wordref/wordref.py:225-230 | The words of each text part of the cell, parsed in turn and concatenated. Each is non-empty and occurs in some part. |
| WordRef.WordsOfAppend | src/rabot/cogs/wordref/wordref.py:225-230 | The words of two runs of parts are those of each, concatenated. |
| WordRef.Examples | src/rabot/cogs/wordref/wordref.py:237-246 | The stripped texts of the example cells, in order, dropping those that hold the ⓘ mark. |
| WordRef.ExamplesAppend | src/rabot/cogs/wordref/wordref.py:237-246 | The examples of two runs of cells are those of each, concatenated. |
| WordRef.Balance | src/rabot/cogs/wordref/wordref.py:248-255 | Both lists are cut to the shorter length, each as a prefix of the original. |
| WordRef.GroupItem | src/rabot/cogs/wordref/wordref.py:221-258 | A group without a `FrWrd` or `ToWrd` cell raises `TypeError`. Otherwise the item holds the words of those cells and the balanced example lists. |
| WordRef.TryMap | src/rabot/cogs/wordref/wordref.py:221-260 | Mapping fails exactly when some element fails. |
| WordRef.GroupItems | src/rabot/cogs/wordref/wordref.py:184-260 | One item per group, each built from its group, with the first failing group failing the table. |
| WordRef.OwnItems | src/rabot/cogs/wordref/wordref.py:184-260 | A table gives one item per group, item i built from group i. It raises `TypeError` exactly when a group lacks a word cell. |
| WordRef.Orient | src/rabot/cogs/wordref/wordref.py:150-156 | A failure passes through, and a table without `data-dict` raises `KeyError`. Otherwise the items are inverted exactly when the table reads the other way than requested. Balanced items stay balanced. |
| WordRef.OrientFlip | src/rabot/cogs/wordref/wordref.py:153-155 | Orienting the other way inverts every item, and fails exactly when orienting this way does. |
| WordRef.TableItems | src/rabot/cogs/wordref/wordref.py:150-156 | A table's own items, or their failure. A table without `data-dict` raises `KeyError`, and the items are inverted exactly when the table's direction differs from the requested one. |
| WordRef.TableItemsShape | src/rabot/cogs/wordref/wordref.py:150-156 | A table fails only with `TypeError` or `KeyError`, and its items are balanced. |
| WordRef.CollectItems | src/rabot/cogs/wordref/wordref.py:149-156 | Collection succeeds exactly when every table does. A failure is that of the first failing table, and one table gives its own items. |
| WordRef.TryFlatMap | src/rabot/cogs/wordref/wordref.py:149-156 | Concatenating results that may fail succeeds exactly when each does. A failure is that of the first failing element, and every item comes from some element. |
| WordRef.TryFlatMapAppend | src/rabot/cogs/wordref/wordref.py:149-156 | Over two runs, it succeeds exactly when both do, concatenating their items. |
| WordRef.CollectItemsAppend | src/rabot/cogs/wordref/wordref.py:149-156 | The items of two runs of tables are those of each, concatenated, and fail exactly when either run fails. |
| WordRef.CollectItemsShape | src/rabot/cogs/wordref/wordref.py:149-156 | Collection fails only with `TypeError` or `KeyError`, and every collected item is balanced. |
| WordRef.FetchAccentedWord | src/rabot/cogs/wordref/wordref.py:169-182 | With a bold text that has a token, the result is the first token with commas stripped. Without one the current word is kept, and `RabotError` is raised exactly when there is no word. |
| WordRef.AccentedShape | src/rabot/cogs/wordref/wordref.py:177 | The accented word lies within the first token, with no comma at either end and no whitespace. |
| WordRef.EntryWord | src/rabot/cogs/wordref/wordref.py:141-144 | A Greek→English or random query takes the accented word, failing exactly when that lookup fails, and the other queries keep the requested word. Failure is `RabotError` and needs a missing word. |
| WordRef.RandomNeedsLookup | src/rabot/cogs/wordref/wordref.py:177-181 | On the first random attempt, while `self.word` is still unset (it is set at line 142), a page without the translation cell raises `RabotError`, and one with it yields a word. |
| WordRef.RandomRetryReusesWord | src/rabot/cogs/wordref/wordref.py:177-181 | On a later random attempt, with `self.word` left by the attempt before (set at line 142), a page without the translation cell goes on with that earlier word instead of raising; a page with one yields its own first word. |
| WordRef.TryFetchEntry | src/rabot/cogs/wordref/wordref.py:139-167 | A missing word raises `RabotError`, and any other failure is that of the tables (`TypeError` or `KeyError`). Otherwise the entry has the Greek-English URL, and its items are exactly the collected items with examples on both sides, in order. |
| WordRef.TableItemsFlip | src/rabot/cogs/wordref/wordref.py:153-155 | Flipping the requested direction inverts each item of a table. |
| WordRef.CollectItemsFlip | src/rabot/cogs/wordref/wordref.py:149-156 | Flipping the requested direction inverts every collected item and fails on the same tables. |
| WordRef.KeepWithExamplesInvert | src/rabot/cogs/wordref/wordref.py:158 | Filtering commutes with inverting. |
| WordRef.TryFetchEntryFlip | src/rabot/cogs/wordref/wordref.py:139-167 | The opposite direction gives the same URL and the inverted items. |
| WordRef.NewRequest | src/rabot/cogs/wordref/wordref.py:80-90 | No word means random mode and the random URL. Otherwise the word is stripped and the URL is exactly `BASE_URL/engr/word` for English words and `BASE_URL/gren/word` for others, with the raw word. |
| WordRef.FetchEmbed | src/rabot/cogs/wordref/wordref.py:105-117 | Outside random mode there is one attempt. In random mode it makes at most five attempts, stops at the first non-empty one, and comes back empty exactly when all five are empty. |
| Entry.IsValidEntry | src/rabot/cogs/wordref/entry.py:33-59 | Valid exactly when the URL, Greek word and English word are non-empty, both synonym sets are non-empty, and there are enough sentences. The part of speech does not matter. |
| Entry.NewEntry | src/rabot/cogs/wordref/entry.py:24-31 | A fresh entry keeps its constructor fields and has no embed. With no English word yet, it is never valid. |
| Entry.ValidityIgnoresPresentation | src/rabot/cogs/wordref/entry.py:56-59 | Part of speech, hiding, maximum shown and the stored embed do not affect validity. |
| Entry.ValidityFewerSentences | src/rabot/cogs/wordref/entry.py:52-54 | Lowering the required number of sentences keeps a valid entry valid. |
| Entry.IsValidEmbed | src/rabot/cogs/wordref/entry.py:61-70 | Checking without an embed fails the assertion. Otherwise the embed is accepted exactly when its length is below 2000. |
| Entry.SortTrueFirst | src/rabot/cogs/wordref/entry.py:72-77 | The sort by a boolean key with `reverse=True` is a permutation, puts true keys first, and is stable inside each group. |
| Entry.SortTrueFirstUnique | src/rabot/cogs/wordref/entry.py:72-77 | Any arrangement that puts true keys first and keeps each group's order is that sort. |
| Entry.Swap | src/rabot/cogs/wordref/entry.py:130 | Each sentence pair is swapped in place, and the count is kept. |
| Entry.SwapInvolution | src/rabot/cogs/wordref/entry.py:130 | Swapping the sentence pairs twice restores them. |
| Entry.SortSentences | src/rabot/cogs/wordref/entry.py:72-77 | It raises `TypeError` exactly when an English query without an English word has sentences to compare. Otherwise only the sentences change: they are permuted so that those containing the sort word come first, and each group keeps its order. |
| Entry.SortSentencesIdempotent | src/rabot/cogs/wordref/entry.py:72-77 | Sorting twice is sorting once. |
| Entry.ShownSynonyms | src/rabot/cogs/wordref/entry.py:146-151 | At most two synonyms are shown, all candidates other than the word, and the count is two or all of them. Unspaced ones come first, a spaced one is shown only when every unspaced one is, and each group keeps the candidates' order. |
| Entry.SortedPrefix | src/rabot/cogs/wordref/entry.py:146-151 | A prefix of the true-first sort is itself true-first, and takes an in-order prefix of each group. |
| Entry.SentenceLines | src/rabot/cogs/wordref/entry.py:157-163 | `min(len, max)` pairs are shown, pair k being the highlighted pair numbered `> k: `, with the English line inside the spoiler marks. It fails exactly when the highlighting of a shown pair fails; with the source's highlighter that is only a division by zero, and never without synonyms. |
| Entry.TokenOrder | src/rabot/cogs/wordref/entry.py:162-163 | The order in which a sentence's tokens are highlighted is an iteration order of `set(sentence.split())`. |
| Entry.TokenOrderAsListed | src/rabot/cogs/wordref/entry.py:162-163 | A highlighter that already lists such an iteration order is used in exactly that order. |
| Entry.PlainLines | src/rabot/cogs/wordref/entry.py:157-163 | The reference rendering without highlighting: `min(len, max)` pairs, pair k being `> k: ` and the Greek sentence, then `> k: ` and the English sentence inside the spoiler marks. |
| Entry.SentenceLinesPlain | src/rabot/cogs/wordref/entry.py:157-163 | With no synonyms the sentence loop never fails and produces exactly the reference rendering. |
| Entry.Description | src/rabot/cogs/wordref/entry.py:165-171 | The translation section opens the description when shown. With no section shown the description is empty, and with only translations it is that section. It is never longer than the three sections together. |
| Entry.DescriptionSections | src/rabot/cogs/wordref/entry.py:165-171 | The synonym section is kept whenever it is asked for, and the sentence section whenever at least one sentence line follows its header. |
| Entry.Title | src/rabot/cogs/wordref/entry.py:137 | The title is the bar, a space, the word, then exactly `pos`, a space and the bar. |
| Entry.Shown | src/rabot/cogs/wordref/entry.py:123-130 | For an English query the words swap: the shown word is the English word and the sort word the original Greek word. Synonyms, part of speech and the sentence count are kept, and a Greek query is unchanged. |
| Entry.PosSuffix | src/rabot/cogs/wordref/entry.py:123-134 | The part-of-speech suffix is non-empty exactly when shown, for a Greek query with a part of speech, and then reads ` - *…*`. |
| Entry.GetEmbed | src/rabot/cogs/wordref/entry.py:109-186 | Full contract below the table. |
| Entry.GetEmbedSentenceCount | src/rabot/cogs/wordref/entry.py:156-171 | On success the sentence section lists `min(len(sentences), max_sentences_shown)` pairs numbered from 1. The description is the shown sections in order: translations, synonyms, and the sentences when they have a line. |
| Entry.EmbedLinesShape | src/rabot/cogs/wordref/entry.py:156-163 | The rendered lines of the shown entry are `min(len, max)` pairs numbered from 1, each Greek line non-empty. |
| Entry.ValidEntryEmbeds | src/rabot/cogs/wordref/entry.py:43-45 | A valid entry never raises `RabotError` when rendered. |
| Entry.GetEmbedTwiceSwapsBack | src/rabot/cogs/wordref/entry.py:126-130 | For an English query a second `get_embed` swaps the words back. |
| Entry.AddEmbed | src/rabot/cogs/wordref/entry.py:188-203 | The stored embed is the one `get_embed` builds, and storing fails exactly when building does. |
| Entry.NewEntryEmbedAsserts | src/rabot/cogs/wordref/entry.py:24-63 | Checking the embed of a fresh entry fails the assertion. |
| Entry.AddEmbedThenCheck | src/rabot/cogs/wordref/entry.py:61-70 | After a successful `add_embed` the embed check no longer fails. |
| Wiktionary.Cells | src/rabot/cogs/wiktionary/wiktionary.py:228-240 | A row keeps exactly its non-empty cell texts, in order. |
| Wiktionary.VoiceRows | src/rabot/cogs/wiktionary/wiktionary.py:218-240 | At most 16 rows are read, all of them when there are fewer, and each keeps its non-empty cells. |
| Wiktionary.Transpose | src/rabot/cogs/wiktionary/wiktionary.py:261 | `zip(*rows)` has as many columns as the shortest row, and column j holds the j-th cell of every row. |
| Wiktionary.TransposeInvolution | src/rabot/cogs/wiktionary/wiktionary.py:261 | On non-empty rectangular rows, transposing twice restores the rows. |
| Wiktionary.Keyed | src/rabot/cogs/wiktionary/wiktionary.py:262-265 | The keys are the earlier keys plus the kept column heads. |
| Wiktionary.KeyedShape | src/rabot/cogs/wiktionary/wiktionary.py:261-265 | Columns of n+1 cells give kept tenses with n forms each. |
| Wiktionary.KeyedLast | src/rabot/cogs/wiktionary/wiktionary.py:326-327 | A repeated head keeps the forms of its last column. |
| Wiktionary.KeyedUntouched | src/rabot/cogs/wiktionary/wiktionary.py:257-265 | An earlier tense with no column of that head keeps its forms. |
| Wiktionary.KeyedAppend | src/rabot/cogs/wiktionary/wiktionary.py:257-265 | Keying a run of columns keys its first part, then its second on top. |
| Wiktionary.KeyedLastAll | src/rabot/cogs/wiktionary/wiktionary.py:262-265 | Every kept head takes the forms of the last column it heads. |
| Wiktionary.ParseVoice | src/rabot/cogs/wiktionary/wiktionary.py:257-265 | A voice's tenses are one keyed pass over the columns of all its blocks, each block without its category row. The keys are the earlier ones plus the relevant column heads, each with six forms. |
| Wiktionary.ParseVoiceLast | src/rabot/cogs/wiktionary/wiktionary.py:257-265 | A relevant tense holds the forms of the last column it heads in the voice, and a tense no column names keeps its earlier forms. |
| Wiktionary.TableData | src/rabot/cogs/wiktionary/wiktionary.py:206-242 | A voice frame without content raises `AttributeError`. Otherwise voice i holds the read rows (the first 16, each without empty cells) of the i-th voice frame. |
| Wiktionary.ReadVoices | src/rabot/cogs/wiktionary/wiktionary.py:216-242 | Each voice frame's rows are read in order, and a frame without content raises `AttributeError`. |
| Wiktionary.Voices | src/rabot/cogs/wiktionary/wiktionary.py:252-267 | Parsing fails exactly when some voice does not fit: its rows are not whole 8-row blocks or it has no label. A third voice of whole blocks raises `IndexError`. Success means every voice fits. |
| Wiktionary.VoicesError | src/rabot/cogs/wiktionary/wiktionary.py:252-255 | The first voice that does not fit decides the error: `RabotError` when its rows are not whole 8-row blocks, else `IndexError`. |
| Wiktionary.VoicesLabels | src/rabot/cogs/wiktionary/wiktionary.py:252-267 | Each voice is stored under its label in order, as its parsed tenses. |
| Wiktionary.VoicesShift | src/rabot/cogs/wiktionary/wiktionary.py:252-255 | After the first voice, the fit conditions are those of the rest. |
| Wiktionary.TableOne | src/rabot/cogs/wiktionary/wiktionary.py:188-269 | No voice frames give `None`, and a voice frame without content raises `AttributeError`. Other failures are `RabotError` or `IndexError`, and success means at most two voice frames, each reading into whole blocks. |
| Wiktionary.TableOneError | src/rabot/cogs/wiktionary/wiktionary.py:249-256 | Apart from a missing content, the first voice frame that does not fit decides the error: `RabotError` when its rows are not whole 8-row blocks, else `IndexError`. |
| Wiktionary.TableOneOk | src/rabot/cogs/wiktionary/wiktionary.py:249-256 | Table one succeeds exactly when there are at most two voice frames and each has content that reads into whole 8-row blocks. |
| Wiktionary.TableOneLabels | src/rabot/cogs/wiktionary/wiktionary.py:252-267 | With n voice frames the voices are labelled `VERB_VOICES[0]` to `VERB_VOICES[n-1]`. |
| Wiktionary.TableOneVoices | src/rabot/cogs/wiktionary/wiktionary.py:252-267 | Voice i holds the tenses parsed from the rows of the i-th voice frame. |
| Wiktionary.SevenRowTables | src/rabot/cogs/wiktionary/wiktionary.py:295-313 | Only non-empty rows of seven-row tables are collected. |
| Wiktionary.SevenRowTablesRows | src/rabot/cogs/wiktionary/wiktionary.py:295-313 | The rows read are, in order, the non-empty rows of each seven-row table. |
| Wiktionary.NonEmptyRows | src/rabot/cogs/wiktionary/wiktionary.py:303-313 | Each row without its empty cells, in order, with the rows left empty dropped. |
| Wiktionary.TableTwo | src/rabot/cogs/wiktionary/wiktionary.py:272-333 | No main content raises `RabotError`. `None` comes back exactly when there are no tables or no rows, and a height other than 7 fails the assertion. A result has only the active voice, with exactly the present and the imperfect, six forms each. |
| Wiktionary.TableTwoColumns | src/rabot/cogs/wiktionary/wiktionary.py:321-333 | The present and the imperfect hold the forms of the last of the seven rows' columns headed by them. |
| Wiktionary.TransposeHeads | src/rabot/cogs/wiktionary/wiktionary.py:326-327 | The column heads are the first row's cells. |
| Wiktionary.ActiveTwo | src/rabot/cogs/wiktionary/wiktionary.py:329-333 | `KeyError` exactly when the present or the imperfect column is missing. Otherwise the active voice holds exactly those two tenses, with their parsed forms. |
| Wiktionary.TableTwoOk | src/rabot/cogs/wiktionary/wiktionary.py:321-333 | On seven rows, table two succeeds exactly when the parsed columns hold the present and the imperfect. |
| Wiktionary.TableTwoKeys | src/rabot/cogs/wiktionary/wiktionary.py:321-333 | The seven-row layout succeeds exactly when its header row names both the present and the imperfect. |
| Wiktionary.ParseConjugation | src/rabot/cogs/wiktionary/wiktionary.py:169-185 | No conjugation header gives `None`. A failing or truthy first layout decides the result, and otherwise the second layout does. |
| Wiktionary.TableOneTruthy | src/rabot/cogs/wiktionary/wiktionary.py:183 | A table-one result always holds a voice, so `or` never falls through on it. |
| Wiktionary.FirstParsed | src/rabot/cogs/wiktionary/wiktionary.py:114-120 | The first candidate that parses, or fails, decides the result. `None` comes back exactly when all give `None`. |
| Wiktionary.FirstParsedOnlyCandidates | src/rabot/cogs/wiktionary/wiktionary.py:114-120 | Only the candidates' parses matter. |
| Wiktionary.FetchConjugation | src/rabot/cogs/wiktionary/wiktionary.py:105-120 | The word itself is tried first. Otherwise the deduplicated suggestions other than the word are tried, and a result always comes from the word or a suggestion. |
| Wiktionary.FetchNeverRetriesWord | src/rabot/cogs/wiktionary/wiktionary.py:106-120 | Once the word's own page fails, the result is the search over the suggestions under any parse that agrees off the word, whatever that parse says about the word itself: the word is not among the pages searched. |
| Wiktionary.CollectSections | src/rabot/cogs/wiktionary/wiktionary.py:346-349 | Exactly the found section ids are keys, each with its found contents. |
| Wiktionary.ParsePos | src/rabot/cogs/wiktionary/wiktionary.py:341-351 | The keys are the found ids of the language's list (English or Greek), each with its contents. |

`Entry.GetEmbed` (src/rabot/cogs/wordref/entry.py:109-186) states:

- An English query without an English word raises `RabotError`, and that is
  the only cause of `RabotError`. Otherwise it fails exactly when the
  sentence lines fail (the highlighting's division by zero), and never
  without synonyms.
- The embed carries:
  - the entry's URL and colour;
  - the title of the shown word with the part-of-speech suffix;
  - the forvo footer of the shown word, exactly when asked for;
  - the description built from the three sections of the entry afterwards,
    with the translation line first when translations are shown.
- The entry afterwards is the shown entry (words and sentence pairs swapped
  for an English query), with its sentences sorted so that those containing
  the original Greek word come first. For an English query its English word
  is the original Greek word.

## Behaviour modelled as written

- The synonym section is compared against `"**Synonyms:**"`. The header it
  builds is `"**Synonyms: **"`, with a space, so the comparison never
  removes the section (`Entry.DescriptionSections`).
- `parse_words` applies the English tag `n` as a bare suffix, on every pass.
  A word ending in "n" followed by the tag " n" loses its own final "n" too
  (`WordRef.ParseWordsCutsIntoWord`).
- `sort_sentences_by_contains_word` runs after the swap in `get_embed`. For
  an English query it tests the first sentence of each pair, which after
  the swap is the English sentence. The word it looks for is `en_word`, which
  after the swap is the Greek word (`Entry.SortSentences` applied to the
  swapped entry).
- `highlight_synonyms` replaces each matching token over the text the
  earlier replacements left. A later token that occurs inside an earlier
  emphasised one rewrites it: with "ab" and then "b" matching, "ab" becomes
  "**a**b****" (`Longest.EmphasisOverwritten`).

## Left out

- HTTP requests, BeautifulSoup parsing and HTML traversal: modelled as data (rows, cells, frames, section lookups).
  - `get_soup`, `WiktionaryQuery.create` and `remove_ancient_greek` are not modelled.
  - `parse_entry`, `parse_suggestions` and `parse_deite_suggestions` are not modelled either.
  - Their results are inputs.
- `forvo.py`, `main.py`, logging, `Entry.debug` and `__str__` have no logic the model needs, or only print.
- `interaction_check`, `edit_page` and `on_timeout` of `Pagination`: Discord I/O.
  - Their index effects are part of `Utils.OnClick` and `Utils.Navigate`.
- `try_fetch_embed` is not modelled: it only formats a `DictEntry` through `fmt_dict_entry`, whose definition is not part of this model. The entry it formats is modelled as `WordRef.DictEntry`, the result of `WordRef.TryFetchEntry`.
  - `WordRef.FetchEmbed` takes each attempt's outcome as an input.
- WordRef.FetchEmbed: the random attempts share one `Wordref` object. From the second attempt on, `self.word` holds the word the previous attempt fetched (src/rabot/cogs/wordref/wordref.py:142-143), and `fetch_accented_word` falls back to it (src/rabot/cogs/wordref/wordref.py:177-181) instead of raising `RabotError`. So a page without a translation cell is paired with the earlier word. Since each attempt's outcome is an input, this carried state is not part of `FetchEmbed`; `WordRef.RandomRetryReusesWord` states what one such attempt does.
- WordRef.Item, WordRef.DictEntry: `DictEntryItem`, `DictEntry` and `invert` are not modelled from their definitions. Their shape is inferred from their uses in src/rabot/cogs/wordref/wordref.py:152-167 and 257: four lists of strings per item, and `invert` exchanging the two sides.
- Unicode normalisation is taken as a function parameter:
  - `normalize_greek_word`;
  - `remove_greek_accents`;
  - `str.lower` beyond ASCII.
- Iteration orders are given as inputs:
  - the order of Python sets (`set(sentence.split())`, the synonym sets, `ATTRIBUTES_EN`);
  - the order of `{*suggestions} - {word}`.
- Longest.HighlightSynonyms: CPython's hash order of `set(sentence.split())` is not modelled. The order is an input, constrained to list each distinct token of the sentence exactly once (`Text.IsSetOrder`), and the contract holds for every such order.
- Entry.IsValidEmbed: `len(embed)` is a parameter, because Discord's embed length counts fields not modelled here.
- Entry.ShownSynonyms: takes the synonym set's iteration order as the input sequence, and does not model set difference on duplicates.
- Python dictionaries are unordered maps in the model, so the insertion order of the result dictionaries is not stated.
- WordRef.CutSuffix: Python's `tag$` also matches just before a final newline, but the model cuts a tag only at the very end. Each pass strips the text first, so the two differ only when a cut leaves the text ending in a newline (a newline just before the cut tag) and the next tag sits before that newline.
- Entry.GetEmbed: when the highlighting divides by zero, Python has already swapped and sorted the entry in place before raising. The model returns only the error, not that half-updated entry.
- `Wordref.fetch_wordref_entries` iterates a `td` tag's children; the model takes each child's text as given.

=== FILE: coptic.dfy ===
/**
 * `to_coptic` of `coptic.py`: every Greek letter of the two aligned 49-letter
 * alphabets `chars_gr` / `chars_co` becomes the Coptic letter at the same
 * position; any other character is kept. Accent removal
 * (`remove_greek_accents`: NFD, drop combining marks, NFC) is Unicode
 * normalisation and is taken as a parameter.
 */
module Coptic {

  /** `chars_gr`: the Greek letters the table maps, capital before small, with both sigmas (written in pieces of seven). */
  const CharsGr: string :=
    "ΑαΒβΓγΔ"
    + "δΕεΖζΗη"
    + "ΘθΙιΚκΛ"
    + "λΜμΝνΞξ"
    + "ΟοΠπΡρΣ"
    + "σςΤτΥυΦ"
    + "φΧχΨψΩω"

  /** `chars_co`: the Coptic letter for each position of `chars_gr`. */
  const CharsCo: string :=
    "ⲀⲁⲂⲃⲄⲅⲆ"
    + "ⲇⲈⲉⲌⲍⲎⲏ"
    + "ⲐⲑⲒⲓⲔⲕⲖ"
    + "ⲗⲘⲙⲚⲛⲜⲝ"
    + "ⲞⲟⲠⲡⲢⲣⲤ"
    + "ⲥⲥⲦⲧⲨⲩⲪ"
    + "ⲫⲬⲭⲮⲯⲰⲱ"

  /** The Greek block (U+0391 .. U+03C9) that `chars_gr` lies in. */
  predicate IsGreekLetterRange(c: char) {
    'Α' <= c <= 'ω'
  }

  /** The Coptic block (U+2C80 .. U+2CB1) that `chars_co` lies in. */
  predicate IsCopticLetterRange(c: char) {
    'Ⲁ' <= c <= 'ⲱ'
  }

  /** Every letter of `chars_gr` is in the Greek block, one per letter of `chars_co`. */
  lemma GreekAlphabet()
    ensures |CharsGr| == |CharsCo| == 49
    ensures forall c :: c in CharsGr ==> IsGreekLetterRange(c)
  {
  }

  /** Every letter of `chars_co` is in the Coptic block. */
  lemma CopticAlphabet()
    ensures forall c :: c in CharsCo ==> IsCopticLetterRange(c)
  {
  }

  /** `gr[i]` is the last occurrence of `c` in `gr`. */
  predicate LastAt(gr: string, c: char, i: int) {
    0 <= i < |gr| && gr[i] == c && forall j :: i < j < |gr| ==> gr[j] != c
  }

  /** A character has one last occurrence. */
  lemma LastAtUnique(gr: string, c: char, i: int, k: int)
    requires LastAt(gr, c, i) && LastAt(gr, c, k)
    ensures i == k
  {
  }

  /**
   * `dict(zip(gr, co))` looked up at `c`, with `str.translate`'s rule that a
   * character without an entry is kept. A later pair overwrites an earlier
   * one with the same key, so the letter of `co` aligned with the last
   * occurrence of `c` in `gr` wins.
   */
  function Lookup(gr: string, co: string, c: char): (d: char)
    requires |gr| == |co|
    ensures c !in gr ==> d == c
    ensures c in gr ==> exists i :: LastAt(gr, c, i) && d == co[i]
    decreases |gr|
  {
    if |gr| == 0 then c
    else
      var d := Lookup(gr[1..], co[1..], c);
      if c in gr[1..] then
        assert exists i :: LastAt(gr, c, i) && d == co[i] by {
          var i :| LastAt(gr[1..], c, i) && d == co[1..][i];
          assert LastAt(gr, c, i + 1);
        }
        d
      else if gr[0] == c then
        assert LastAt(gr, c, 0);
        co[0]
      else
        c
  }

  /** A repeated key keeps its last value: `dict(zip("aa", "xy"))["a"]` is "y". */
  lemma LookupLastWins()
    ensures Lookup("aa", "xy", 'a') == 'y'
  {
    var gr, co := "aa", "xy";
    assert LastAt(gr, 'a', 1);
    var i :| LastAt(gr, 'a', i) && Lookup(gr, co, 'a') == co[i];
    LastAtUnique(gr, 'a', i, 1);
  }

  /**
   * The translation table `dict(zip(chars_gr, chars_co))` applied to one
   * character: a letter of `chars_gr` becomes the Coptic letter at its
   * position in `chars_co`, and every other character, the accented Greek
   * letters included, is kept, as `str.translate` does.
   */
  function CopticChar(c: char): (d: char)
    ensures d != c <==> c in CharsGr
    ensures c in CharsGr ==> exists i :: LastAt(CharsGr, c, i) && d == CharsCo[i]
    ensures d == c || IsCopticLetterRange(d)
    ensures d != c ==> IsGreekLetterRange(c)
  {
    GreekAlphabet();
    CopticAlphabet();
    var d := Lookup(CharsGr, CharsCo, c);
    assert c in CharsGr ==> d in CharsCo;
    d
  }

  /** `text.translate(translation_table)`. */
  function Transliterate(s: string): (r: string)
    ensures |r| == |s|
    ensures forall i :: 0 <= i < |s| ==> r[i] == CopticChar(s[i])
  {
    if |s| == 0 then "" else [CopticChar(s[0])] + Transliterate(s[1..])
  }

  /** Text with no letter of `chars_gr` (accented letters included) passes through unchanged. */
  lemma {:induction false} TransliterateNonGreek(s: string)
    requires forall i :: 0 <= i < |s| ==> s[i] !in CharsGr
    ensures Transliterate(s) == s
  {
    if |s| > 0 {
      TransliterateNonGreek(s[1..]);
    }
  }

  /** No letter of the output is still in the table, so a second pass changes nothing. */
  lemma {:induction false} TransliterateIdempotent(s: string)
    ensures Transliterate(Transliterate(s)) == Transliterate(s)
  {
    var t := Transliterate(s);
    forall i | 0 <= i < |t|
      ensures !IsGreekLetterRange(t[i]) || t[i] == s[i]
    {
    }
    if |s| > 0 {
      TransliterateIdempotent(s[1..]);
    }
  }

  /** The letter at the last occurrence `i` of `c` in `chars_gr` gives the aligned letter of `chars_co`. */
  lemma CopticAt(c: char, i: int)
    requires LastAt(CharsGr, c, i)
    ensures CopticChar(c) == CharsCo[i]
  {
    var k :| LastAt(CharsGr, c, k) && CopticChar(c) == CharsCo[k];
    LastAtUnique(CharsGr, c, i, k);
  }

  /** Accented letters lie in the Greek block but not in `chars_gr`, so they are kept. */
  lemma AccentedKept()
    ensures IsGreekLetterRange('ά') && CopticChar('ά') == 'ά'
    ensures IsGreekLetterRange('έ') && CopticChar('έ') == 'έ'
  {
    assert 'ά' !in CharsGr && 'έ' !in CharsGr;
    var a, e := CopticChar('ά'), CopticChar('έ');
    assert a != 'ά' <==> 'ά' in CharsGr;
    assert e != 'έ' <==> 'έ' in CharsGr;
  }

  /** Both sigmas (medial and final) become the same Coptic sima, so the table is not invertible. */
  lemma SigmasMerge()
    ensures CopticChar('σ') == CopticChar('ς') == 'ⲥ'
    ensures Transliterate("σς") == "ⲥⲥ"
  {
    SigmaPositions();
    CopticAt('σ', 35);
    CopticAt('ς', 36);
    var t := "ς";
    assert Transliterate(t) == [CopticChar('ς')];
    assert Transliterate("σς") == [CopticChar('σ')] + Transliterate(t);
  }

  /** The two sigmas sit at positions 35 and 36 of `chars_gr`, each its last occurrence, both facing ⲥ in `chars_co`. */
  lemma SigmaPositions()
    ensures LastAt(CharsGr, 'σ', 35) && LastAt(CharsGr, 'ς', 36)
    ensures CharsCo[35] == 'ⲥ' && CharsCo[36] == 'ⲥ'
  {
    var back := CharsGr[37..];
    assert back == "ΤτΥυΦ" + "φΧχΨψΩω";
    assert 'σ' !in back && 'ς' !in back;
    assert forall j :: 37 <= j < 49 ==> CharsGr[j] == back[j - 37];
    assert CharsGr[35] == 'σ' && CharsGr[36] == 'ς';
  }

  /**
   * `to_coptic(text, remove_accents)`; `removeAccents` stands for
   * `remove_greek_accents` and is applied first only when the flag is set.
   */
  function ToCoptic(text: string, withoutAccents: bool, removeAccents: string -> string): (r: string)
    ensures withoutAccents ==> |r| == |removeAccents(text)|
    ensures !withoutAccents ==> |r| == |text|
    ensures !withoutAccents ==> forall i :: 0 <= i < |text| ==> r[i] == CopticChar(text[i])
    ensures withoutAccents ==> forall i :: 0 <= i < |r| ==> r[i] == CopticChar(removeAccents(text)[i])
    ensures forall i :: 0 <= i < |r| ==> CopticChar(r[i]) == r[i]
  {
    Transliterate(if withoutAccents then removeAccents(text) else text)
  }
}

=== FILE: entry.dfy ===
/**
 * The dictionary entry of `entry.py`: the checks that decide whether an entry
 * is worth showing, the reordering of its example sentences, and the Discord
 * embed built from it.
 *
 * Synonym sets are given in their iteration order, as sequences. The token
 * order of `set(sentence.split())` and the Greek normalisation that
 * `highlight_synonyms` relies on come in through a `Highlighter`.
 */
module Entry {
  import opened Wrappers
  import opened Text
  import Longest

  /** A Greek sentence and its English translation (swapped once an English query is shown). */
  type Pair = (string, string)

  /** The fields of a Discord embed that the bot fills. */
  datatype Embed = Embed(title: string, url: string, description: string, color: int, footer: Option<string>)

  /** The embed colour of every entry. */
  const EmbedColor: int := 0xFF5733

  /** Discord's limit on the total text of an embed (error code 40060 beyond it). */
  const MaxEmbedLength: nat := 2000

  /**
   * An entry: the request (`url`, the word, the direction, display options)
   * and what the parser collected for it.
   */
  datatype Entry = Entry(
    url: string,
    grWord: string,
    grEn: bool,
    hideWords: bool,
    minSentences: int,
    maxSentences: int,
    isRandom: bool,
    enWord: Option<string>,
    grSynonyms: seq<string>,
    enSynonyms: seq<string>,
    sentences: seq<Pair>,
    grPos: Option<string>,
    embed: Option<Embed>)

  /**
   * An entry as `__post_init__` leaves it: the request as given, nothing
   * collected yet, and so not valid (it has no English word).
   */
  function NewEntry(url: string, grWord: string, grEn: bool, hideWords: bool,
                    minSentences: int, maxSentences: int, isRandom: bool): (r: Entry)
    ensures r.url == url && r.grWord == grWord && r.grEn == grEn && r.hideWords == hideWords
    ensures r.minSentences == minSentences && r.maxSentences == maxSentences && r.isRandom == isRandom
    ensures !IsValidEntry(r) && r.embed.None?
  {
    Entry(url, grWord, grEn, hideWords, minSentences, maxSentences, isRandom, None, [], [], [], None, None)
  }

  /** Python truthiness of an optional string. */
  predicate Truthy(s: Option<string>) {
    s.Some? && |s.value| > 0
  }

  /**
   * `is_valid_entry`: the checks in the order `is_valid_entry` makes them,
   * each rejecting the entry; a missing part of speech is only logged.
   */
  function IsValidEntry(e: Entry): (r: bool)
    ensures r <==> && |e.url| > 0 && |e.grWord| > 0 && Truthy(e.enWord)
                   && |e.grSynonyms| > 0 && |e.enSynonyms| > 0 && |e.sentences| >= e.minSentences
  {
    if |e.url| == 0 then false
    else if |e.grWord| == 0 then false
    else if !Truthy(e.enWord) then false
    else if |e.grSynonyms| == 0 then false
    else if |e.enSynonyms| == 0 then false
    else if !(|e.sentences| >= e.minSentences) then false
    else true
  }

  /** The part of speech, the display options and the embed play no part in validity. */
  lemma ValidityIgnoresPresentation(e: Entry, pos: Option<string>, hidden: bool, maxShown: int, shownEmbed: Option<Embed>)
    ensures IsValidEntry(e.(grPos := pos, hideWords := hidden, maxSentences := maxShown, embed := shownEmbed)) == IsValidEntry(e)
  {
  }

  /** Asking for fewer sentences never turns a valid entry invalid. */
  lemma ValidityFewerSentences(e: Entry, fewer: int)
    requires IsValidEntry(e) && fewer <= e.minSentences
    ensures IsValidEntry(e.(minSentences := fewer))
  {
  }

  /**
   * `is_valid_embed`: `assert self.embed`, then the length limit. Discord's
   * `len(embed)` is the parameter `length`.
   */
  function IsValidEmbed(e: Entry, length: Embed -> nat): (r: Result<bool>)
    ensures r.Err? <==> e.embed.None?
    ensures r.Err? ==> r.error == AssertionError
    ensures r.Ok? ==> (r.value <==> length(e.embed.value) < MaxEmbedLength)
  {
    if e.embed.None? then Err(AssertionError)
    else Ok(!(length(e.embed.value) >= MaxEmbedLength))
  }

  // ----- Stable sorting on a boolean key -----

  /** Splitting by a key loses and duplicates nothing. */
  lemma {:induction false} KeepSplit<T>(xs: seq<T>, key: T -> bool)
    ensures multiset(Keep(xs, key, true)) + multiset(Keep(xs, key, false)) == multiset(xs)
    decreases |xs|
  {
    if |xs| > 0 {
      KeepSplit(xs[1..], key);
      KeepCons(xs, key, true);
      KeepCons(xs, key, false);
      SplitStep(xs, Keep(xs[1..], key, true), Keep(xs[1..], key, false),
                Keep(xs, key, true), Keep(xs, key, false), key(xs[0]));
    }
  }

  /** Putting the first element on either side of a split of the rest splits the whole. */
  lemma SplitStep<T>(xs: seq<T>, a: seq<T>, b: seq<T>, ta: seq<T>, tb: seq<T>, k: bool)
    requires |xs| > 0 && multiset(a) + multiset(b) == multiset(xs[1..])
    requires ta == (if k == true then [xs[0]] else []) + a
    requires tb == (if k == false then [xs[0]] else []) + b
    ensures multiset(ta) + multiset(tb) == multiset(xs)
  {
    var x := xs[0];
    assert xs == [x] + xs[1..];
    if k {
      assert ta == [x] + a && tb == b;
    } else {
      assert ta == a && tb == [x] + b;
    }
  }

  /** Every element whose key holds comes before every element whose key fails. */
  predicate TrueFirst<T>(r: seq<T>, key: T -> bool) {
    forall i, j :: 0 <= i < j < |r| && key(r[j]) ==> key(r[i])
  }

  /**
   * Python's `xs.sort(key=key, reverse=True)` for a boolean key: the sort is
   * stable, and `reverse` keeps equal keys in their original order, so the
   * elements whose key is `True` come first, each group in its original order.
   */
  function SortTrueFirst<T>(xs: seq<T>, key: T -> bool): (r: seq<T>)
    ensures multiset(r) == multiset(xs)
    ensures TrueFirst(r, key)
    ensures Keep(r, key, true) == Keep(xs, key, true)
    ensures Keep(r, key, false) == Keep(xs, key, false)
  {
    var front := Keep(xs, key, true);
    var back := Keep(xs, key, false);
    KeepSplit(xs, key);
    KeepAppend(front, back, key, true);
    KeepAppend(front, back, key, false);
    KeepAll(front, key, true);
    KeepNone(back, key, true);
    KeepNone(front, key, false);
    KeepAll(back, key, false);
    front + back
  }

  /** An arrangement with the true-keyed elements first is its own true group followed by its false group. */
  lemma {:induction false} TrueFirstSplits<T>(ys: seq<T>, key: T -> bool)
    requires TrueFirst(ys, key)
    ensures ys == Keep(ys, key, true) + Keep(ys, key, false)
    decreases |ys|
  {
    if |ys| > 0 {
      if key(ys[0]) {
        assert TrueFirst(ys[1..], key) by {
          forall i, j | 0 <= i < j < |ys| - 1 && key(ys[1..][j]) ensures key(ys[1..][i]) {
            assert key(ys[j + 1]);
          }
        }
        TrueFirstSplits(ys[1..], key);
      } else {
        assert forall j :: 0 <= j < |ys| ==> !key(ys[j]);
        KeepNone(ys, key, true);
        KeepAll(ys, key, false);
      }
    }
  }

  /**
   * The sort is determined by its three guarantees: an arrangement that puts
   * the true-keyed elements first and keeps each group in its original order
   * is exactly the sorted sequence.
   */
  lemma SortTrueFirstUnique<T>(xs: seq<T>, ys: seq<T>, key: T -> bool)
    requires TrueFirst(ys, key)
    requires Keep(ys, key, true) == Keep(xs, key, true)
    requires Keep(ys, key, false) == Keep(xs, key, false)
    ensures ys == SortTrueFirst(xs, key)
  {
    TrueFirstSplits(ys, key);
  }

  // ----- Sentences -----

  /** `[(esen, gsen) for gsen, esen in sentences]`. */
  function Swap(ps: seq<Pair>): (r: seq<Pair>)
    ensures |r| == |ps|
    ensures forall i :: 0 <= i < |ps| ==> r[i].0 == ps[i].1 && r[i].1 == ps[i].0
  {
    seq(|ps|, i requires 0 <= i < |ps| => (ps[i].1, ps[i].0))
  }

  /** Swapping the two sides twice gives the sentences back. */
  lemma SwapInvolution(ps: seq<Pair>)
    ensures Swap(Swap(ps)) == ps
  {
    assert forall i :: 0 <= i < |ps| ==> Swap(Swap(ps))[i] == ps[i];
  }

  /** The sort key of `sort_sentences_by_contains_word`: the word occurs in the first sentence of the pair. */
  function ContainsWord(w: string): Pair -> bool {
    (p: Pair) => Contains(p.0, w)
  }

  /** The word the sentences of `e` are sorted by: `gr_word` for a Greek query, `en_word` otherwise. */
  function SortWord(e: Entry): string
    requires e.grEn || e.enWord.Some?
  {
    if e.grEn then e.grWord else e.enWord.value
  }

  /**
   * `sort_sentences_by_contains_word`: a stable sort that puts the pairs whose
   * first sentence contains the sort word first, each group in its original
   * order. `None in sentence` raises `TypeError` as soon as the key is
   * computed for some pair. `SortTrueFirstUnique` shows that these facts fix
   * the order.
   */
  function SortSentences(e: Entry): (r: Result<Entry>)
    ensures r.Err? <==> !e.grEn && e.enWord.None? && |e.sentences| > 0
    ensures r.Err? ==> r.error == TypeError
    ensures r.Ok? ==> r.value == e.(sentences := r.value.sentences)
    ensures r.Ok? ==> multiset(r.value.sentences) == multiset(e.sentences)
    ensures r.Ok? && (e.grEn || e.enWord.Some?) ==>
      var key := ContainsWord(SortWord(e));
      && TrueFirst(r.value.sentences, key)
      && Keep(r.value.sentences, key, true) == Keep(e.sentences, key, true)
      && Keep(r.value.sentences, key, false) == Keep(e.sentences, key, false)
    ensures r.Ok? && !e.grEn && e.enWord.None? ==> r.value == e
  {
    if e.grEn then Ok(e.(sentences := SortTrueFirst(e.sentences, ContainsWord(e.grWord))))
    else if e.enWord.None? then
      if |e.sentences| == 0 then Ok(e) else Err(TypeError)
    else Ok(e.(sentences := SortTrueFirst(e.sentences, ContainsWord(e.enWord.value))))
  }

  /** Sorting twice changes nothing more. */
  lemma SortSentencesIdempotent(e: Entry)
    requires SortSentences(e).Ok?
    ensures SortSentences(SortSentences(e).value) == SortSentences(e)
  {
    var s := SortSentences(e).value;
    if e.grEn {
      SortTrueFirstUnique(s.sentences, s.sentences, ContainsWord(e.grWord));
    } else if e.enWord.Some? {
      SortTrueFirstUnique(s.sentences, s.sentences, ContainsWord(e.enWord.value));
    }
  }

  /** The swap `get_embed` makes for an English query: the words trade places, and so do the sentences. */
  function Swapped(e: Entry): (r: Entry)
    requires e.enWord.Some?
  {
    e.(grWord := e.enWord.value, enWord := Some(e.grWord), sentences := Swap(e.sentences))
  }

  // ----- Synonyms -----

  /** How many synonyms the embed lists. */
  const ShownSynonymCount: nat := 2

  /** `" " not in s`: the sort key under which synonyms without a space come first. */
  function NoSpace(s: string): bool {
    !Contains(s, " ")
  }

  function IsWord(w: string): string -> bool {
    (s: string) => s == w
  }

  /**
   * `gr_synonyms - {gr_word}`, sorted by `" " in s` (the synonyms without a
   * space first, each group in iteration order), cut to the first two.
   */
  function ShownSynonyms(synonyms: seq<string>, word: string): (r: seq<string>)
    ensures |r| <= ShownSynonymCount
    ensures forall s :: s in r ==> s in synonyms && s != word
    ensures |r| == ShownSynonymCount || |r| == |Keep(synonyms, IsWord(word), false)|
    ensures forall t :: t in synonyms && t != word && NoSpace(t) && (exists s :: s in r && !NoSpace(s)) ==> t in r
    ensures TrueFirst(r, NoSpace)
    ensures var others := Keep(synonyms, IsWord(word), false);
      && Keep(r, NoSpace, true) <= Keep(others, NoSpace, true)
      && Keep(r, NoSpace, false) <= Keep(others, NoSpace, false)
  {
    var others := Keep(synonyms, IsWord(word), false);
    var sorted := SortTrueFirst(others, NoSpace);
    var m := if |sorted| < ShownSynonymCount then |sorted| else ShownSynonymCount;
    ShownPrefix(synonyms, word, others, sorted, m);
    SortedPrefix(others, NoSpace, m);
    sorted[..m]
  }

  /**
   * A prefix of the sorted sequence still has the true-keyed elements first,
   * and each of its groups is a prefix of that group in the original order.
   */
  lemma SortedPrefix<T>(xs: seq<T>, key: T -> bool, m: nat)
    requires m <= |xs|
    ensures |SortTrueFirst(xs, key)| == |xs|
    ensures var p := SortTrueFirst(xs, key)[..m];
      && TrueFirst(p, key)
      && Keep(p, key, true) <= Keep(xs, key, true)
      && Keep(p, key, false) <= Keep(xs, key, false)
  {
    var sorted := SortTrueFirst(xs, key);
    assert |sorted| == |xs| by {
      assert |multiset(sorted)| == |multiset(xs)|;
    }
    GroupsPrefix(Keep(xs, key, true), Keep(xs, key, false), key, m);
  }

  /** A prefix of one group followed by another: each group of the prefix is a prefix of that group. */
  lemma GroupsPrefix<T>(front: seq<T>, back: seq<T>, key: T -> bool, m: nat)
    requires m <= |front| + |back|
    requires forall i :: 0 <= i < |front| ==> key(front[i])
    requires forall i :: 0 <= i < |back| ==> !key(back[i])
    ensures var p := (front + back)[..m];
      && TrueFirst(p, key)
      && Keep(p, key, true) <= front
      && Keep(p, key, false) <= back
  {
    var p := (front + back)[..m];
    if m <= |front| {
      assert p == front[..m];
      KeepAll(p, key, true);
      KeepNone(p, key, false);
    } else {
      var j := m - |front|;
      assert p == front + back[..j];
      KeepAppend(front, back[..j], key, true);
      KeepAppend(front, back[..j], key, false);
      KeepAll(front, key, true);
      KeepNone(front, key, false);
      KeepNone(back[..j], key, true);
      KeepAll(back[..j], key, false);
    }
  }

  /** The facts `ShownSynonyms` promises, about the prefix it cuts from the sorted synonyms. */
  lemma ShownPrefix(synonyms: seq<string>, word: string, others: seq<string>, sorted: seq<string>, m: nat)
    requires others == Keep(synonyms, IsWord(word), false)
    requires sorted == SortTrueFirst(others, NoSpace)
    requires m == if |sorted| < ShownSynonymCount then |sorted| else ShownSynonymCount
    ensures m <= |sorted| == |others|
    ensures forall s :: s in sorted[..m] ==> s in synonyms && s != word
    ensures forall t :: t in synonyms && t != word && NoSpace(t) && (exists s :: s in sorted[..m] && !NoSpace(s)) ==> t in sorted[..m]
  {
    forall s | s in others ensures s in synonyms && s != word {
      var i :| 0 <= i < |others| && others[i] == s;
      assert !IsWord(word)(others[i]);
    }
    forall t | t in synonyms && t != word ensures t in multiset(sorted) {
      KeepHas(synonyms, IsWord(word), false, t);
    }
    PrefixOfPermutation(others, sorted, m, synonyms, word);
  }

  /** A prefix of a true-first permutation of the other synonyms. */
  lemma PrefixOfPermutation(others: seq<string>, sorted: seq<string>, m: nat, synonyms: seq<string>, word: string)
    requires multiset(sorted) == multiset(others) && TrueFirst(sorted, NoSpace)
    requires forall s :: s in others ==> s in synonyms && s != word
    requires forall t :: t in synonyms && t != word ==> t in multiset(sorted)
    requires m == if |sorted| < ShownSynonymCount then |sorted| else ShownSynonymCount
    ensures m <= |sorted| == |others|
    ensures forall s :: s in sorted[..m] ==> s in synonyms && s != word
    ensures forall t :: t in synonyms && t != word && NoSpace(t) && (exists s :: s in sorted[..m] && !NoSpace(s)) ==> t in sorted[..m]
  {
    var r := sorted[..m];
    assert |sorted| == |others| by {
      assert |multiset(sorted)| == |multiset(others)|;
    }
    forall s | s in r ensures s in synonyms && s != word {
      assert s in multiset(others);
    }
    forall t | t in synonyms && t != word && NoSpace(t) && (exists s :: s in r && !NoSpace(s)) ensures t in r {
      var j :| 0 <= j < |r| && !NoSpace(r[j]);
      TrueFirstPrefix(sorted, NoSpace, m, j, t);
    }
  }

  /** When a prefix of a true-first arrangement holds a false-keyed element, it holds every true-keyed one. */
  lemma TrueFirstPrefix<T>(xs: seq<T>, key: T -> bool, m: nat, j: nat, t: T)
    requires TrueFirst(xs, key) && m <= |xs|
    requires j < m && !key(xs[j])
    requires t in xs && key(t)
    ensures t in xs[..m]
  {
    var k :| 0 <= k < |xs| && xs[k] == t;
    assert xs[..m][k] == t;
  }

  // ----- Rendering -----

  /**
   * The oracles `highlight_synonyms` needs: Greek normalisation, and a listing
   * of each sentence's words from which the iteration order of
   * `set(sentence.split())` is read (`Text.SetOrderFrom`: every such order
   * is its own reading).
   */
  datatype Highlighter = Highlighter(norm: string -> string, tokens: string -> seq<string>)

  /** The iteration order of `set(sentence.split())` under `h`. */
  function TokenOrder(h: Highlighter, sentence: string): (r: seq<string>)
    ensures IsSetOrder(r, SplitWs(sentence))
  {
    SetOrderFrom(h.tokens(sentence), SplitWs(sentence))
  }

  /** A highlighter whose listing already is an iteration order of the words uses exactly that order. */
  lemma TokenOrderAsListed(h: Highlighter, sentence: string)
    requires IsSetOrder(h.tokens(sentence), SplitWs(sentence))
    ensures TokenOrder(h, sentence) == h.tokens(sentence)
  {
    SetOrderFromValid(h.tokens(sentence), SplitWs(sentence));
  }

  /** `highlight_synonyms(sentence, synonyms)` under the orders `h` gives. */
  function Highlight(h: Highlighter, sentence: string, synonyms: seq<string>): (r: Result<string>)
    ensures |synonyms| == 0 ==> r == Ok(sentence)
    ensures r.Err? ==> r.error == ZeroDivisionError
  {
    Longest.HighlightSynonyms(h.norm, sentence, TokenOrder(h, sentence), synonyms)
  }

  /** A highlighting of a sentence by a synonym list, as the sentence loop calls it. */
  type Highlighting = (string, seq<string>) -> Result<string>

  /** `Highlight` under `h`, as a value the sentence loop is given. */
  function HighlightWith(h: Highlighter): (hl: Highlighting)
    ensures Plain(hl)
    ensures forall s, syn :: hl(s, syn) == Highlight(h, s, syn)
  {
    (s: string, syn: seq<string>) => Highlight(h, s, syn)
  }

  /** What every `highlight_synonyms` does: nothing without synonyms, and fail only by division by zero. */
  ghost predicate Plain(hl: Highlighting) {
    && (forall s :: hl(s, []) == Ok(s))
    && (forall s, syn :: hl(s, syn).Err? ==> hl(s, syn).error == ZeroDivisionError)
  }

  /** `f"> {n}: "`: a numbered quote line (not `n.`, which Discord would renumber). */
  function Label(n: nat): string {
    "> " + Decimal(n) + ": "
  }

  /** How many sentences a loop starting at `idx` renders before `idx >= max_sentences_shown` stops it. */
  function ShownCount(n: nat, room: int): nat {
    if room <= 0 then 0 else if n < room then n else room
  }

  /** A rendered pair of lines numbered `n`: the English line wrapped in `sep`. */
  predicate Numbered(line: Pair, n: nat, sep: string) {
    && StartsWith(line.0, Label(n))
    && StartsWith(line.1, Label(n) + sep)
    && EndsWith(line.1, sep + "\n")
  }

  /** Both sentences of a pair can be highlighted: no comparison divides by zero. */
  predicate Highlights(hl: Highlighting, p: Pair, grSynonyms: seq<string>, enSynonyms: seq<string>) {
    hl(p.0, grSynonyms).Ok? && hl(p.1, enSynonyms).Ok?
  }

  /** The two lines of sentence pair number `n`: `f"> {n}: {gr}\n"` and `f"> {n}: {sep}{en}{sep}\n"`, highlighted. */
  function RenderedLine(hl: Highlighting, n: nat, p: Pair, sep: string, grSynonyms: seq<string>, enSynonyms: seq<string>): Pair
    requires Highlights(hl, p, grSynonyms, enSynonyms)
  {
    (Label(n) + hl(p.0, grSynonyms).value + "\n",
     Label(n) + sep + hl(p.1, enSynonyms).value + sep + "\n")
  }

  /** One of the first `n` pairs cannot be highlighted. */
  predicate SomeFails(hl: Highlighting, pairs: seq<Pair>, n: nat, grSynonyms: seq<string>, enSynonyms: seq<string>) {
    exists k :: 0 <= k < n && k < |pairs| && !Highlights(hl, pairs[k], grSynonyms, enSynonyms)
  }

  /**
   * The sentence loop of `get_embed` from index `idx` on: for each pair the
   * numbered highlighted Greek line and the numbered, possibly hidden,
   * highlighted English line, until `max` sentences have been shown. It fails
   * exactly when one of the shown pairs cannot be highlighted.
   */
  function SentenceLines(hl: Highlighting, pairs: seq<Pair>, idx: nat, max: int, sep: string,
                         grSynonyms: seq<string>, enSynonyms: seq<string>): (r: Result<seq<Pair>>)
    ensures r.Ok? ==> |r.value| == ShownCount(|pairs|, max - idx)
    ensures r.Ok? ==> forall k :: 0 <= k < |r.value| ==>
      && Highlights(hl, pairs[k], grSynonyms, enSynonyms)
      && r.value[k] == RenderedLine(hl, idx + k + 1, pairs[k], sep, grSynonyms, enSynonyms)
    ensures r.Ok? ==> forall k :: 0 <= k < |r.value| ==> Numbered(r.value[k], idx + k + 1, sep)
    ensures r.Err? <==> SomeFails(hl, pairs, ShownCount(|pairs|, max - idx), grSynonyms, enSynonyms)
    ensures Plain(hl) && r.Err? ==> r.error == ZeroDivisionError
    ensures Plain(hl) && |grSynonyms| == 0 && |enSynonyms| == 0 ==> r.Ok?
    decreases |pairs|
  {
    if |pairs| == 0 || idx >= max then Ok([])
    else
      var gr := hl(pairs[0].0, grSynonyms);
      var en := hl(pairs[0].1, enSynonyms);
      var rest := SentenceLines(hl, pairs[1..], idx + 1, max, sep, grSynonyms, enSynonyms);
      SomeFailsCons(hl, pairs, idx, max, grSynonyms, enSynonyms);
      if gr.Err? then Err(gr.error)
      else if en.Err? then Err(en.error)
      else if rest.Err? then Err(rest.error)
      else
        var line := (Label(idx + 1) + gr.value + "\n", Label(idx + 1) + sep + en.value + sep + "\n");
        NumberedLine(idx + 1, gr.value, en.value, sep);
        NumberedCons(line, rest.value, idx, sep);
        RenderedCons(hl, line, rest.value, pairs, idx, sep, grSynonyms, enSynonyms);
        Ok([line] + rest.value)
  }

  /** The shown pairs from `idx` on fail when the first one does or one of the rest does. */
  lemma SomeFailsCons(hl: Highlighting, pairs: seq<Pair>, idx: nat, max: int, grSynonyms: seq<string>, enSynonyms: seq<string>)
    requires |pairs| > 0 && idx < max
    ensures SomeFails(hl, pairs, ShownCount(|pairs|, max - idx), grSynonyms, enSynonyms)
      <==> (|| !Highlights(hl, pairs[0], grSynonyms, enSynonyms)
            || SomeFails(hl, pairs[1..], ShownCount(|pairs| - 1, max - (idx + 1)), grSynonyms, enSynonyms))
  {
    var n := ShownCount(|pairs|, max - idx);
    var n1 := ShownCount(|pairs| - 1, max - (idx + 1));
    assert n == n1 + 1;
    if SomeFails(hl, pairs[1..], n1, grSynonyms, enSynonyms) {
      var k :| 0 <= k < n1 && k < |pairs| - 1 && !Highlights(hl, pairs[1..][k], grSynonyms, enSynonyms);
      assert pairs[1..][k] == pairs[k + 1];
    }
    if SomeFails(hl, pairs, n, grSynonyms, enSynonyms) && Highlights(hl, pairs[0], grSynonyms, enSynonyms) {
      var k :| 0 <= k < n && k < |pairs| && !Highlights(hl, pairs[k], grSynonyms, enSynonyms);
      assert pairs[1..][k - 1] == pairs[k];
    }
  }

  /** The rendered line of the first pair in front of those of the rest gives the rendered lines from `idx + 1` on. */
  lemma RenderedCons(hl: Highlighting, line: Pair, rest: seq<Pair>, pairs: seq<Pair>, idx: nat, sep: string,
                     grSynonyms: seq<string>, enSynonyms: seq<string>)
    requires |pairs| > 0 && |rest| < |pairs|
    requires Highlights(hl, pairs[0], grSynonyms, enSynonyms)
    requires line == RenderedLine(hl, idx + 1, pairs[0], sep, grSynonyms, enSynonyms)
    requires forall k :: 0 <= k < |rest| ==>
      && Highlights(hl, pairs[1..][k], grSynonyms, enSynonyms)
      && rest[k] == RenderedLine(hl, idx + 1 + k + 1, pairs[1..][k], sep, grSynonyms, enSynonyms)
    ensures forall k :: 0 <= k < |[line] + rest| ==>
      && Highlights(hl, pairs[k], grSynonyms, enSynonyms)
      && ([line] + rest)[k] == RenderedLine(hl, idx + k + 1, pairs[k], sep, grSynonyms, enSynonyms)
  {
    forall k | 0 <= k < |[line] + rest|
      ensures Highlights(hl, pairs[k], grSynonyms, enSynonyms)
      ensures ([line] + rest)[k] == RenderedLine(hl, idx + k + 1, pairs[k], sep, grSynonyms, enSynonyms)
    {
      if k > 0 {
        RenderedAt(hl, rest, pairs, idx, sep, grSynonyms, enSynonyms, k - 1);
        assert ([line] + rest)[k] == rest[k - 1];
      }
    }
  }

  lemma RenderedAt(hl: Highlighting, rest: seq<Pair>, pairs: seq<Pair>, idx: nat, sep: string,
                   grSynonyms: seq<string>, enSynonyms: seq<string>, j: nat)
    requires |pairs| > 0 && j < |rest| < |pairs|
    requires Highlights(hl, pairs[1..][j], grSynonyms, enSynonyms)
    requires rest[j] == RenderedLine(hl, idx + 1 + j + 1, pairs[1..][j], sep, grSynonyms, enSynonyms)
    ensures Highlights(hl, pairs[j + 1], grSynonyms, enSynonyms)
    ensures rest[j] == RenderedLine(hl, idx + (j + 1) + 1, pairs[j + 1], sep, grSynonyms, enSynonyms)
  {
    assert pairs[1..][j] == pairs[j + 1];
  }

  /** A line numbered `idx + 1` in front of lines numbered from `idx + 2` on gives lines numbered from `idx + 1` on. */
  lemma NumberedCons(line: Pair, rest: seq<Pair>, idx: nat, sep: string)
    requires Numbered(line, idx + 1, sep)
    requires forall k :: 0 <= k < |rest| ==> Numbered(rest[k], idx + 1 + k + 1, sep)
    ensures forall k :: 0 <= k < |[line] + rest| ==> Numbered(([line] + rest)[k], idx + k + 1, sep)
  {
    forall k | 0 <= k < |[line] + rest| ensures Numbered(([line] + rest)[k], idx + k + 1, sep) {
      if k > 0 {
        assert ([line] + rest)[k] == rest[k - 1];
      }
    }
  }

  lemma NumberedLine(n: nat, gr: string, en: string, sep: string)
    ensures Numbered((Label(n) + gr + "\n", Label(n) + sep + en + sep + "\n"), n, sep)
  {
    var a := Label(n) + sep + en + sep + "\n";
    assert a == (Label(n) + sep) + (en + sep + "\n");
    assert a == (Label(n) + sep + en) + (sep + "\n");
  }

  /** The pair of lines numbered `n` for a sentence pair shown without highlighting. */
  function PlainLine(n: nat, p: Pair, sep: string): Pair {
    (Label(n) + p.0 + "\n", Label(n) + sep + p.1 + sep + "\n")
  }

  /**
   * The lines shown for sentence pairs without highlighting: each pair's
   * plain line, numbered from `idx + 1`, until `max` sentences are shown.
   */
  function PlainLines(pairs: seq<Pair>, idx: nat, max: int, sep: string): (r: seq<Pair>)
    ensures |r| == ShownCount(|pairs|, max - idx)
    ensures forall k :: 0 <= k < |r| ==> r[k] == PlainLine(idx + k + 1, pairs[k], sep)
    decreases |pairs|
  {
    if |pairs| == 0 || idx >= max then []
    else
      var rest := PlainLines(pairs[1..], idx + 1, max, sep);
      PlainCons(PlainLine(idx + 1, pairs[0], sep), rest, pairs, idx, sep);
      [PlainLine(idx + 1, pairs[0], sep)] + rest
  }

  /** Without synonyms the lines are the sentences themselves, numbered from `idx + 1`. */
  lemma {:induction false} SentenceLinesPlain(hl: Highlighting, pairs: seq<Pair>, idx: nat, max: int, sep: string)
    requires Plain(hl)
    ensures SentenceLines(hl, pairs, idx, max, sep, [], []) == Ok(PlainLines(pairs, idx, max, sep))
    decreases |pairs|
  {
    if |pairs| > 0 && idx < max {
      SentenceLinesPlain(hl, pairs[1..], idx + 1, max, sep);
      PlainStep(hl, pairs, idx, max, sep);
    }
  }

  /** Without synonyms, the first pair shown is its plain line, in front of the lines of the others. */
  lemma PlainStep(hl: Highlighting, pairs: seq<Pair>, idx: nat, max: int, sep: string)
    requires Plain(hl)
    requires |pairs| > 0 && idx < max
    requires SentenceLines(hl, pairs[1..], idx + 1, max, sep, [], []).Ok?
    ensures SentenceLines(hl, pairs, idx, max, sep, [], [])
      == Ok([PlainLine(idx + 1, pairs[0], sep)] + SentenceLines(hl, pairs[1..], idx + 1, max, sep, [], []).value)
  {
    assert hl(pairs[0].0, []) == Ok(pairs[0].0);
    assert hl(pairs[0].1, []) == Ok(pairs[0].1);
  }

  /** The plain line of the first pair in front of the plain lines of the others. */
  lemma PlainCons(line: Pair, rest: seq<Pair>, pairs: seq<Pair>, idx: nat, sep: string)
    requires |pairs| > 0 && |rest| < |pairs| && line == PlainLine(idx + 1, pairs[0], sep)
    requires forall k :: 0 <= k < |rest| ==> rest[k] == PlainLine(idx + 1 + k + 1, pairs[1..][k], sep)
    ensures forall k :: 0 <= k < |[line] + rest| ==> ([line] + rest)[k] == PlainLine(idx + k + 1, pairs[k], sep)
  {
    forall k | 0 <= k < |[line] + rest| ensures ([line] + rest)[k] == PlainLine(idx + k + 1, pairs[k], sep) {
      if k > 0 {
        assert ([line] + rest)[k] == rest[k - 1];
        assert pairs[1..][k - 1] == pairs[k];
      }
    }
  }

  /** The lines of the sentence section, in order. */
  function Lines(ls: seq<Pair>): (r: string)
    ensures |ls| == 0 ==> r == ""
    ensures |ls| > 0 ==> |r| >= |ls[0].0|
  {
    if |ls| == 0 then "" else ls[0].0 + ls[0].1 + Lines(ls[1..])
  }

  const TitleBar: string := "∙∙∙∙∙"
  const Spoiler: string := "||"
  const TranslationsHeader: string := "**Translations:** "
  const SynonymsHeader: string := "**Synonyms: **"
  /** The text `get_embed` compares the synonym section against; it lacks the header's space, so the test never fails. */
  const SynonymsCompared: string := "**Synonyms:**"
  const SentencesHeader: string := "**Sentences:**\n"
  const ForvoPrefix: string := "https://forvo.com/word/"
  const ForvoSuffix: string := "/#el"

  /** The keyword arguments of `get_embed` / `add_embed`. */
  datatype Show = Show(pos: bool, translations: bool, synonyms: bool, sentences: bool, footer: bool)

  /** Their defaults. */
  const DefaultShow: Show := Show(true, true, false, true, true)

  /** An f-string rendering of an optional string: `None` prints as "None". */
  function OptText(s: Option<string>): string {
    if s.Some? then s.value else "None"
  }

  /** The description: each section when asked for and when it differs from its bare header. */
  function Description(show: Show, translations: string, synonyms: string, sentences: string): (r: string)
    ensures show.translations ==> StartsWith(r, translations)
    ensures !show.translations && !show.synonyms && !show.sentences ==> r == ""
    ensures !show.synonyms && !show.sentences ==> r == (if show.translations then translations else "")
    ensures |r| <= |translations| + |synonyms| + |sentences|
  {
    (if show.translations then translations else "")
    + (if show.synonyms && synonyms != SynonymsCompared then synonyms else "")
    + (if show.sentences && sentences != SentencesHeader then sentences else "")
  }

  /**
   * What the two header comparisons amount to: the synonym section is kept
   * whenever it is asked for, and the sentence section whenever some
   * sentence line follows its header.
   */
  lemma DescriptionSections(show: Show, translations: string, sep: string, synonymText: string, lines: seq<Pair>)
    requires forall k :: 0 <= k < |lines| ==> |lines[k].0| > 0
    ensures Description(show, translations, SynonymsHeader + sep + synonymText + sep + "\n", SentencesHeader + Lines(lines))
         == (if show.translations then translations else "")
          + (if show.synonyms then SynonymsHeader + sep + synonymText + sep + "\n" else "")
          + (if show.sentences && |lines| > 0 then SentencesHeader + Lines(lines) else "")
  {
    var syn := SynonymsHeader + sep + synonymText + sep + "\n";
    assert |syn| > |SynonymsCompared|;
    if |lines| > 0 {
      assert |SentencesHeader + Lines(lines)| > |SentencesHeader|;
    }
  }

  /** The spoiler marks around hidden text: `"||"` when the words are hidden, nothing otherwise. */
  function Sep(e: Entry): string {
    if e.hideWords then Spoiler else ""
  }

  /** `f"∙∙∙∙∙ {word}{pos} ∙∙∙∙∙"`. */
  function Title(word: string, pos: string): (r: string)
    ensures StartsWith(r, TitleBar + " " + word)
    ensures EndsWith(r, " " + TitleBar)
    ensures |r| == |word| + |pos| + 2 * |TitleBar| + 2
    ensures r[|TitleBar| + 1 + |word|..|r| - |TitleBar| - 1] == pos
  {
    var r := TitleBar + " " + word + pos + " " + TitleBar;
    assert r == (TitleBar + " " + word) + (pos + " " + TitleBar);
    assert r == (TitleBar + " " + word + pos) + (" " + TitleBar);
    assert r[|TitleBar| + 1 + |word|..|r| - |TitleBar| - 1] == pos;
    r
  }

  /** The word an entry is shown under: the Greek word, or the English one for an English query. */
  function ShownWord(e: Entry): string
    requires e.grEn || e.enWord.Some?
  {
    if e.grEn then e.grWord else e.enWord.value
  }

  /**
   * The entry as `get_embed` shows it: swapped for an English query. Its sort
   * word is then the requested word, whichever the direction.
   */
  function Shown(e: Entry): (d: Entry)
    requires e.grEn || e.enWord.Some?
    ensures d.grWord == ShownWord(e) && d.grEn == e.grEn
    ensures d.grEn || d.enWord.Some?
    ensures SortWord(d) == e.grWord
    ensures d.grSynonyms == e.grSynonyms && d.enSynonyms == e.enSynonyms && d.grPos == e.grPos
    ensures |d.sentences| == |e.sentences|
    ensures e.grEn ==> d == e
  {
    if e.grEn then e else Swapped(e)
  }

  /** `f" - *{gr_pos}*"` after the word, for a Greek query with a part of speech, when asked for. */
  function PosSuffix(e: Entry, show: Show): (r: string)
    ensures |r| > 0 <==> show.pos && e.grEn && Truthy(e.grPos)
    ensures |r| > 0 ==> StartsWith(r, " - *") && EndsWith(r, "*")
  {
    if show.pos && e.grEn && Truthy(e.grPos) then " - *" + e.grPos.value + "*" else ""
  }

  /** `f"**Translations:** {sep}{en_word}{sep}\n"`. */
  function TranslationsSection(d: Entry, sep: string): string {
    TranslationsHeader + sep + OptText(d.enWord) + sep + "\n"
  }

  /** `f"**Synonyms: **{sep}{', '.join(synonyms)}{sep}\n"`, over the synonyms shown. */
  function SynonymsSection(d: Entry, sep: string): string {
    SynonymsHeader + sep + Join(CommaSep, ShownSynonyms(d.grSynonyms, d.grWord)) + sep + "\n"
  }

  /** The sentence lines `get_embed` renders: the shown sentences, those containing the requested word first. */
  function EmbedLines(e: Entry, h: Highlighter): Result<seq<Pair>>
    requires e.grEn || e.enWord.Some?
  {
    SentenceLines(HighlightWith(h), SortTrueFirst(Shown(e).sentences, ContainsWord(e.grWord)),
                  0, e.maxSentences, Sep(e), e.grSynonyms, e.enSynonyms)
  }

  /**
   * `get_embed`: swap the two sides for an English query (`RabotError`
   * without an English word), sort the sentences by the requested word, then
   * build the title, the sections and the footer. Returns the embed together
   * with the entry as the method leaves it (swapped, sentences sorted).
   */
  function GetEmbed(e: Entry, show: Show, h: Highlighter): (r: Result<(Embed, Entry)>)
    ensures !e.grEn && e.enWord.None? ==> r == Err(RabotError)
    ensures r.Err? ==> r.error == RabotError || r.error == ZeroDivisionError
    ensures r.Err? && r.error == RabotError ==> !e.grEn && e.enWord.None?
    ensures (e.grEn || e.enWord.Some?) ==> (r.Err? <==> EmbedLines(e, h).Err?)
    ensures (e.grEn || e.enWord.Some?) && |e.grSynonyms| == 0 && |e.enSynonyms| == 0 ==> r.Ok?
    ensures r.Ok? ==> var (em, after) := r.value;
      && em.url == e.url && em.color == EmbedColor
      && em.title == Title(ShownWord(e), PosSuffix(e, show))
      && (em.footer.Some? <==> show.footer)
      && (show.footer ==> em.footer.value == ForvoPrefix + ShownWord(e) + ForvoSuffix)
      && after == Shown(e).(sentences := SortTrueFirst(Shown(e).sentences, ContainsWord(e.grWord)))
      && (!e.grEn ==> after.enWord == Some(e.grWord))
      && em.description == Description(show, TranslationsSection(after, Sep(e)), SynonymsSection(after, Sep(e)),
                                       SentencesHeader + Lines(EmbedLines(e, h).value))
      && (show.translations ==> StartsWith(em.description, TranslationsHeader + Sep(e) + OptText(after.enWord) + Sep(e) + "\n"))
  {
    if !e.grEn && e.enWord.None? then Err(RabotError)
    else
      var d := Shown(e);
      var title := Title(d.grWord, PosSuffix(e, show));
      var sep := Sep(e);
      var sorted := SortSentences(d).value;
      var lines :- SentenceLines(HighlightWith(h), sorted.sentences, 0, sorted.maxSentences, sep, sorted.grSynonyms, sorted.enSynonyms);
      var sentences := SentencesHeader + Lines(lines);
      var footer := if show.footer then Some(ForvoPrefix + d.grWord + ForvoSuffix) else None;
      Ok((Embed(title, e.url, Description(show, TranslationsSection(d, sep), SynonymsSection(d, sep), sentences),
                EmbedColor, footer), sorted))
  }

  /**
   * The description as shown: the translations when asked for, the synonyms
   * whenever asked for, and the sentences when asked for and at least one is
   * shown: `min(len(sentences), max_sentences_shown)` numbered pairs of lines.
   */
  lemma GetEmbedSentenceCount(e: Entry, show: Show, h: Highlighter)
    requires GetEmbed(e, show, h).Ok?
    ensures e.grEn || e.enWord.Some?
    ensures var lines := EmbedLines(e, h).value;
      && |lines| == ShownCount(|e.sentences|, e.maxSentences)
      && (forall k :: 0 <= k < |lines| ==> Numbered(lines[k], k + 1, Sep(e)))
    ensures var (em, after) := GetEmbed(e, show, h).value;
      var lines := EmbedLines(e, h).value;
      em.description
        == (if show.translations then TranslationsSection(after, Sep(e)) else "")
         + (if show.synonyms then SynonymsSection(after, Sep(e)) else "")
         + (if show.sentences && |lines| > 0 then SentencesHeader + Lines(lines) else "")
  {
    var lines := EmbedLines(e, h).value;
    var after := GetEmbed(e, show, h).value.1;
    EmbedLinesShape(e, h);
    DescriptionSections(show, TranslationsSection(after, Sep(e)), Sep(e),
                        Join(CommaSep, ShownSynonyms(after.grSynonyms, after.grWord)), lines);
  }

  /** The rendered sentence lines: as many as are shown, numbered from 1, none of them empty. */
  lemma EmbedLinesShape(e: Entry, h: Highlighter)
    requires e.grEn || e.enWord.Some?
    requires EmbedLines(e, h).Ok?
    ensures var lines := EmbedLines(e, h).value;
      && |lines| == ShownCount(|e.sentences|, e.maxSentences)
      && (forall k :: 0 <= k < |lines| ==> Numbered(lines[k], k + 1, Sep(e)))
      && (forall k :: 0 <= k < |lines| ==> |lines[k].0| > 0)
  {
    var sorted := SortTrueFirst(Shown(e).sentences, ContainsWord(e.grWord));
    assert |multiset(sorted)| == |multiset(Shown(e).sentences)|;
    var lines := EmbedLines(e, h).value;
    forall k | 0 <= k < |lines| ensures |lines[k].0| > 0 {
      assert StartsWith(lines[k].0, Label(k + 1));
    }
  }

  /** A valid entry never fails for want of an English word. */
  lemma ValidEntryEmbeds(e: Entry, show: Show, h: Highlighter)
    requires IsValidEntry(e)
    ensures GetEmbed(e, show, h) != Err(RabotError)
  {
  }

  /** `get_embed` is not idempotent for an English query: a second call swaps the words back. */
  lemma GetEmbedTwiceSwapsBack(e: Entry, show: Show, h: Highlighter)
    requires !e.grEn && e.enWord.Some?
    requires GetEmbed(e, show, h).Ok?
    requires GetEmbed(GetEmbed(e, show, h).value.1, show, h).Ok?
    ensures var again := GetEmbed(GetEmbed(e, show, h).value.1, show, h).value.1;
      again.grWord == e.grWord && again.enWord == e.enWord && |again.sentences| == |e.sentences|
  {
    var once := GetEmbed(e, show, h).value.1;
    var sorted := SortTrueFirst(Shown(e).sentences, ContainsWord(e.grWord));
    assert once.sentences == sorted;
    assert |multiset(sorted)| == |multiset(Shown(e).sentences)|;
    var again := GetEmbed(once, show, h).value.1;
    var resorted := SortTrueFirst(Shown(once).sentences, ContainsWord(once.grWord));
    assert again.sentences == resorted;
    assert |multiset(resorted)| == |multiset(Shown(once).sentences)|;
  }

  /** `add_embed`: build the embed and keep it on the entry. */
  function AddEmbed(e: Entry, show: Show, h: Highlighter): (r: Result<Entry>)
    ensures r.Ok? ==> r.value.embed.Some?
    ensures r.Err? <==> GetEmbed(e, show, h).Err?
    ensures r.Ok? ==> r.value.embed == Some(GetEmbed(e, show, h).value.0)
  {
    var (em, after) :- GetEmbed(e, show, h);
    Ok(after.(embed := Some(em)))
  }

  /** Before `add_embed` the embed check fails its assertion. */
  lemma NewEntryEmbedAsserts(url: string, grWord: string, grEn: bool, hideWords: bool,
                             minSentences: int, maxSentences: int, isRandom: bool, length: Embed -> nat)
    ensures IsValidEmbed(NewEntry(url, grWord, grEn, hideWords, minSentences, maxSentences, isRandom), length)
      == Err(AssertionError)
  {
  }

  /** After a successful `add_embed` the embed check passes its assertion and only the length decides. */
  lemma AddEmbedThenCheck(e: Entry, show: Show, h: Highlighter, length: Embed -> nat)
    requires AddEmbed(e, show, h).Ok?
    ensures IsValidEmbed(AddEmbed(e, show, h).value, length)
      == Ok(length(GetEmbed(e, show, h).value.0) < MaxEmbedLength)
  {
  }
}

=== FILE: faqs.dfy ===
/**
 * The FAQ replies of `faqs.py`: the table of answers, the footer that credits
 * an answer's author, and the lookup of a command by name or alias.
 */
module Faqs {
  import opened Wrappers
  import opened Text

  /** One FAQ answer: its key, its aliases, who wrote it, and the text shown. */
  datatype Faq = Faq(name: string, aliases: seq<string>, author: string, title: string, description: string)

  /** The parts of the reply embed: title, description, colour and footer text. */
  datatype FaqEmbed = FaqEmbed(title: string, description: string, color: int, footer: string)

  /** The colour of every FAQ reply. */
  const FaqColor: int := 0x3392FF

  /** The `FAQS` table, in its insertion order (the order a lookup visits it in). */
  const Table: seq<Faq> := Entries(DefaultDescription, LanguageTransferDescription, QuizDescription)

  /**
   * The entries of `FAQS` around their texts: `"default"` and `"quiz"` are
   * the owner's, `"language transfer"` is credited to its author.
   */
  function Entries(defaultText: string, languageTransferText: string, quizText: string): (r: seq<Faq>)
    ensures |r| == 3
  {
    [ Faq("default", [], Owner, "FAQ list", defaultText),
      Faq(
        "language transfer",
        ["lt", "explain language transfer", "explain lt", "what is language transfer", "what is lt"],
        "scarlettparker",
        "What is Language Transfer?",
        languageTransferText),
      Faq("quiz", ["explain quiz"], Owner, "", quizText) ]
  }

  /** The text of the default answer: the list of commands. */
  const DefaultDescription: string :=
    "\n"
    + "Available commands are:\n"
    + "`rabot, explain language transfer`\n"

  /** The text of the Language Transfer answer. */
  const LanguageTransferDescription: string :=
    "\n"
    + "Language Transfer is an audio series that teaches "
    + "the basics of Modern Greek in a natural and "
    + "easy-to-comprehend manner. It focuses on grammar "
    + "and teaches useful vocabulary to prepare you for "
    + "everyday conversations.\n"
    + "\n"
    + "It's highly encouraged to check it out, as it "
    + "will help you build a very solid foundation to "
    + "communicate in Greek.\n"
    + "The complete series can be found on:\n"
    + "- "
    + "[YouTube](https://www.youtube.com/watch?v=dHsgJkV9"
    + "J30&list=PLeA5t3dWTWvtWkl4oOV8J9SMB7L9N9Ogt)\n"
    + "- "
    + "[SoundCloud](https://soundcloud.com/languagetransf"
    + "er/sets/complete-greek-more-audios)\n"
    + "- [Transcript "
    + "(PDF)](https://static1.squarespace.com/static/5c69"
    + "bfa4f4e531370e74fa44/t/5d03d32873f6f10001a364b5/15"
    + "60531782855/COMPLETE+GREEK+-+Transcripts_LT.pdf)\n"
    + "\n"
    + "The audio series follows the teacher (Mihalis) as "
    + "he teaches a student useful grammatical "
    + "constructions and how to form sentences "
    + "naturally, allowing you to follow along by "
    + "putting yourself in the student’s shoes. More "
    + "useful resources can be found in [the resources "
    + "channel](https://discord.com/channels/350234668680"
    + "871946/359578025228107776/1132288734738522112), "
    + "notably in the pins, to help you advance your "
    + "Greek level after Language Transfer.\n"

  /** The text of the quiz answer. */
  const QuizDescription: string :=
    "\n"
    + "Type `k!q DECK`.\n"
    + "\n"
    + "Examples:\n"
    + "- `k!q mem5` (Memrise first 5k words by "
    + "frequency)\n"
    + "- `k!q mem1` (Memrise first 1k words by "
    + "frequency)\n"
    + "- `k!q apl` (Aorist Passive verbs)\n"
    + "- `k!q aal` (Aorist Active verbs)\n"
    + "- `k!q wd` (Words that appeared in "
    + "📅-word-of-the-day channel.\n"

  /** The answer given when nothing matches: `FAQS["default"]`. */
  const Default: Faq := Table[0]

  /** The last sentence of every footer. */
  const FooterTail: string := "Type 'rabot' for the full FAQ list."

  /** The author name that gets no credit line. */
  const Owner: string := "me"

  /**
   * `faq_footer(author)`: the owner's answers carry only the closing
   * sentence, everybody else's are credited first.
   */
  function FaqFooter(author: string): (r: string)
    ensures EndsWith(r, FooterTail)
    ensures author == Owner <==> r == FooterTail
    ensures author != Owner ==> StartsWith(r, "FAQ courtesy of " + author + ". ")
  {
    var attribution := if author == Owner then "" else "FAQ courtesy of " + author + ". ";
    assert (attribution + FooterTail)[|attribution|..] == FooterTail;
    assert (attribution + FooterTail)[..|attribution|] == attribution;
    attribution + FooterTail
  }

  /** Different authors get different footers, so the author can be read back from the footer. */
  lemma FaqFooterInjective(a: string, b: string)
    requires FaqFooter(a) == FaqFooter(b)
    ensures a == b
  {
    if a != Owner && b != Owner {
      var pa := "FAQ courtesy of " + a + ". ";
      var pb := "FAQ courtesy of " + b + ". ";
      assert |pa| == |pb|;
      assert FaqFooter(a)[..|pa|] == pa;
      assert FaqFooter(b)[..|pb|] == pb;
      assert a == pa[16..|pa| - 2];
      assert b == pb[16..|pb| - 2];
    }
  }

  /** `cmd in [faq_name] + info["alias"]`. */
  predicate Answers(faq: Faq, cmd: string) {
    cmd == faq.name || cmd in faq.aliases
  }

  /** The first entry of `table`, in order, that answers `cmd`. */
  function Lookup(table: seq<Faq>, cmd: string): (r: Option<nat>)
    ensures r.Some? ==> (r.value < |table| && Answers(table[r.value], cmd)
      && forall j :: 0 <= j < r.value ==> !Answers(table[j], cmd))
    ensures r.None? <==> forall j :: 0 <= j < |table| ==> !Answers(table[j], cmd)
    decreases |table|
  {
    if |table| == 0 then None
    else if Answers(table[0], cmd) then Some(0)
    else
      var r := Lookup(table[1..], cmd);
      assert forall j :: 1 <= j < |table| ==> table[j] == table[1..][j - 1];
      if r.None? then None else Some(r.value + 1)
  }

  /** `to_embed(faq)`: the answer's texts, the FAQ colour, and a footer that credits any author but the owner. */
  function ToEmbed(faq: Faq): (e: FaqEmbed)
    ensures e.title == faq.title && e.description == faq.description && e.color == FaqColor
    ensures EndsWith(e.footer, FooterTail)
    ensures e.footer == FooterTail <==> faq.author == Owner
  {
    FaqEmbed(faq.title, faq.description, FaqColor, FaqFooter(faq.author))
  }

  /**
   * `get_faq(cmd)`: the embed of the first answer whose key or one of whose
   * aliases is exactly `cmd`, or of the default answer when none is.
   */
  function GetFaq(cmd: string): (e: FaqEmbed)
    ensures forall i :: (0 <= i < |Table| && Answers(Table[i], cmd)
      && (forall j :: 0 <= j < i ==> !Answers(Table[j], cmd))) ==> e == ToEmbed(Table[i])
    ensures (forall i :: 0 <= i < |Table| ==> !Answers(Table[i], cmd)) ==> e == ToEmbed(Default)
    ensures EndsWith(e.footer, FooterTail) && e.color == FaqColor
  {
    var r := Lookup(Table, cmd);
    if r.Some? then ToEmbed(Table[r.value]) else ToEmbed(Default)
  }

  /** No command is answered by two entries of the table, whatever the answers' texts. */
  lemma EntriesAnswerOnce(a: string, b: string, c: string, cmd: string)
    ensures forall i, j :: 0 <= i < j < 3 && Answers(Entries(a, b, c)[i], cmd) ==> !Answers(Entries(a, b, c)[j], cmd)
  {
    var t := Entries(a, b, c);
    assert t[0].aliases == [];
    assert forall k :: 0 <= k < |t[1].aliases| ==>
      t[1].aliases[k] != "default" && t[1].aliases[k] != "quiz" && t[1].aliases[k] != "explain quiz";
  }

  /** So the reply for a command is that of any entry answering it, not only the first. */
  lemma GetFaqAnswering(cmd: string, i: nat)
    requires i < |Table| && Answers(Table[i], cmd)
    ensures GetFaq(cmd) == ToEmbed(Table[i])
  {
    EntriesAnswerOnce(DefaultDescription, LanguageTransferDescription, QuizDescription, cmd);
    assert forall j :: 0 <= j < i ==> !Answers(Table[j], cmd);
  }

  /** Which entry of the table answers each sample command, whatever the answers' texts. */
  lemma LookupEntries(a: string, b: string, c: string)
    ensures Lookup(Entries(a, b, c), "lt") == Some(1)
    ensures Lookup(Entries(a, b, c), "explain quiz") == Some(2)
    ensures Lookup(Entries(a, b, c), "hello") == None
  {
    var t := Entries(a, b, c);
    assert !Answers(t[0], "lt") && Answers(t[1], "lt");
    assert !Answers(t[0], "explain quiz") && !Answers(t[1], "explain quiz") && Answers(t[2], "explain quiz");
    assert !Answers(t[0], "hello") && !Answers(t[1], "hello") && !Answers(t[2], "hello");
  }

  /** An alias reaches its answer, which credits its author. */
  lemma GetFaqAlias()
    ensures GetFaq("lt").title == "What is Language Transfer?"
    ensures GetFaq("lt").footer == "FAQ courtesy of " + "scarlettparker" + ". " + FooterTail
  {
    LookupEntries(DefaultDescription, LanguageTransferDescription, QuizDescription);
    assert Table[1].author == "scarlettparker" && Table[1].author != Owner;
  }

  /** The owner's answers carry no credit line. */
  lemma GetFaqOwner()
    ensures GetFaq("explain quiz").footer == FooterTail
  {
    LookupEntries(DefaultDescription, LanguageTransferDescription, QuizDescription);
    assert Table[2].author == Owner;
  }

  /** An unknown command gets the default answer. */
  lemma GetFaqUnknown()
    ensures GetFaq("hello") == ToEmbed(Default)
    ensures GetFaq("hello").title == "FAQ list"
  {
    LookupEntries(DefaultDescription, LanguageTransferDescription, QuizDescription);
  }
}

=== FILE: longest.dfy ===
/**
 * The fuzzy word matcher of `longest.py`: a greedy left-to-right common
 * substring length, the normalised distance built on it, and the emphasis of
 * sentence tokens that are close to a synonym.
 *
 * Unicode normalisation (`normalize_greek_word`: NFKD, case folding, dropping
 * combining marks) is not reimplemented: every operation that needs it takes
 * it as a parameter `norm`.
 */
module Longest {
  import opened Wrappers
  import opened Text

  /** `a[k..k + n]` is a piece of `a` that also occurs in `b`. */
  predicate CommonAt(a: string, b: string, k: int, n: int) {
    0 <= k && 0 <= n && k + n <= |a| && Contains(b, a[k..k + n])
  }

  /** A common piece is no longer than either string. */
  lemma CommonBound(a: string, b: string, k: int, n: int)
    requires CommonAt(a, b, k, n)
    ensures n <= |a| && n <= |b|
  {
    var j :| OccursAt(b, a[k..k + n], j);
  }

  function Max(x: int, y: int): int {
    if x >= y then x else y
  }

  /**
   * The inner loop of `lcs`: starting from a prefix length `i` whose prefix
   * `a[..i - 1]` occurs in `b`, grow `i` while `a[..i]` occurs in `b` and
   * `i < |a|`. The result is where the loop breaks.
   */
  function RunEnd(a: string, b: string, i: nat): (r: nat)
    requires 1 <= i <= |a|
    requires Contains(b, a[..i - 1])
    ensures i <= r <= |a|
    ensures Contains(b, a[..r - 1])
    ensures r == |a| || !Contains(b, a[..r])
    decreases |a| - i
  {
    if Contains(b, a[..i]) && i < |a| then
      assert a[..i] == a[..(i + 1) - 1];
      RunEnd(a, b, i + 1)
    else i
  }

  /**
   * The outer loop of `lcs` over the remaining text `a`, with `best` the
   * value of the running maximum `var`. Each pass drops at least one leading
   * character, so the scan terminates. The result is `best` or the length of
   * a piece of `a` that occurs in `b`, and it never reaches `|a|`.
   */
  function Scan(a: string, b: string, best: nat): (r: nat)
    ensures best <= r
    ensures r == best || (r < |a| && exists k :: CommonAt(a, b, k, r))
    decreases |a|
  {
    if |a| == 0 then best
    else
      assert OccursAt(b, a[..0], 0);
      var i := RunEnd(a, b, 1);
      var r := Scan(a[i..], b, Max(i - 1, best));
      ScanStep(a, b, best, i, r);
      r
  }

  /** One pass of the outer loop: what the rest of the scan finds is a piece of `a` too. */
  lemma ScanStep(a: string, b: string, best: nat, i: nat, r: nat)
    requires 1 <= i <= |a| && Contains(b, a[..i - 1])
    requires Max(i - 1, best) <= r
    requires r == Max(i - 1, best) || (r < |a| - i && exists k :: CommonAt(a[i..], b, k, r))
    ensures r == best || (r < |a| && exists k :: CommonAt(a, b, k, r))
  {
    if r == Max(i - 1, best) {
      if r != best {
        assert a[0..i - 1] == a[..i - 1];
        assert CommonAt(a, b, 0, i - 1);
      }
    } else {
      var k :| CommonAt(a[i..], b, k, r);
      assert a[i..][k..k + r] == a[i + k..i + k + r];
      assert CommonAt(a, b, i + k, r);
    }
  }

  /** A piece of `b` stays a piece of `b` when cut shorter from the right. */
  lemma PrefixContained(a: string, b: string, m: nat, n: nat)
    requires m <= n <= |a| && Contains(b, a[..n])
    ensures Contains(b, a[..m])
  {
    var j :| OccursAt(b, a[..n], j);
    assert b[j..j + m] == a[..m];
    assert OccursAt(b, a[..m], j);
  }

  /** The inner loop stops at the first prefix length that is not in `b`, so no longer prefix (short of `a`) is in `b`. */
  lemma {:induction false} RunEndMaximal(a: string, b: string, i: nat)
    requires 1 <= i <= |a|
    requires Contains(b, a[..i - 1])
    ensures forall n :: RunEnd(a, b, i) <= n < |a| ==> !Contains(b, a[..n])
    decreases |a| - i
  {
    if Contains(b, a[..i]) && i < |a| {
      assert a[..i] == a[..(i + 1) - 1];
      RunEndMaximal(a, b, i + 1);
    } else {
      forall n | i <= n < |a| && Contains(b, a[..n]) ensures false {
        PrefixContained(a, b, i, n);
      }
    }
  }

  /**
   * One greedy pass of `lcs` over `a`, starting at `s`: the piece `a[s..s + n]`
   * occurs in `b`, and the pass stops either one short of the end of `a` or
   * because one more character would not occur in `b`.
   */
  predicate GreedyPass(a: string, b: string, s: int, n: nat) {
    && 0 <= s && s + n + 1 <= |a|
    && Contains(b, a[s..s + n])
    && (s + n + 1 == |a| || !Contains(b, a[s..s + n + 1]))
  }

  /** The pass lengths `i - 1` of the outer loop of `lcs`, in order. */
  function Passes(a: string, b: string): seq<nat>
    decreases |a|
  {
    if |a| == 0 then []
    else
      assert OccursAt(b, a[..0], 0);
      var i := RunEnd(a, b, 1);
      [i - 1] + Passes(a[i..], b)
  }

  /** How much of the text the passes `p` consume: each pass its length and one more character. */
  function Consumed(p: seq<nat>): nat {
    if |p| == 0 then 0 else p[0] + 1 + Consumed(p[1..])
  }

  /** A greedy pass over the rest `a[i..]` is the same pass over `a`, shifted by `i`. */
  lemma GreedyShift(a: string, b: string, i: nat, s: nat, n: nat)
    requires i <= |a| && GreedyPass(a[i..], b, s, n)
    ensures GreedyPass(a, b, i + s, n)
  {
    assert a[i..][s..s + n] == a[i + s..i + s + n];
    if s + n + 1 < |a| - i {
      var u, v := a[i..][s..s + n + 1], a[i + s..i + s + n + 1];
      assert u == v by {
        forall j | 0 <= j < n + 1 ensures u[j] == v[j] {
          assert a[i..][s + j] == a[i + s + j];
        }
      }
    }
  }

  /** The passes before pass `k + 1` are the first pass and the `k` after it. */
  lemma ConsumedCons(x: nat, q: seq<nat>, k: nat)
    requires k <= |q|
    ensures Consumed(([x] + q)[..k + 1]) == x + 1 + Consumed(q[..k])
  {
    assert ([x] + q)[..k + 1][1..] == q[..k];
  }

  /**
   * The passes tile `a`: pass `k` starts where the earlier ones end, and each
   * is a greedy pass there.
   */
  lemma {:induction false} PassesGreedy(a: string, b: string)
    ensures Consumed(Passes(a, b)) == |a|
    ensures forall k :: 0 <= k < |Passes(a, b)| ==> GreedyPass(a, b, Consumed(Passes(a, b)[..k]), Passes(a, b)[k])
    decreases |a|
  {
    if |a| > 0 {
      assert OccursAt(b, a[..0], 0);
      var i := RunEnd(a, b, 1);
      var q := Passes(a[i..], b);
      var p := Passes(a, b);
      assert p == [i - 1] + q;
      PassesGreedy(a[i..], b);
      FirstPassGreedy(a, b, i);
      assert Consumed(p[..0]) == 0;
      ShiftedPasses(a, b, i, q, p);
    }
  }

  /** The first pass of the outer loop is a greedy pass from the start of `a`. */
  lemma FirstPassGreedy(a: string, b: string, i: nat)
    requires 1 <= i <= |a| && Contains(b, a[..0]) && i == RunEnd(a, b, 1)
    ensures GreedyPass(a, b, 0, i - 1)
  {
    assert a[0..i - 1] == a[..i - 1];
    assert i < |a| ==> a[0..i] == a[..i];
  }

  /** The greedy passes over the rest `a[i..]`, after a first pass of length `i - 1`, are greedy passes over `a`. */
  lemma ShiftedPasses(a: string, b: string, i: nat, q: seq<nat>, p: seq<nat>)
    requires 1 <= i <= |a| && p == [i - 1] + q
    requires forall k :: 0 <= k < |q| ==> GreedyPass(a[i..], b, Consumed(q[..k]), q[k])
    ensures forall k :: 1 <= k < |p| ==> GreedyPass(a, b, Consumed(p[..k]), p[k])
  {
    forall k | 1 <= k < |p| ensures GreedyPass(a, b, Consumed(p[..k]), p[k]) {
      var c := Consumed(q[..k - 1]);
      ConsumedCons(i - 1, q, k - 1);
      assert p[k] == q[k - 1];
      GreedyShift(a, b, i, c, q[k - 1]);
    }
  }

  /** The outer loop keeps the running maximum: `Scan` is the largest of `best` and the pass lengths. */
  lemma {:induction false} ScanMax(a: string, b: string, best: nat)
    ensures forall k :: 0 <= k < |Passes(a, b)| ==> Passes(a, b)[k] <= Scan(a, b, best)
    ensures Scan(a, b, best) == best || Scan(a, b, best) in Passes(a, b)
    decreases |a|
  {
    if |a| > 0 {
      assert OccursAt(b, a[..0], 0);
      var i := RunEnd(a, b, 1);
      ScanMax(a[i..], b, Max(i - 1, best));
      assert Passes(a, b) == [i - 1] + Passes(a[i..], b);
    }
  }

  /**
   * `lcs(a, b)`: `|a|` when the strings are equal, otherwise the greedy scan.
   * The result is the length of a piece of `a` that occurs in `b`, so it is
   * bounded by both lengths; unless `a == b` it is strictly below a
   * non-empty `|a|`, because the `i < len(a)` guard never counts the last
   * character of the remaining text.
   */
  function Lcs(a: string, b: string): (r: nat)
    ensures a == b ==> r == |a|
    ensures r <= |a| && r <= |b|
    ensures a != b && |a| > 0 ==> r < |a|
    ensures exists k :: CommonAt(a, b, k, r)
    ensures a != b ==> forall n :: 0 <= n < |a| && Contains(b, a[..n]) ==> n <= r
  {
    if a == b then
      assert a[0..|a|] == a;
      assert OccursAt(b, a, 0);
      assert CommonAt(a, b, 0, |a|);
      |a|
    else
      var r := Scan(a, b, 0);
      assert exists k :: CommonAt(a, b, k, r) by {
        if r == 0 {
          assert OccursAt(b, a[0..0], 0);
          assert CommonAt(a, b, 0, 0);
        }
      }
      var k :| CommonAt(a, b, k, r);
      CommonBound(a, b, k, r);
      LcsFirstPass(a, b);
      r
  }

  /** The first pass alone already finds the longest prefix of `a` (short of `a`) that occurs in `b`. */
  lemma LcsFirstPass(a: string, b: string)
    ensures forall n :: 0 <= n < |a| && Contains(b, a[..n]) ==> n <= Scan(a, b, 0)
  {
    if |a| > 0 {
      assert OccursAt(b, a[..0], 0);
      RunEndMaximal(a, b, 1);
      ScanMax(a, b, 0);
      assert Passes(a, b)[0] == RunEnd(a, b, 1) - 1;
    }
  }

  /** For different strings `lcs` is the longest greedy pass, or 0 when no pass finds anything. */
  lemma LcsPasses(a: string, b: string)
    requires a != b
    ensures forall k :: 0 <= k < |Passes(a, b)| ==> Passes(a, b)[k] <= Lcs(a, b)
    ensures Lcs(a, b) == 0 || Lcs(a, b) in Passes(a, b)
  {
    ScanMax(a, b, 0);
  }

  /** `max(len(aa), len(bb))` of `get_delta`, on the normalised words. */
  function MaxLen(norm: string -> string, a: string, b: string): nat {
    Max(|norm(a)|, |norm(b)|)
  }

  /** `m = max(lcs(aa, bb), lcs(bb, aa))` of `get_delta`, on the normalised words. */
  function Overlap(norm: string -> string, a: string, b: string): (m: nat)
    ensures m <= MaxLen(norm, a, b)
    ensures m == MaxLen(norm, a, b) <==> norm(a) == norm(b)
  {
    var aa, bb := norm(a), norm(b);
    Max(Lcs(aa, bb), Lcs(bb, aa))
  }

  /**
   * `get_delta(a, b) = (maxLen - m) / maxLen`; `None` stands for the
   * `ZeroDivisionError` raised when both normalised words are empty.
   */
  function Delta(norm: string -> string, a: string, b: string): (r: Option<real>)
    ensures r.None? <==> norm(a) == [] && norm(b) == []
    ensures r.Some? ==> 0.0 <= r.value <= 1.0
    ensures r == Some(0.0) <==> norm(a) == norm(b) != []
  {
    Distance(MaxLen(norm, a, b), Overlap(norm, a, b))
  }

  /** `(maxLen - m) / maxLen` for an overlap `m` of at most `maxLen`; `None` when `maxLen` is 0. */
  function Distance(maxLen: nat, m: nat): (r: Option<real>)
    requires m <= maxLen
    ensures r.None? <==> maxLen == 0
    ensures r.Some? ==> 0.0 <= r.value <= 1.0
    ensures r == Some(0.0) <==> maxLen > 0 && m == maxLen
  {
    if maxLen == 0 then None
    else
      Ratio(maxLen - m, maxLen);
      Some((maxLen - m) as real / maxLen as real)
  }

  /** A distance is within the threshold exactly when `10 (maxLen - m) <= 3 maxLen`. */
  lemma DistanceThreshold(maxLen: nat, m: nat)
    requires 0 < maxLen && m <= maxLen
    ensures Distance(maxLen, m).value <= SameWordThreshold <==> 10 * (maxLen - m) <= 3 * maxLen
  {
    RatioThreshold(maxLen - m, maxLen, Distance(maxLen, m).value);
  }

  /** A ratio `p / n` of integers `0 <= p <= n`, `n > 0`, lies in [0, 1] and is 0 only for `p = 0`. */
  lemma Ratio(p: int, n: int)
    requires n > 0 && 0 <= p <= n
    ensures 0.0 <= p as real / n as real <= 1.0
    ensures p as real / n as real == 0.0 <==> p == 0
  {
    var d := p as real / n as real;
    RatioBelow(p as real, n as real, 0.0);
    RatioBelow(p as real, n as real, 1.0);
    if p == 0 { assert d == 0.0; }
  }

  /** A ratio `p / n` compares with 0.3 as `10 p` with `3 n`. */
  lemma RatioThreshold(p: int, n: int, d: real)
    requires n > 0 && d == p as real / n as real
    ensures d <= SameWordThreshold <==> 10 * p <= 3 * n
  {
    RatioBelow(p as real, n as real, 0.3);
  }

  /** For a positive denominator, `p / n <= t` exactly when `p <= t n`. */
  lemma RatioBelow(p: real, n: real, t: real)
    requires n > 0.0
    ensures p / n <= t <==> p <= t * n
  {
    var d := p / n;
    assert d * n == p;
    assert (d - t) * n == p - t * n;
    if d > t { MulPositive(d - t, n); }
    if d < t { MulPositive(t - d, n); }
  }

  lemma MulPositive(x: real, y: real)
    requires x > 0.0 && y > 0.0
    ensures x * y > 0.0
  {
  }

  /** The distance does not depend on the order of its arguments. */
  lemma DeltaSymmetric(norm: string -> string, a: string, b: string)
    ensures Delta(norm, a, b) == Delta(norm, b, a)
  {
  }

  /** Accent and case variants of one word. */
  const AlphaVariants: seq<string> := ["Άλφα", "Αλφα", "άλφα", "αλφα"]

  /** Variants that normalise to the same non-empty word are at distance zero from each other. */
  lemma DeltaAlphaVariants(norm: string -> string)
    requires forall w :: w in AlphaVariants ==> norm(w) == "αλφα"
    ensures forall v, w :: v in AlphaVariants && w in AlphaVariants ==> Delta(norm, v, w) == Some(0.0)
  {
  }

  /** The threshold below which two words count as forms of the same word. */
  const SameWordThreshold: real := 0.3

  /** A comparison that succeeded with a distance within the threshold. */
  predicate Within(d: Option<real>) {
    d.Some? && d.value <= SameWordThreshold
  }

  /** A comparison that succeeded with a distance above the threshold. */
  predicate Beyond(d: Option<real>) {
    d.Some? && d.value > SameWordThreshold
  }

  /** Comparing `reference` with `word` gives a distance within the threshold. */
  predicate Hits(norm: string -> string, word: string, reference: string) {
    Within(Delta(norm, word, reference))
  }

  /** Comparing `reference` with `word` gives a distance above the threshold. */
  predicate Misses(norm: string -> string, word: string, reference: string) {
    Beyond(Delta(norm, word, reference))
  }

  /** The threshold test in integers: `(maxLen - m) / maxLen <= 0.3` iff `10 (maxLen - m) <= 3 maxLen`. */
  lemma HitsCrossMultiplied(norm: string -> string, word: string, reference: string)
    requires MaxLen(norm, word, reference) > 0
    ensures Hits(norm, word, reference)
      <==> 10 * (MaxLen(norm, word, reference) - Overlap(norm, word, reference)) <= 3 * MaxLen(norm, word, reference)
  {
    DistanceThreshold(MaxLen(norm, word, reference), Overlap(norm, word, reference));
  }

  /** The characters the pattern `\(|\)|,|\.|` deletes (its empty alternative deletes nothing). */
  predicate IsPunctuation(c: char) {
    c == '(' || c == ')' || c == ',' || c == '.'
  }

  /** A token with its punctuation deleted. */
  function StripPunctuation(w: string): (r: string)
    ensures |r| <= |w|
    ensures forall c :: c in r <==> c in w && !IsPunctuation(c)
  {
    if |w| == 0 then ""
    else (if IsPunctuation(w[0]) then "" else [w[0]]) + StripPunctuation(w[1..])
  }

  /** The distances of `word` to each synonym, in order. */
  function Distances(norm: string -> string, word: string, synonyms: seq<string>): (ds: seq<Option<real>>)
    ensures |ds| == |synonyms|
  {
    if |synonyms| == 0 then []
    else [Delta(norm, word, synonyms[0])] + Distances(norm, word, synonyms[1..])
  }

  /** The distance at `k` is the first one within the threshold, every earlier comparison having succeeded above it. */
  predicate FirstWithin(ds: seq<Option<real>>, k: int) {
    && 0 <= k < |ds|
    && Within(ds[k])
    && forall j :: 0 <= j < k ==> Beyond(ds[j])
  }

  /** Every comparison succeeds and lies above the threshold. */
  predicate AllBeyond(ds: seq<Option<real>>) {
    forall k :: 0 <= k < |ds| ==> Beyond(ds[k])
  }

  /** The synonym at `k` is the first one within the threshold, every earlier comparison having succeeded above it. */
  predicate FirstHit(norm: string -> string, word: string, synonyms: seq<string>, k: int) {
    FirstWithin(Distances(norm, word, synonyms), k)
  }

  /** Every comparison with a synonym succeeds and lies above the threshold. */
  predicate AllMiss(norm: string -> string, word: string, synonyms: seq<string>) {
    AllBeyond(Distances(norm, word, synonyms))
  }

  /** Past a first distance above the threshold, first hits and total misses are those of the rest. */
  lemma ShiftDistances(ds: seq<Option<real>>)
    requires |ds| > 0 && Beyond(ds[0])
    ensures (exists k :: FirstWithin(ds, k)) <==> (exists k :: FirstWithin(ds[1..], k))
    ensures AllBeyond(ds) <==> AllBeyond(ds[1..])
  {
    var rest := ds[1..];
    if k :| FirstWithin(ds, k) {
      assert k != 0;
      assert rest[k - 1] == ds[k];
      forall j | 0 <= j < k - 1 ensures Beyond(rest[j]) {
        assert rest[j] == ds[j + 1];
      }
      assert FirstWithin(rest, k - 1);
    }
    if k :| FirstWithin(rest, k) {
      assert rest[k] == ds[k + 1];
      forall j | 0 <= j < k + 1 ensures Beyond(ds[j]) {
        if j > 0 {
          assert rest[j - 1] == ds[j];
        }
      }
      assert FirstWithin(ds, k + 1);
    }
    if AllBeyond(rest) {
      forall k | 0 <= k < |ds| ensures Beyond(ds[k]) {
        if k > 0 {
          assert rest[k - 1] == ds[k];
        }
      }
    }
    if AllBeyond(ds) {
      forall k | 0 <= k < |rest| ensures Beyond(rest[k]) {
        assert rest[k] == ds[k + 1];
      }
    }
  }

  /** Past a first synonym that misses, first hits and total misses are those of the remaining synonyms. */
  lemma MatchShift(norm: string -> string, word: string, synonyms: seq<string>)
    requires |synonyms| > 0 && Misses(norm, word, synonyms[0])
    ensures (exists k :: FirstHit(norm, word, synonyms, k)) <==> (exists k :: FirstHit(norm, word, synonyms[1..], k))
    ensures AllMiss(norm, word, synonyms) <==> AllMiss(norm, word, synonyms[1..])
  {
    var ds := Distances(norm, word, synonyms);
    var rest := Distances(norm, word, synonyms[1..]);
    assert ds == [Delta(norm, word, synonyms[0])] + rest;
    assert ds[1..] == rest;
    ShiftDistances(ds);
    if k :| FirstHit(norm, word, synonyms, k) {
      assert FirstWithin(ds, k);
      var k' :| FirstWithin(rest, k');
      assert FirstHit(norm, word, synonyms[1..], k');
    }
    if k :| FirstHit(norm, word, synonyms[1..], k) {
      assert FirstWithin(rest, k);
      var k' :| FirstWithin(ds, k');
      assert FirstHit(norm, word, synonyms, k');
    }
  }

  /**
   * The inner loop of `highlight_synonyms` for one stripped token: try the
   * synonyms in iteration order and stop at the first one within the
   * threshold. `Ok(true)` means the token gets emphasised, `Err` is the
   * division by zero of a comparison reached before any hit.
   */
  function MatchSynonyms(norm: string -> string, word: string, synonyms: seq<string>): (r: Result<bool>)
    ensures r == Ok(true) <==> exists k :: FirstHit(norm, word, synonyms, k)
    ensures r == Ok(false) <==> AllMiss(norm, word, synonyms)
    ensures r.Err? ==> r.error == ZeroDivisionError
  {
    if |synonyms| == 0 then Ok(false)
    else
      var d := Delta(norm, word, synonyms[0]);
      FirstComparison(norm, word, synonyms);
      if d.None? then Err(ZeroDivisionError)
      else if d.value <= SameWordThreshold then Ok(true)
      else
        MatchShift(norm, word, synonyms);
        MatchSynonyms(norm, word, synonyms[1..])
  }

  /** A first comparison that fails rules out both outcomes; one within the threshold is the first hit. */
  lemma FirstComparison(norm: string -> string, word: string, synonyms: seq<string>)
    requires |synonyms| > 0
    ensures Delta(norm, word, synonyms[0]).None? ==>
      !AllMiss(norm, word, synonyms) && forall k :: !FirstHit(norm, word, synonyms, k)
    ensures Hits(norm, word, synonyms[0]) ==> FirstHit(norm, word, synonyms, 0) && !AllMiss(norm, word, synonyms)
  {
    var ds := Distances(norm, word, synonyms);
    assert ds[0] == Delta(norm, word, synonyms[0]);
    if ds[0].None? {
      forall k ensures !FirstHit(norm, word, synonyms, k) {
        if 0 < k < |ds| {
          assert !Beyond(ds[0]);
        }
      }
    }
  }

  /** The emphasis markup placed around a matching word. */
  function Bold(w: string): string {
    "**" + w + "**"
  }

  /** Some token of `order` gives the comparison outcome `out` once stripped (`Err` outcomes match any error). */
  predicate SomeToken(norm: string -> string, order: seq<string>, synonyms: seq<string>, out: Result<bool>) {
    exists i :: 0 <= i < |order| && Outcome(MatchSynonyms(norm, StripPunctuation(order[i]), synonyms), out)
  }

  predicate Outcome(r: Result<bool>, out: Result<bool>) {
    if out.Err? then r.Err? else r == out
  }

  /** A token of `order` is its first one or a token of the rest. */
  lemma SomeTokenCons(norm: string -> string, order: seq<string>, synonyms: seq<string>, out: Result<bool>)
    requires |order| > 0
    ensures SomeToken(norm, order, synonyms, out)
      <==> Outcome(MatchSynonyms(norm, StripPunctuation(order[0]), synonyms), out) || SomeToken(norm, order[1..], synonyms, out)
  {
    if SomeToken(norm, order, synonyms, out) {
      var i :| 0 <= i < |order| && Outcome(MatchSynonyms(norm, StripPunctuation(order[i]), synonyms), out);
      if i > 0 {
        assert order[1..][i - 1] == order[i];
      }
    }
    if SomeToken(norm, order[1..], synonyms, out) {
      var i :| 0 <= i < |order[1..]| && Outcome(MatchSynonyms(norm, StripPunctuation(order[1..][i]), synonyms), out);
      assert order[1..][i] == order[i + 1];
    }
  }

  /** The stripped tokens of `order` that match a synonym, in order. */
  function Matched(norm: string -> string, order: seq<string>, synonyms: seq<string>): (r: seq<string>)
    ensures |r| <= |order|
  {
    if |order| == 0 then []
    else
      var word := StripPunctuation(order[0]);
      (if MatchSynonyms(norm, word, synonyms) == Ok(true) then [word] else []) + Matched(norm, order[1..], synonyms)
  }

  /** A word is emphasised exactly when it is a stripped token that matches some synonym. */
  lemma {:induction false} MatchedTokens(norm: string -> string, order: seq<string>, synonyms: seq<string>, w: string)
    ensures w in Matched(norm, order, synonyms) <==>
      exists i :: 0 <= i < |order| && w == StripPunctuation(order[i]) && MatchSynonyms(norm, w, synonyms) == Ok(true)
    decreases |order|
  {
    if |order| > 0 {
      MatchedTokens(norm, order[1..], synonyms, w);
      var word := StripPunctuation(order[0]);
      if exists i :: 0 <= i < |order| && w == StripPunctuation(order[i]) && MatchSynonyms(norm, w, synonyms) == Ok(true) {
        var i :| 0 <= i < |order| && w == StripPunctuation(order[i]) && MatchSynonyms(norm, w, synonyms) == Ok(true);
        if i > 0 {
          assert order[1..][i - 1] == order[i];
        }
      }
      if w in Matched(norm, order[1..], synonyms) {
        var i :| 0 <= i < |order| - 1 && w == StripPunctuation(order[1..][i]) && MatchSynonyms(norm, w, synonyms) == Ok(true);
        assert order[i + 1] == order[1..][i];
      }
    }
  }

  /** `s.replace(w, f"**{w}**")` for each word of `words` in turn. */
  function Emphasise(s: string, words: seq<string>): (r: string)
    ensures Erase(r, '*') == Erase(s, '*') && |s| <= |r|
    decreases |words|
  {
    if |words| == 0 then s
    else
      ReplaceWrapErase(s, words[0], '*');
      Emphasise(Replace(s, words[0], Bold(words[0])), words[1..])
  }

  /** Emphasising a first word, then the rest. */
  lemma EmphasiseStep(s: string, w: string, rest: seq<string>)
    ensures Emphasise(s, [w] + rest) == Emphasise(Replace(s, w, Bold(w)), rest)
  {
    assert ([w] + rest)[1..] == rest;
  }

  /**
   * The loop of `highlight_synonyms` over the tokens `order`, with
   * `synonyms` the iteration order of the synonym set. The matching stripped
   * tokens are emphasised one after the other, in token order, each by a
   * `replace` over the text the earlier ones left; nothing but `*` is ever
   * inserted. A comparison that divides by zero makes the whole call fail.
   */
  function HighlightTokens(norm: string -> string, sentence: string, order: seq<string>, synonyms: seq<string>)
    : (r: Result<string>)
    ensures |synonyms| == 0 ==> r == Ok(sentence)
    ensures r.Err? <==> SomeToken(norm, order, synonyms, Err(ZeroDivisionError))
    ensures r.Err? ==> r.error == ZeroDivisionError
    ensures r.Ok? ==> Erase(r.value, '*') == Erase(sentence, '*') && |sentence| <= |r.value|
    ensures r.Ok? && r.value != sentence ==> SomeToken(norm, order, synonyms, Ok(true))
    decreases |order|
  {
    if |order| == 0 then Ok(sentence)
    else
      var word := StripPunctuation(order[0]);
      var hit := MatchSynonyms(norm, word, synonyms);
      SomeTokenCons(norm, order, synonyms, Err(ZeroDivisionError));
      SomeTokenCons(norm, order, synonyms, Ok(true));
      if hit.Err? then Err(hit.error)
      else
        var next := if hit.value then Replace(sentence, word, Bold(word)) else sentence;
        ReplaceWrapErase(sentence, word, '*');
        HighlightTokens(norm, next, order[1..], synonyms)
  }

  /**
   * What `highlight_synonyms` returns: the sentence with the matching stripped
   * tokens emphasised one after the other, in token order.
   */
  lemma {:induction false} HighlightEmphasises(norm: string -> string, sentence: string, order: seq<string>, synonyms: seq<string>)
    requires HighlightTokens(norm, sentence, order, synonyms).Ok?
    ensures HighlightTokens(norm, sentence, order, synonyms).value == Emphasise(sentence, Matched(norm, order, synonyms))
    decreases |order|
  {
    if |order| > 0 {
      var word := StripPunctuation(order[0]);
      var hit := MatchSynonyms(norm, word, synonyms);
      var next := if hit.value then Replace(sentence, word, Bold(word)) else sentence;
      var rest := Matched(norm, order[1..], synonyms);
      assert HighlightTokens(norm, sentence, order, synonyms) == HighlightTokens(norm, next, order[1..], synonyms);
      HighlightEmphasises(norm, next, order[1..], synonyms);
      if hit.value {
        assert Matched(norm, order, synonyms) == [word] + rest;
        EmphasiseStep(sentence, word, rest);
      } else {
        assert Matched(norm, order, synonyms) == rest;
      }
    }
  }

  /**
   * `highlight_synonyms(sentence, synonyms)`: the loop over `set(sentence.split())`,
   * whose iteration order the interpreter fixes and `order` gives. The call
   * fails exactly when the synonym scan of some token of the sentence fails,
   * and otherwise emphasises the matching tokens in that order.
   */
  function HighlightSynonyms(norm: string -> string, sentence: string, order: seq<string>, synonyms: seq<string>)
    : (r: Result<string>)
    requires IsSetOrder(order, SplitWs(sentence))
    ensures |synonyms| == 0 ==> r == Ok(sentence)
    ensures r.Err? <==> exists t :: t in SplitWs(sentence) && MatchSynonyms(norm, StripPunctuation(t), synonyms).Err?
    ensures r.Err? ==> r.error == ZeroDivisionError
    ensures r.Ok? ==> r.value == Emphasise(sentence, Matched(norm, order, synonyms))
  {
    SomeTokenOfSet(norm, order, SplitWs(sentence), synonyms, Err(ZeroDivisionError));
    var r := HighlightTokens(norm, sentence, order, synonyms);
    if r.Ok? then
      HighlightEmphasises(norm, sentence, order, synonyms);
      r
    else r
  }

  /** Over an iteration order of a token set, "some token" means some token of the set. */
  lemma SomeTokenOfSet(norm: string -> string, order: seq<string>, words: seq<string>, synonyms: seq<string>, out: Result<bool>)
    requires IsSetOrder(order, words)
    ensures SomeToken(norm, order, synonyms, out)
      <==> exists t :: t in words && Outcome(MatchSynonyms(norm, StripPunctuation(t), synonyms), out)
  {
    if exists t :: t in words && Outcome(MatchSynonyms(norm, StripPunctuation(t), synonyms), out) {
      var t :| t in words && Outcome(MatchSynonyms(norm, StripPunctuation(t), synonyms), out);
      var i :| 0 <= i < |order| && order[i] == t;
    }
  }

  /**
   * The words `highlight_synonyms` emphasises are exactly the stripped tokens
   * of the sentence whose synonym scan reports a hit.
   */
  lemma HighlightedWords(norm: string -> string, sentence: string, order: seq<string>, synonyms: seq<string>, w: string)
    requires IsSetOrder(order, SplitWs(sentence))
    ensures w in Matched(norm, order, synonyms) <==>
      exists t :: t in SplitWs(sentence) && w == StripPunctuation(t) && MatchSynonyms(norm, w, synonyms) == Ok(true)
  {
    MatchedTokens(norm, order, synonyms, w);
    if exists t :: t in SplitWs(sentence) && w == StripPunctuation(t) && MatchSynonyms(norm, w, synonyms) == Ok(true) {
      var t :| t in SplitWs(sentence) && w == StripPunctuation(t) && MatchSynonyms(norm, w, synonyms) == Ok(true);
      var i :| 0 <= i < |order| && order[i] == t;
    }
  }

  /** A non-empty word that occurs in a text occurs emphasised once the text's occurrences of it are replaced. */
  lemma {:induction false} ReplaceBoldContains(s: string, w: string)
    requires |w| > 0 && Contains(s, w)
    ensures Contains(Replace(s, w, Bold(w)), Bold(w))
    decreases |s|
  {
    var r := Replace(s, w, Bold(w));
    if StartsWith(s, w) {
      assert r[..|Bold(w)|] == Bold(w);
      SliceContained(r, 0, |Bold(w)|);
    } else {
      var rest := Replace(s[1..], w, Bold(w));
      OccursShift(s, w);
      ReplaceBoldContains(s[1..], w);
      assert r == [s[0]] + rest;
      assert r[1..|r|] == rest;
      ContainsInSlice(r, 1, |r|, Bold(w));
    }
  }

  /** When exactly one stripped token matches and occurs in the sentence, the reply shows it emphasised. */
  lemma HighlightSingleMatch(norm: string -> string, sentence: string, order: seq<string>, synonyms: seq<string>, w: string)
    requires HighlightTokens(norm, sentence, order, synonyms).Ok?
    requires Matched(norm, order, synonyms) == [w]
    requires |w| > 0 && Contains(sentence, w)
    ensures Contains(HighlightTokens(norm, sentence, order, synonyms).value, Bold(w))
  {
    HighlightEmphasises(norm, sentence, order, synonyms);
    ReplaceBoldContains(sentence, w);
    assert Emphasise(sentence, [w]) == Replace(sentence, w, Bold(w));
  }

  /**
   * A later replacement can break an earlier emphasis: when "ab" and then
   * "b" match, the second `replace` also rewrites the "b" inside "**ab**",
   * so "ab" is no longer shown as "**ab**".
   */
  lemma EmphasisOverwritten()
    ensures Emphasise("ab", ["ab", "b"]) == "**a**b****"
    ensures !Contains(Emphasise("ab", ["ab", "b"]), Bold("ab"))
  {
    ReplaceFirst();
    ReplaceSecond();
    EmphasiseStep("ab", "ab", ["b"]);
    EmphasiseStep("**ab**", "b", []);
    NoBoldAb();
  }

  lemma ReplaceFirst()
    ensures Replace("ab", "ab", Bold("ab")) == "**ab**"
  {
    assert StartsWith("ab", "ab");
    assert "ab"[2..] == "";
  }

  lemma ReplaceSecond()
    ensures Replace("**ab**", "b", Bold("b")) == "**a**b****"
  {
    var b := Bold("b");
    ReplaceSecondTail();
    assert Replace("ab**", "b", b) == "a" + b + "**";
    assert Replace("*ab**", "b", b) == "*a" + b + "**";
  }

  lemma ReplaceSecondTail()
    ensures Replace("b**", "b", Bold("b")) == Bold("b") + "**"
  {
    var b := Bold("b");
    assert Replace("", "b", b) == "";
    assert Replace("*", "b", b) == "*";
    assert Replace("**", "b", b) == "**";
  }

  lemma NoBoldAb()
    ensures !Contains("**a**b****", Bold("ab"))
  {
    var t := "**a**b****";
    forall i | 0 <= i && i + 6 <= |t| ensures !OccursAt(t, Bold("ab"), i) {
      assert t[i..i + 6][2] != 'a' || t[i..i + 6][3] != 'b';
    }
  }

  /** With no synonyms a sentence comes back unchanged, for any token order. */
  lemma HighlightWithoutSynonyms(norm: string -> string, sentence: string, order: seq<string>)
    ensures HighlightTokens(norm, sentence, order, []) == Ok(sentence)
  {
  }
}

=== FILE: text.dfy ===
/**
 * The Python `str` built-ins the bot relies on, over `string` (a sequence of
 * Unicode scalar values, as a Python `str` is a sequence of code points):
 * substring test `p in s`, `strip()`, `split()`, `split(", ")`,
 * `", ".join(...)`, `replace(...)` and decimal formatting of indices.
 */
module Text {

  /** Python's `str.isspace()` for one character (the full Unicode list). */
  predicate IsSpace(c: char) {
    || ('\U{9}' <= c <= '\U{D}') || ('\U{1C}' <= c <= '\U{20}') || c == '\U{85}' || c == '\U{A0}'
    || c == '\U{1680}' || ('\U{2000}' <= c <= '\U{200A}') || c == '\U{2028}' || c == '\U{2029}'
    || c == '\U{202F}' || c == '\U{205F}' || c == '\U{3000}'
  }

  predicate StartsWith(s: string, p: string) {
    |p| <= |s| && s[..|p|] == p
  }

  predicate EndsWith(s: string, p: string) {
    |p| <= |s| && s[|s| - |p|..] == p
  }

  /** `p` occurs in `s` at position `i`. */
  predicate OccursAt(s: string, p: string, i: int) {
    0 <= i && i + |p| <= |s| && s[i..i + |p|] == p
  }

  /** Python's `p in s` for strings: a contiguous occurrence, the empty string occurring everywhere. */
  /** Every character of an occurrence is a character of the text. */
  lemma OccursChars(s: string, p: string, i: int)
    requires OccursAt(s, p, i)
    ensures forall c :: c in p ==> c in s
  {
    forall c | c in p ensures c in s {
      var k :| 0 <= k < |p| && p[k] == c;
      assert s[i..i + |p|][k] == s[i + k];
    }
  }

  function Contains(s: string, p: string): (r: bool)
    ensures r <==> exists i :: OccursAt(s, p, i)
    decreases |s|
  {
    if StartsWith(s, p) then
      assert OccursAt(s, p, 0);
      true
    else if |s| == 0 then
      false
    else
      OccursShift(s, p);
      Contains(s[1..], p)
  }

  /** Away from position 0, the occurrences of `p` in `s` are those in `s[1..]`, shifted by one. */
  lemma OccursShift(s: string, p: string)
    requires |s| > 0 && !StartsWith(s, p)
    ensures (exists i :: OccursAt(s, p, i)) <==> (exists i :: OccursAt(s[1..], p, i))
  {
    if i :| OccursAt(s[1..], p, i) {
      assert s[1..][i..i + |p|] == s[i + 1..i + 1 + |p|];
      assert OccursAt(s, p, i + 1);
    }
    if i :| OccursAt(s, p, i) {
      assert i != 0;
      assert s[i..i + |p|] == s[1..][i - 1..i - 1 + |p|];
      assert OccursAt(s[1..], p, i - 1);
    }
  }

  /** Every slice of `s` is contained in `s`. */
  lemma SliceContained(s: string, i: int, j: int)
    requires 0 <= i <= j <= |s|
    ensures Contains(s, s[i..j])
  {
    assert OccursAt(s, s[i..j], i);
  }

  /** A string contained in a slice of `s` is contained in `s`. */
  lemma ContainsInSlice(s: string, i: int, j: int, p: string)
    requires 0 <= i <= j <= |s|
    requires Contains(s[i..j], p)
    ensures Contains(s, p)
  {
    var k :| OccursAt(s[i..j], p, k);
    assert 0 <= k && k + |p| <= j - i;
    forall t | 0 <= t < |p| ensures s[i + k + t] == p[t] {
      assert s[i..j][k..k + |p|][t] == p[t];
    }
    assert s[i + k..i + k + |p|] == p;
    assert OccursAt(s, p, i + k);
  }

  /** Python's `lstrip()`: the suffix left after dropping leading whitespace. */
  function TrimLeft(s: string): (r: string)
    ensures EndsWith(s, r)
    ensures forall k :: 0 <= k < |s| - |r| ==> IsSpace(s[k])
    ensures r == [] || !IsSpace(r[0])
  {
    if |s| > 0 && IsSpace(s[0]) then
      var r := TrimLeft(s[1..]);
      assert s[|s| - |r|..] == s[1..][|s| - 1 - |r|..];
      r
    else s
  }

  /** Python's `rstrip()`: the prefix left after dropping trailing whitespace. */
  function TrimRight(s: string): (r: string)
    ensures StartsWith(s, r)
    ensures forall k :: |r| <= k < |s| ==> IsSpace(s[k])
    ensures r == [] || !IsSpace(r[|r| - 1])
  {
    if |s| > 0 && IsSpace(s[|s| - 1]) then
      var r := TrimRight(s[..|s| - 1]);
      assert s[..|r|] == s[..|s| - 1][..|r|];
      r
    else s
  }

  /** `r` occurs in `s` at `i`, and every character of `s` around that occurrence is whitespace. */
  predicate SpaceFramed(s: string, r: string, i: int) {
    OccursAt(s, r, i) && forall k :: 0 <= k < |s| && !(i <= k < i + |r|) ==> IsSpace(s[k])
  }

  /** `r` occurs in `s` at `i`, and every character of `s` around that occurrence is `c`. */
  predicate CharFramed(s: string, r: string, i: int, c: char) {
    OccursAt(s, r, i) && forall k :: 0 <= k < |s| && !(i <= k < i + |r|) ==> s[k] == c
  }

  /**
   * Python's `strip()`: the piece of `s` left when the whitespace at both
   * ends is cut, which neither starts nor ends with whitespace.
   */
  function Strip(s: string): (r: string)
    ensures |r| <= |s|
    ensures exists i :: SpaceFramed(s, r, i)
    ensures exists i :: OccursAt(s, r, i)
    ensures r == [] || (!IsSpace(r[0]) && !IsSpace(r[|r| - 1]))
    ensures |r| == |s| ==> r == s
  {
    TrimFramed(s);
    TrimRight(TrimLeft(s))
  }

  /** Trimming both ends leaves the piece framed by the whitespace cut off; cutting nothing leaves `s` itself. */
  lemma TrimFramed(s: string)
    ensures SpaceFramed(s, TrimRight(TrimLeft(s)), |s| - |TrimLeft(s)|)
    ensures |TrimRight(TrimLeft(s))| == |s| ==> TrimRight(TrimLeft(s)) == s
  {
    var t := TrimLeft(s);
    var r := TrimRight(t);
    var i := |s| - |t|;
    assert r == s[i..i + |r|];
    assert forall k :: i + |r| <= k < |s| ==> t[k - i] == s[k];
    assert SpaceFramed(s, r, i);
    if |r| == |s| {
      assert i == 0;
      assert s[0..|s|] == s;
    }
  }

  /** Exactly one piece of `s` has whitespace only around it and none at its own ends: `strip()` is that piece. */
  lemma StripUnique(s: string, r: string, i: int)
    requires SpaceFramed(s, r, i)
    requires r == [] || (!IsSpace(r[0]) && !IsSpace(r[|r| - 1]))
    ensures Strip(s) == r
  {
    var r2 := Strip(s);
    var i2 :| SpaceFramed(s, r2, i2);
    if r != [] {
      var e := i + |r| - 1;
      assert !IsSpace(s[i]) && !IsSpace(s[e]) by {
        assert s[i] == r[0] && s[e] == r[|r| - 1];
      }
      assert r2 != [];
      var e2 := i2 + |r2| - 1;
      assert !IsSpace(s[i2]) && !IsSpace(s[e2]) by {
        assert s[i2] == r2[0] && s[e2] == r2[|r2| - 1];
      }
      assert i2 <= i && i <= i2;
      assert e2 <= e && e <= e2;
      assert r2 == s[i..i + |r|];
    }
  }

  /** Python's `strip(chars)` for a single character `c`: drop every leading and trailing `c`. */
  function StripChar(s: string, c: char): (r: string)
    ensures exists i :: CharFramed(s, r, i, c)
    ensures exists i :: OccursAt(s, r, i)
    ensures r == [] || (r[0] != c && r[|r| - 1] != c)
    ensures forall d :: d != c && d in s ==> d in r
    decreases |s|
  {
    if |s| > 0 && s[0] == c then
      var r := StripChar(s[1..], c);
      OccursInTail(s, r, c);
      r
    else if |s| > 0 && s[|s| - 1] == c then
      var r := StripChar(s[..|s| - 1], c);
      OccursInFront(s, s[..|s| - 1], r, c);
      r
    else
      assert CharFramed(s, s, 0, c);
      s
  }

  /** Exactly one piece of `s` has only `c` around it and not `c` at its own ends: `strip(c)` is that piece. */
  lemma StripCharUnique(s: string, c: char, r: string, i: int)
    requires CharFramed(s, r, i, c)
    requires r == [] || (r[0] != c && r[|r| - 1] != c)
    ensures StripChar(s, c) == r
  {
    var r2 := StripChar(s, c);
    var i2 :| CharFramed(s, r2, i2, c);
    CharFramedUnique(s, c, r, i, r2, i2);
  }

  /** Two pieces of `s` with only `c` around them and not `c` at their ends are the same piece. */
  lemma CharFramedUnique(s: string, c: char, r: string, i: int, r2: string, i2: int)
    requires CharFramed(s, r, i, c) && CharFramed(s, r2, i2, c)
    requires r == [] || (r[0] != c && r[|r| - 1] != c)
    requires r2 == [] || (r2[0] != c && r2[|r2| - 1] != c)
    ensures r == r2
  {
    if r != [] {
      var e := i + |r| - 1;
      assert s[i] != c && s[e] != c by {
        assert s[i] == r[0] && s[e] == r[|r| - 1];
      }
      assert r2 != [];
      var e2 := i2 + |r2| - 1;
      assert s[i2] != c && s[e2] != c by {
        assert s[i2] == r2[0] && s[e2] == r2[|r2| - 1];
      }
      assert i2 <= i && i <= i2;
      assert e2 <= e && e <= e2;
    }
  }

  /**
   * What sits in `s[1..]` between runs of `c` sits so in `s` when `s` starts
   * with `c`, and a character of `s` other than its first is in `s[1..]`.
   */
  lemma OccursInTail(s: string, r: string, c: char)
    requires |s| > 0 && s[0] == c && exists i :: CharFramed(s[1..], r, i, c)
    ensures exists i :: CharFramed(s, r, i, c)
    ensures exists i :: OccursAt(s, r, i)
    ensures forall d :: d in s && d != s[0] ==> d in s[1..]
  {
    var i :| CharFramed(s[1..], r, i, c);
    assert s[i + 1..i + 1 + |r|] == s[1..][i..i + |r|];
    forall k | 0 <= k < |s| && !(i + 1 <= k < i + 1 + |r|) ensures s[k] == c {
      if k > 0 {
        assert s[k] == s[1..][k - 1];
      }
    }
    assert CharFramed(s, r, i + 1, c);
  }

  /**
   * What sits in the front `s[..|s| - 1]` between runs of `c` sits so in `s`
   * when `s` ends with `c`, and a character of `s` other than its last is in the front.
   */
  lemma OccursInFront(s: string, front: string, r: string, c: char)
    requires |s| > 0 && s[|s| - 1] == c && front == s[..|s| - 1] && exists i :: CharFramed(front, r, i, c)
    ensures exists i :: CharFramed(s, r, i, c)
    ensures exists i :: OccursAt(s, r, i)
    ensures forall d :: d in s && d != s[|s| - 1] ==> d in front
  {
    var i :| CharFramed(front, r, i, c);
    assert s[i..i + |r|] == front[i..i + |r|];
    assert CharFramed(s, r, i, c);
    forall d | d in s && d != s[|s| - 1] ensures d in front {
      var k :| 0 <= k < |s| && s[k] == d;
      assert front[k] == d;
    }
  }

  /** A text that neither starts nor ends with `c` is its own `strip(c)`. */
  lemma StripCharUnchanged(s: string, c: char)
    requires s == [] || (s[0] != c && s[|s| - 1] != c)
    ensures StripChar(s, c) == s
  {
    StripCharUnique(s, c, s, 0);
  }

  /** Stripping a character from a text that neither starts nor ends with it changes nothing, so stripping twice is stripping once. */
  lemma StripCharIdempotent(s: string, c: char)
    ensures StripChar(StripChar(s, c), c) == StripChar(s, c)
  {
    StripCharUnchanged(StripChar(s, c), c);
  }

  /** A text with no whitespace at either end is its own `strip()`. */
  lemma StripUnchanged(s: string)
    requires s == [] || (!IsSpace(s[0]) && !IsSpace(s[|s| - 1]))
    ensures Strip(s) == s
  {
    StripUnique(s, s, 0);
  }

  /** Stripping twice is stripping once. */
  lemma StripIdempotent(s: string)
    ensures Strip(Strip(s)) == Strip(s)
  {
    StripUnchanged(Strip(s));
  }

  /** Length of the leading run of non-whitespace characters. */
  function TokenEnd(t: string): (k: nat)
    ensures k <= |t|
    ensures forall i :: 0 <= i < k ==> !IsSpace(t[i])
    ensures k == |t| || IsSpace(t[k])
  {
    if |t| == 0 || IsSpace(t[0]) then 0 else 1 + TokenEnd(t[1..])
  }

  /**
   * Python's `split()` with no argument: the maximal runs of non-whitespace,
   * in order. `SplitWsRun` says how a run and what follows it split.
   */
  function SplitWs(s: string): (r: seq<string>)
    ensures forall w :: w in r ==> |w| > 0 && forall c :: c in w ==> !IsSpace(c)
    ensures r == [] <==> forall k :: 0 <= k < |s| ==> IsSpace(s[k])
    decreases |s|
  {
    var t := TrimLeft(s);
    if t == [] then []
    else
      assert !IsSpace(s[|s| - |t|]);
      var k := TokenEnd(t);
      [t[..k]] + SplitWs(t[k..])
  }

  /** Leading whitespace is skipped by `lstrip()`, up to a character that is not whitespace. */
  lemma {:induction false} TrimLeftSkip(a: string, t: string)
    requires forall k :: 0 <= k < |a| ==> IsSpace(a[k])
    requires t == [] || !IsSpace(t[0])
    ensures TrimLeft(a + t) == t
    decreases |a|
  {
    if |a| > 0 {
      assert (a + t)[1..] == a[1..] + t;
      TrimLeftSkip(a[1..], t);
    } else {
      assert a + t == t;
    }
  }

  /**
   * A text that is whitespace, then a run `w` of non-whitespace, then either
   * nothing or whitespace followed by the rest `b`, splits into `w` and the
   * split of `b`. With the emptiness clause of `SplitWs`, this fixes the
   * split of every text.
   */
  lemma SplitWsRun(a: string, w: string, b: string)
    requires forall k :: 0 <= k < |a| ==> IsSpace(a[k])
    requires |w| > 0 && forall k :: 0 <= k < |w| ==> !IsSpace(w[k])
    requires b == [] || IsSpace(b[0])
    ensures SplitWs(a + w + b) == [w] + SplitWs(b)
  {
    var t := w + b;
    assert a + w + b == a + t;
    TrimLeftSkip(a, t);
    TokenEndRun(w, b);
    assert t[..|w|] == w && t[|w|..] == b;
  }

  /** The leading run of `w + b` is `w` when `w` has no whitespace and `b` is empty or starts with whitespace. */
  lemma {:induction false} TokenEndRun(w: string, b: string)
    requires forall k :: 0 <= k < |w| ==> !IsSpace(w[k])
    requires b == [] || IsSpace(b[0])
    ensures TokenEnd(w + b) == |w|
    decreases |w|
  {
    if |w| == 0 {
      assert w + b == b;
    } else {
      assert (w + b)[1..] == w[1..] + b;
      TokenEndRun(w[1..], b);
    }
  }

  /** The separator of `split(", ")` and `", ".join(...)`. */
  const CommaSep: string := ", "

  /** Python's `s.split(", ")`: pieces between leftmost non-overlapping separators, empty pieces kept. */
  function SplitComma(s: string): (r: seq<string>)
    ensures |r| >= 1
    ensures StartsWith(s, r[0])
    ensures forall w :: w in r ==> !Contains(w, CommaSep)
    decreases |s|
  {
    if |s| == 0 then [""]
    else if StartsWith(s, CommaSep) then [""] + SplitComma(s[2..])
    else
      var rest := SplitComma(s[1..]);
      var r0 := rest[0];
      assert r0 in rest;
      var head := [s[0]] + r0;
      assert !Contains(head, CommaSep) by {
        forall i | 0 <= i && i + |CommaSep| <= |head|
          ensures !OccursAt(head, CommaSep, i)
        {
          if i == 0 {
            assert head[0] == s[0] && head[1] == r0[0] == s[1];
            assert s[..2] == [s[0], s[1]];
          } else {
            assert head[i..i + 2] == r0[i - 1..i + 1] by {
              assert head[i] == r0[i - 1];
              assert head[i + 1] == r0[i];
            }
            assert !OccursAt(r0, CommaSep, i - 1);
          }
        }
      }
      [head] + rest[1..]
  }

  /** A text without a comma does not contain the separator. */
  lemma NoCommaNoSep(s: string)
    requires forall k :: 0 <= k < |s| ==> s[k] != ','
    ensures !Contains(s, CommaSep)
  {
    forall i | 0 <= i && i + |CommaSep| <= |s|
      ensures !OccursAt(s, CommaSep, i)
    {
      assert s[i..i + |CommaSep|][0] == s[i] != ',';
    }
  }

  /** Python's `sep.join(pieces)`. */
  function Join(sep: string, pieces: seq<string>): string {
    if |pieces| == 0 then ""
    else if |pieces| == 1 then pieces[0]
    else pieces[0] + sep + Join(sep, pieces[1..])
  }

  /** Joining a first piece onto a non-empty rest puts one separator between them. */
  lemma JoinCons(sep: string, head: string, rest: seq<string>)
    requires |rest| > 0
    ensures Join(sep, [head] + rest) == head + sep + Join(sep, rest)
  {
    assert ([head] + rest)[1..] == rest;
  }

  /** A character put in front of the first piece ends up in front of the joined text. */
  lemma {:induction false} JoinPrependChar(sep: string, c: char, pieces: seq<string>)
    requires |pieces| > 0
    ensures Join(sep, [[c] + pieces[0]] + pieces[1..]) == [c] + Join(sep, pieces)
  {
    if |pieces| > 1 {
      JoinCons(sep, [c] + pieces[0], pieces[1..]);
      JoinCons(sep, pieces[0], pieces[1..]);
      assert [pieces[0]] + pieces[1..] == pieces;
    }
  }

  /** Splitting on `", "` and joining back with `", "` gives the original text. */
  lemma {:induction false} SplitCommaJoin(s: string)
    ensures Join(CommaSep, SplitComma(s)) == s
    decreases |s|
  {
    if |s| == 0 {
    } else if StartsWith(s, CommaSep) {
      var rest := SplitComma(s[2..]);
      assert SplitComma(s) == [""] + rest;
      SplitCommaJoin(s[2..]);
      JoinCons(CommaSep, "", rest);
      assert s == CommaSep + s[2..];
    } else {
      var rest := SplitComma(s[1..]);
      assert SplitComma(s) == [[s[0]] + rest[0]] + rest[1..];
      SplitCommaJoin(s[1..]);
      JoinPrependChar(CommaSep, s[0], rest);
      assert s == [s[0]] + s[1..];
    }
  }

  /** Containment is transitive. */
  lemma ContainsTrans(a: string, b: string, c: string)
    requires Contains(a, b) && Contains(b, c)
    ensures Contains(a, c)
  {
    var i :| OccursAt(a, b, i);
    assert a[i..i + |b|] == b;
    ContainsInSlice(a, i, i + |b|, c);
  }

  /** Every piece of a join occurs in the joined text. */
  lemma {:induction false} JoinContainsPieces(sep: string, pieces: seq<string>)
    ensures forall k :: 0 <= k < |pieces| ==> Contains(Join(sep, pieces), pieces[k])
  {
    if |pieces| > 1 {
      var j := Join(sep, pieces);
      var rest := Join(sep, pieces[1..]);
      JoinContainsPieces(sep, pieces[1..]);
      assert j == pieces[0] + sep + rest;
      assert j[..|pieces[0]|] == pieces[0];
      SliceContained(j, 0, |pieces[0]|);
      assert j[|pieces[0]| + |sep|..] == rest;
      forall k | 1 <= k < |pieces|
        ensures Contains(j, pieces[k])
      {
        assert pieces[1..][k - 1] == pieces[k];
        assert j[|pieces[0]| + |sep|..|j|] == rest;
        assert Contains(rest, pieces[k]);
        ContainsInSlice(j, |pieces[0]| + |sep|, |j|, pieces[k]);
      }
    } else if |pieces| == 1 {
      SliceContained(pieces[0], 0, |pieces[0]|);
      assert pieces[0][0..|pieces[0]|] == pieces[0];
    }
  }

  /** Every piece of `split(", ")` occurs in the split text. */
  lemma SplitCommaPiecesContained(s: string)
    ensures forall k :: 0 <= k < |SplitComma(s)| ==> Contains(s, SplitComma(s)[k])
  {
    SplitCommaJoin(s);
    JoinContainsPieces(CommaSep, SplitComma(s));
  }

  /** Every character of `s` except `c`, in order. */
  function Erase(s: string, c: char): (r: string)
    ensures c !in r
    ensures forall d :: d != c ==> (d in r <==> d in s)
  {
    if |s| == 0 then "" else (if s[0] == c then "" else [s[0]]) + Erase(s[1..], c)
  }

  lemma {:induction false} EraseAppend(a: string, b: string, c: char)
    ensures Erase(a + b, c) == Erase(a, c) + Erase(b, c)
    decreases |a|
  {
    if |a| == 0 {
      assert a + b == b;
    } else {
      assert (a + b)[1..] == a[1..] + b;
      EraseAppend(a[1..], b, c);
    }
  }

  /** Python's `s.replace(pat, sub)`; an empty `pat` inserts `sub` around every character. */
  function Replace(s: string, pat: string, sub: string): (r: string)
    ensures |pat| <= |sub| ==> |s| <= |r|
    decreases |s|
  {
    if |pat| == 0 then
      if |s| == 0 then sub else sub + [s[0]] + Replace(s[1..], pat, sub)
    else if StartsWith(s, pat) then sub + Replace(s[|pat|..], pat, sub)
    else if |s| == 0 then ""
    else [s[0]] + Replace(s[1..], pat, sub)
  }

  /** Wrapping every occurrence of `w` in `c c … c c` only inserts `c` characters. */
  lemma {:induction false} ReplaceWrapErase(s: string, w: string, c: char)
    ensures Erase(Replace(s, w, [c, c] + w + [c, c]), c) == Erase(s, c)
    decreases |s|
  {
    var wrap := [c, c] + w + [c, c];
    WrapErased(w, c);
    if |w| == 0 {
      if |s| > 0 {
        ReplaceWrapErase(s[1..], w, c);
        EraseAppend(wrap + [s[0]], Replace(s[1..], w, wrap), c);
        EraseAppend(wrap, [s[0]], c);
        EraseAppend([s[0]], s[1..], c);
        assert s == [s[0]] + s[1..];
      }
    } else if StartsWith(s, w) {
      ReplaceWrapErase(s[|w|..], w, c);
      EraseAppend(wrap, Replace(s[|w|..], w, wrap), c);
      EraseAppend(w, s[|w|..], c);
      assert s == w + s[|w|..];
    } else if |s| > 0 {
      ReplaceWrapErase(s[1..], w, c);
      EraseAppend([s[0]], Replace(s[1..], w, wrap), c);
      EraseAppend([s[0]], s[1..], c);
      assert s == [s[0]] + s[1..];
    }
  }

  /** Erasing `c` from `c c w c c` leaves `w` with `c` erased. */
  lemma WrapErased(w: string, c: char)
    ensures Erase([c, c] + w + [c, c], c) == Erase(w, c)
  {
    EraseAppend([c, c], w, c);
    EraseAppend([c, c] + w, [c, c], c);
    assert Erase([c, c], c) == "";
  }

  /** The decimal digit for `d`. */
  function Digit(d: nat): (c: char)
    requires d < 10
    ensures '0' <= c <= '9' && (c as int) - ('0' as int) == d
  {
    (('0' as int) + d) as char
  }

  /** Python's `str(n)` for a natural number. */
  function Decimal(n: nat): (r: string)
    ensures |r| >= 1
    ensures forall k :: 0 <= k < |r| ==> '0' <= r[k] <= '9'
    decreases n
  {
    if n < 10 then [Digit(n)] else Decimal(n / 10) + [Digit(n % 10)]
  }

  /** The value of a string of decimal digits. */
  function DecimalValue(s: string): nat
    requires forall k :: 0 <= k < |s| ==> '0' <= s[k] <= '9'
  {
    if |s| == 0 then 0 else 10 * DecimalValue(s[..|s| - 1]) + ((s[|s| - 1] as int) - ('0' as int))
  }

  /** Formatting a number in decimal can be read back. */
  lemma {:induction false} DecimalRoundTrip(n: nat)
    ensures DecimalValue(Decimal(n)) == n
    decreases n
  {
    if n >= 10 {
      DecimalRoundTrip(n / 10);
      var r := Decimal(n);
      assert r[..|r| - 1] == Decimal(n / 10);
    }
  }

  // ----- Set iteration orders -----

  predicate NoDuplicates<T(==)>(xs: seq<T>) {
    forall i, j :: 0 <= i < j < |xs| ==> xs[i] != xs[j]
  }

  /** `order` is an iteration order of `set(xs)`: each element of `xs` exactly once. */
  predicate IsSetOrder<T(==)>(order: seq<T>, xs: seq<T>) {
    && NoDuplicates(order)
    && (forall t :: t in order ==> t in xs)
    && (forall t :: t in xs ==> t in order)
  }

  /** The elements of `xs` not in `seen`, each at its first occurrence. */
  function FirstOccurrences<T(==)>(xs: seq<T>, seen: set<T>): (r: seq<T>)
    ensures NoDuplicates(r)
    ensures forall t :: t in r ==> t in xs && t !in seen
    ensures forall t :: t in xs && t !in seen ==> t in r
    decreases |xs|
  {
    if |xs| == 0 then []
    else if xs[0] in seen then FirstOccurrences(xs[1..], seen)
    else
      var rest := FirstOccurrences(xs[1..], seen + {xs[0]});
      assert forall i :: 1 <= i < |rest| + 1 ==> ([xs[0]] + rest)[i] == rest[i - 1];
      [xs[0]] + rest
  }

  /**
   * An iteration order of `set(xs)` read off any listing `p`: the elements of
   * `xs` in the order `p` first lists them, then the ones `p` leaves out in
   * the order of `xs`.
   */
  function SetOrderFrom<T(==)>(p: seq<T>, xs: seq<T>): (r: seq<T>)
    ensures IsSetOrder(r, xs)
  {
    FirstOccurrences(Keep(p, (t: T) => t in xs, true) + xs, {})
  }

  /** Every iteration order of `set(xs)` is its own reading, so `SetOrderFrom` reaches all of them. */
  lemma SetOrderFromValid<T>(p: seq<T>, xs: seq<T>)
    requires IsSetOrder(p, xs)
    ensures SetOrderFrom(p, xs) == p
  {
    KeepAll(p, (t: T) => t in xs, true);
    FirstOccurrencesOf(p, xs, {});
  }

  lemma {:induction false} FirstOccurrencesOf<T>(p: seq<T>, xs: seq<T>, seen: set<T>)
    requires NoDuplicates(p)
    requires forall t :: t in p ==> t !in seen
    requires forall t :: t in xs ==> t in p || t in seen
    ensures FirstOccurrences(p + xs, seen) == p
    decreases |p|
  {
    if |p| == 0 {
      assert p + xs == xs;
      var r := FirstOccurrences(xs, seen);
      if |r| > 0 {
        assert r[0] in r;
      }
    } else {
      assert (p + xs)[0] == p[0];
      assert (p + xs)[1..] == p[1..] + xs;
      assert forall i :: 0 <= i < |p| - 1 ==> p[1..][i] == p[i + 1];
      FirstOccurrencesOf(p[1..], xs, seen + {p[0]});
    }
  }

  // ----- Filtering -----

  lemma ConcatAssoc<T>(a: seq<T>, b: seq<T>, c: seq<T>)
    ensures a + (b + c) == (a + b) + c
  {
  }

  /** `for x in xs: out.extend(f(x))`: the results of `f` over `xs`, concatenated in order. */
  function FlatMap<A, B>(xs: seq<A>, f: A -> seq<B>): (r: seq<B>)
    ensures |xs| == 1 ==> r == f(xs[0])
  {
    if |xs| == 0 then [] else f(xs[0]) + FlatMap(xs[1..], f)
  }

  lemma {:induction false} FlatMapAppend<A, B>(a: seq<A>, b: seq<A>, f: A -> seq<B>)
    ensures FlatMap(a + b, f) == FlatMap(a, f) + FlatMap(b, f)
    decreases |a|
  {
    if |a| == 0 {
      assert a + b == b;
    } else {
      assert (a + b)[1..] == a[1..] + b;
      FlatMapAppend(a[1..], b, f);
      ConcatAssoc(f(a[0]), FlatMap(a[1..], f), FlatMap(b, f));
    }
  }

  /** Python's truthiness of a `str` or a `list`. */
  function NonEmpty<T>(s: seq<T>): bool {
    |s| > 0
  }

  /** The elements of `xs` whose key is `want`, in their order in `xs`. */
  function Keep<T>(xs: seq<T>, key: T -> bool, want: bool): (r: seq<T>)
    ensures |r| <= |xs|
    ensures forall i :: 0 <= i < |r| ==> key(r[i]) == want
    ensures forall x :: x in r ==> x in xs
  {
    if |xs| == 0 then []
    else (if key(xs[0]) == want then [xs[0]] else []) + Keep(xs[1..], key, want)
  }

  lemma {:induction false} KeepAppend<T>(a: seq<T>, b: seq<T>, key: T -> bool, want: bool)
    ensures Keep(a + b, key, want) == Keep(a, key, want) + Keep(b, key, want)
    decreases |a|
  {
    if |a| == 0 {
      assert a + b == b;
    } else {
      assert (a + b)[1..] == a[1..] + b;
      KeepAppend(a[1..], b, key, want);
    }
  }

  lemma {:induction false} KeepAll<T>(xs: seq<T>, key: T -> bool, want: bool)
    requires forall i :: 0 <= i < |xs| ==> key(xs[i]) == want
    ensures Keep(xs, key, want) == xs
    decreases |xs|
  {
    if |xs| > 0 {
      KeepAll(xs[1..], key, want);
    }
  }

  lemma {:induction false} KeepNone<T>(xs: seq<T>, key: T -> bool, want: bool)
    requires forall i :: 0 <= i < |xs| ==> key(xs[i]) != want
    ensures Keep(xs, key, want) == []
    decreases |xs|
  {
    if |xs| > 0 {
      KeepNone(xs[1..], key, want);
    }
  }

  /** One step of `Keep`: the first element when its key is the wanted one, then the rest. */
  lemma KeepCons<T>(xs: seq<T>, key: T -> bool, want: bool)
    requires |xs| > 0
    ensures Keep(xs, key, want) == (if key(xs[0]) == want then [xs[0]] else []) + Keep(xs[1..], key, want)
  {
  }

  /** An element of `xs` with key `want` is kept. */
  lemma {:induction false} KeepHas<T>(xs: seq<T>, key: T -> bool, want: bool, x: T)
    requires x in xs && key(x) == want
    ensures x in Keep(xs, key, want)
    decreases |xs|
  {
    if xs[0] != x {
      KeepHas(xs[1..], key, want, x);
    }
  }
}

=== FILE: utils.dfy ===
/**
 * The small helpers of `utils.py`: the "is this English" heuristic, language
 * codes, Greeklish transliteration, page counting and the index/button logic
 * of the `Pagination` view.
 */
module Utils {
  import opened Wrappers
  import opened Text

  /** `is_english(word)`: `all(ord(ch) < 200 for ch in word)`. */
  function IsEnglish(w: string): (r: bool)
    ensures r <==> forall i :: 0 <= i < |w| ==> (w[i] as int) < 200
  {
    if |w| == 0 then true
    else
      assert forall i :: 1 <= i < |w| ==> w[i] == w[1..][i - 1];
      (w[0] as int) < 200 && IsEnglish(w[1..])
  }

  /** A text is English exactly when both of its parts are; in particular the empty text is English. */
  lemma IsEnglishConcat(a: string, b: string)
    ensures IsEnglish(a + b) <==> IsEnglish(a) && IsEnglish(b)
    ensures IsEnglish("")
  {
    assert forall i :: 0 <= i < |a| ==> (a + b)[i] == a[i];
    assert forall i :: 0 <= i < |b| ==> (a + b)[|a| + i] == b[i];
  }

  /** `get_language_code(language)`. */
  function LanguageCode(language: string): (r: Result<string>)
    ensures r == Ok("en") <==> language == "english" || language == "en"
    ensures r == Ok("el") <==> language == "greek" || language == "el" || language == "ελληνικά"
    ensures r.Ok? ==> r.value == "en" || r.value == "el"
    ensures r.Err? ==> r.error == NotImplementedError
  {
    if language == "english" || language == "en" then Ok("en")
    else if language == "greek" || language == "el" || language == "ελληνικά" then Ok("el")
    else Err(NotImplementedError)
  }

  /** A language code is itself an accepted language name, and maps to itself. */
  lemma LanguageCodeIdempotent(language: string)
    requires LanguageCode(language).Ok?
    ensures LanguageCode(LanguageCode(language).value) == LanguageCode(language)
  {
  }

  /**
   * The `GREEKLISH` translation table: one Greek letter per lower-case Latin
   * letter, and two for `j`; `None` for a character outside the table.
   */
  function Greeklish(c: char): (r: Option<string>)
    ensures r.Some? <==> 'a' <= c <= 'z'
    ensures r.Some? ==> |r.value| == (if c == 'j' then 2 else 1)
    ensures r.Some? ==> forall i :: 0 <= i < |r.value| ==> !('a' <= r.value[i] <= 'z') && !('A' <= r.value[i] <= 'Z')
  {
    match c
    case 'a' => Some("α")
    case 'b' => Some("β")
    case 'c' => Some("σ")
    case 'd' => Some("δ")
    case 'e' => Some("ε")
    case 'f' => Some("φ")
    case 'g' => Some("γ")
    case 'h' => Some("η")
    case 'i' => Some("ι")
    case 'j' => Some("τζ")
    case 'k' => Some("κ")
    case 'l' => Some("λ")
    case 'm' => Some("μ")
    case 'n' => Some("ν")
    case 'o' => Some("ο")
    case 'p' => Some("π")
    case 'q' => Some("κ")
    case 'r' => Some("ρ")
    case 's' => Some("σ")
    case 't' => Some("τ")
    case 'u' => Some("υ")
    case 'v' => Some("β")
    case 'w' => Some("ω")
    case 'x' => Some("χ")
    case 'y' => Some("υ")
    case 'z' => Some("ζ")
    case _ => None
  }

  /**
   * `str.translate` with the table: mapped characters are replaced, all
   * others kept. Every lower-case Latin letter is mapped, so none is left,
   * and the table brings in no capital.
   */
  function Translate(s: string): (r: string)
    ensures forall i :: 0 <= i < |r| ==> !('a' <= r[i] <= 'z')
    ensures (forall i :: 0 <= i < |s| ==> !('A' <= s[i] <= 'Z')) ==> forall i :: 0 <= i < |r| ==> !('A' <= r[i] <= 'Z')
  {
    if |s| == 0 then ""
    else
      var head := match Greeklish(s[0]) case Some(g) => g case None => [s[0]];
      assert forall i :: 0 <= i < |head| ==> !('a' <= head[i] <= 'z');
      assert !('A' <= s[0] <= 'Z') ==> forall i :: 0 <= i < |head| ==> !('A' <= head[i] <= 'Z');
      assert forall i :: 1 <= i < |s| ==> s[i] == s[1..][i - 1];
      head + Translate(s[1..])
  }

  /** What the table makes of one character: its Greek image, or the character itself. */
  function LetterImage(c: char): string {
    match Greeklish(c)
    case Some(g) => g
    case None => [c]
  }

  /** A single character translates to its table image, and a character outside the table is kept. */
  lemma TranslateChar(c: char)
    ensures Translate([c]) == LetterImage(c)
    ensures 'a' <= c <= 'z' ==> Translate([c]) == Greeklish(c).value
    ensures !('a' <= c <= 'z') ==> Translate([c]) == [c]
  {
    assert [c][1..] == [];
  }

  /** The translation is the images of the characters, concatenated in order. */
  lemma {:induction false} TranslateImages(s: string)
    ensures Translate(s) == FlatMap(s, LetterImage)
    decreases |s|
  {
    if |s| > 0 {
      TranslateImages(s[1..]);
    }
  }

  lemma {:induction false} TranslateAppend(a: string, b: string)
    ensures Translate(a + b) == Translate(a) + Translate(b)
    decreases |a|
  {
    if |a| == 0 {
      assert a + b == b;
    } else {
      assert (a + b)[0] == a[0];
      assert (a + b)[1..] == a[1..] + b;
      TranslateAppend(a[1..], b);
    }
  }

  /** Number of occurrences of `c` in `s`. */
  function Count(s: string, c: char): nat {
    if |s| == 0 then 0 else (if s[0] == c then 1 else 0) + Count(s[1..], c)
  }

  /** Only `j` expands, to two characters; every other character gives exactly one. */
  lemma {:induction false} TranslateLength(s: string)
    ensures |Translate(s)| == |s| + Count(s, 'j')
    decreases |s|
  {
    if |s| > 0 {
      TranslateLength(s[1..]);
    }
  }

  /** A text without any lower-case Latin letter is left unchanged. */
  lemma {:induction false} TranslateUnmapped(s: string)
    requires forall i :: 0 <= i < |s| ==> !('a' <= s[i] <= 'z')
    ensures Translate(s) == s
    decreases |s|
  {
    if |s| > 0 {
      TranslateUnmapped(s[1..]);
      assert s == [s[0]] + s[1..];
    }
  }

  /** The transliteration is not injective: c/s, b/v, k/q and u/y have the same Greek image. */
  lemma GreeklishNotInjective()
    ensures Greeklish('c') == Greeklish('s') == Some("σ")
    ensures Greeklish('b') == Greeklish('v') == Some("β")
    ensures Greeklish('k') == Greeklish('q') == Some("κ")
    ensures Greeklish('u') == Greeklish('y') == Some("υ")
  {
  }

  /** Two table letters with the same image make words that differ only in them transliterate alike. */
  lemma TranslateSameImage(a: char, b: char, pre: string, post: string)
    requires Greeklish(a) == Greeklish(b) && Greeklish(a).Some?
    ensures Translate(pre + [a] + post) == Translate(pre + [b] + post)
  {
    TranslateAppend(pre + [a], post);
    TranslateAppend(pre + [b], post);
    TranslateAppend(pre, [a]);
    TranslateAppend(pre, [b]);
    assert [a][1..] == [b][1..] == [];
    assert Translate([a]) == Translate([b]);
  }

  /** `str.lower()` on ASCII text: `A`..`Z` become `a`..`z`, everything else is kept. */
  function AsciiLower(s: string): (r: string)
    ensures |r| == |s|
    ensures forall i :: 0 <= i < |s| ==> r[i] == if 'A' <= s[i] <= 'Z' then (s[i] as int + 32) as char else s[i]
  {
    if |s| == 0 then ""
    else [if 'A' <= s[0] <= 'Z' then (s[0] as int + 32) as char else s[0]] + AsciiLower(s[1..])
  }

  predicate IsAscii(s: string) {
    forall i :: 0 <= i < |s| ==> (s[i] as int) < 128
  }

  /**
   * `greeklish_to_greek_characters(word)`: lower-case, then transliterate.
   * `lower` is Python's `str.lower` (its Unicode case tables, including the
   * final-sigma rule, are not reimplemented).
   */
  function GreeklishToGreek(lower: string -> string, word: string): (r: string)
    ensures r == FlatMap(lower(word), LetterImage)
    ensures |r| == |lower(word)| + Count(lower(word), 'j')
    ensures forall i :: 0 <= i < |r| ==> !('a' <= r[i] <= 'z')
  {
    TranslateLength(lower(word));
    TranslateImages(lower(word));
    Translate(lower(word))
  }

  /** On ASCII input the output is one character longer than the input for every `j` or `J`, and holds no Latin letter. */
  lemma GreeklishAsciiLength(lower: string -> string, word: string)
    requires IsAscii(word) && lower(word) == AsciiLower(word)
    ensures |GreeklishToGreek(lower, word)| == |word| + Count(word, 'j') + Count(word, 'J')
    ensures forall i :: (0 <= i < |GreeklishToGreek(lower, word)|
      ==> !('a' <= GreeklishToGreek(lower, word)[i] <= 'z') && !('A' <= GreeklishToGreek(lower, word)[i] <= 'Z'))
  {
    LowerCountJ(word);
  }

  lemma {:induction false} LowerCountJ(s: string)
    ensures Count(AsciiLower(s), 'j') == Count(s, 'j') + Count(s, 'J')
    decreases |s|
  {
    if |s| > 0 {
      LowerCountJ(s[1..]);
      assert AsciiLower(s)[1..] == AsciiLower(s[1..]);
    }
  }

  /**
   * `fix_greek_spelling(word)`: look the transliterated word up and take the
   * first whitespace-separated token of the bold text of the first
   * translation cell, keeping `word` when any step of the lookup fails
   * (the `except Exception` branch, which also catches the `IndexError` of
   * an empty text), then strip commas. `boldText(q)` is what the page for
   * `q` shows in that cell, `None` when the cell is missing.
   */
  function FixGreekSpelling(lower: string -> string, boldText: string -> Option<string>, word: string): (r: string)
    ensures r == [] || (r[0] != ',' && r[|r| - 1] != ',')
    ensures (var t := boldText(GreeklishToGreek(lower, word));
      t.None? || SplitWs(t.value) == [] ==> r == StripChar(word, ','))
    ensures (var t := boldText(GreeklishToGreek(lower, word));
      t.Some? && SplitWs(t.value) != [] ==> r == StripChar(SplitWs(t.value)[0], ','))
    ensures (var t := boldText(GreeklishToGreek(lower, word));
      t.Some? && SplitWs(t.value) != [] ==> Contains(SplitWs(t.value)[0], r) && forall c :: c in r ==> !IsSpace(c))
  {
    var t := boldText(GreeklishToGreek(lower, word));
    if t.Some? && SplitWs(t.value) != [] then
      var w := SplitWs(t.value)[0];
      assert w in SplitWs(t.value);
      StripChar(w, ',')
    else StripChar(word, ',')
  }

  /** A word the site does not know, and that carries no stray comma, comes back as it was. */
  lemma FixGreekSpellingUnknown(lower: string -> string, boldText: string -> Option<string>, word: string)
    requires boldText(GreeklishToGreek(lower, word)).None?
    requires word == [] || (word[0] != ',' && word[|word| - 1] != ',')
    ensures FixGreekSpelling(lower, boldText, word) == word
  {
    StripCharUnchanged(word, ',');
  }

  /** Python's floor division `a // b`, rounding toward negative infinity. */
  function FloorDiv(a: int, b: int): (q: int)
    requires b != 0
    ensures b > 0 ==> q * b <= a < q * b + b
    ensures b < 0 ==> q * b + b < a <= q * b
  {
    if b > 0 then a / b else (-a) / (-b)
  }

  /**
   * `Pagination.compute_total_pages(total_results, results_per_page)`:
   * `((total_results - 1) // results_per_page) + 1`; a zero page size
   * raises `ZeroDivisionError`.
   */
  function ComputeTotalPages(totalResults: int, perPage: int): (r: Result<int>)
    ensures r.Err? <==> perPage == 0
    ensures perPage >= 1 && totalResults == 0 ==> r == Ok(0)
    ensures perPage >= 1 && totalResults >= 1 ==> r.Ok? && (r.value - 1) * perPage < totalResults <= r.value * perPage
  {
    if perPage == 0 then Err(ZeroDivisionError)
    else
      var q := FloorDiv(totalResults - 1, perPage);
      assert (q + 1) * perPage == q * perPage + perPage;
      Ok(q + 1)
  }

  /** The page counter of a `Pagination` view: the shown page and the page count last reported. */
  datatype Pager = Pager(index: int, total: int)

  /** A fresh view shows page 1 and knows of no pages yet. */
  const InitialPager: Pager := Pager(1, 0)

  /** Emoji of the "end" button when it jumps back to the first page, and when it jumps to the last. */
  const FirstPageEmoji: string := "\U{23EE}\U{FE0F}"
  const LastPageEmoji: string := "\U{23ED}\U{FE0F}"

  /** The state `update_buttons` gives the three buttons. */
  datatype Buttons = Buttons(previousDisabled: bool, nextDisabled: bool, endEmoji: string)

  /** `update_buttons`. */
  function UpdateButtons(p: Pager): (b: Buttons)
    ensures b.previousDisabled <==> p.index == 1
    ensures b.nextDisabled <==> p.index == p.total
    ensures b.endEmoji == FirstPageEmoji <==> p.index > FloorDiv(p.total, 2)
    ensures b.endEmoji == FirstPageEmoji || b.endEmoji == LastPageEmoji
  {
    Buttons(p.index == 1, p.index == p.total, if p.index > FloorDiv(p.total, 2) then FirstPageEmoji else LastPageEmoji)
  }

  datatype Click = Previous | Next | End

  /** A click Discord can deliver: one on a button that is not disabled. */
  predicate Enabled(p: Pager, c: Click) {
    match c
    case Previous => !UpdateButtons(p).previousDisabled
    case Next => !UpdateButtons(p).nextDisabled
    case End => true
  }

  /**
   * The `previous`, `next` and `end` callbacks: the index moves by the old
   * page count, then `edit_page` stores the page count `reported` by the
   * page source for the new index.
   */
  function OnClick(p: Pager, c: Click, reported: int): (q: Pager)
    ensures q.total == reported
    ensures c == Previous ==> q.index == p.index - 1
    ensures c == Next ==> q.index == p.index + 1
    ensures c == End ==> (q.index == p.total <==> p.index <= FloorDiv(p.total, 2) || p.total == 1)
    ensures c == End ==> q.index == 1 || q.index == p.total
  {
    match c
    case Previous => Pager(p.index - 1, reported)
    case Next => Pager(p.index + 1, reported)
    case End => Pager(if p.index <= FloorDiv(p.total, 2) then p.total else 1, reported)
  }

  /** The shown page is one of the pages. */
  predicate InRange(p: Pager) {
    1 <= p.index <= p.total
  }

  /** Clicking an enabled button, while the page count stays the same, keeps the index within the pages. */
  lemma ClickKeepsRange(p: Pager, c: Click)
    requires InRange(p) && Enabled(p, c)
    ensures InRange(OnClick(p, c, p.total))
  {
  }

  /** The state after a run of clicks, each on an enabled button, while the page source keeps reporting `total` pages. */
  function Run(p: Pager, clicks: seq<Click>, total: int): (q: Pager)
    ensures |clicks| > 0 && Enabled(p, clicks[0]) ==> q.total == total
    decreases |clicks|
  {
    if |clicks| == 0 || !Enabled(p, clicks[0]) then p else Run(OnClick(p, clicks[0], total), clicks[1..], total)
  }

  /** Any run of enabled clicks from a valid state stays within the pages while their count does not change. */
  lemma {:induction false} RunKeepsRange(p: Pager, clicks: seq<Click>)
    requires InRange(p)
    ensures InRange(Run(p, clicks, p.total))
    decreases |clicks|
  {
    if |clicks| > 0 && Enabled(p, clicks[0]) {
      ClickKeepsRange(p, clicks[0]);
      RunKeepsRange(OnClick(p, clicks[0], p.total), clicks[1..]);
    }
  }

  /** On two or more pages, "end" from the first half goes to the last page and back again. */
  lemma EndAlternates(p: Pager)
    requires InRange(p) && p.total >= 2 && p.index <= FloorDiv(p.total, 2)
    ensures OnClick(p, End, p.total).index == p.total
    ensures OnClick(OnClick(p, End, p.total), End, p.total).index == 1
    ensures UpdateButtons(OnClick(p, End, p.total)).endEmoji == FirstPageEmoji
  {
  }

  /**
   * `navigate`: the page count reported for the first page must be positive
   * (`assert`); one page is sent without a view, more pages with the
   * buttons set. The result is the new state and the buttons, if a view is sent.
   */
  function Navigate(p: Pager, reportedTotal: int): (r: Result<(Pager, Option<Buttons>)>)
    ensures r.Err? <==> reportedTotal <= 0
    ensures r.Err? ==> r.error == AssertionError
    ensures r.Ok? ==> r.value.0 == p.(total := reportedTotal)
    ensures r.Ok? ==> (r.value.1.None? <==> reportedTotal == 1)
    ensures r.Ok? && r.value.1.Some? ==> r.value.1.value == UpdateButtons(r.value.0)
  {
    var q := p.(total := reportedTotal);
    if reportedTotal <= 0 then Err(AssertionError)
    else if reportedTotal == 1 then Ok((q, None))
    else Ok((q, Some(UpdateButtons(q))))
  }

  /** A fresh view that reports at least one page starts in range, with "previous" disabled. */
  lemma NavigateStartsInRange(reportedTotal: int)
    requires reportedTotal >= 1
    ensures Navigate(InitialPager, reportedTotal).Ok?
    ensures InRange(Navigate(InitialPager, reportedTotal).value.0)
    ensures UpdateButtons(Navigate(InitialPager, reportedTotal).value.0).previousDisabled
  {
  }
}

=== FILE: wiktionary.dfy ===
/**
 * The conjugation-table reshaping and part-of-speech collection of
 * `wiktionary.py`, after the HTML has been read.
 *
 * Each table row comes in as the texts of its cells, as
 * `cell.get_text(strip=True)` gives them. A navigation frame is its head text
 * and its content rows. The page lookups that need the network are functions
 * passed in: parsing the page of a word, and finding the entries of a part of
 * speech.
 * Python dictionaries become maps: their keys and values are modelled, their
 * insertion order is not.
 */
module Wiktionary {
  import opened Wrappers
  import opened Text

  /** The Greek section ids whose bodies are collected for a Greek query. */
  const Entries: seq<string> := [
    "Ετυμολογία", "Ετυμολογία_1", "Ετυμολογία_2",
    "Προφορά", "Προφορά_1", "Προφορά_2",
    "Επιφώνημα", "Έκφραση", "Ουσιαστικό",
    "Εκφράσεις", "Επίθετο", "Επίρρημα", "Συνώνυμα", "Αντώνυμα",
    "Κλιτικός_τύπος_επιθέτου", "Κλιτικός_τύπος_ουσιαστικού",
    "Πολυλεκτικοί_όροι", "Σημειώσεις"]

  /** The English section ids collected for an English query. */
  const EntriesEn: seq<string> := [
    "Etymology", "Etymology_1", "Etymology_2",
    "Pronunciation", "Pronunciation_2", "Pronunciation_3",
    "Interjection", "Interjection_2", "Expression",
    "Expression_2", "Expressions", "Noun", "Noun_2",
    "Adjective", "Adjective_2", "Adverb", "Adverb_2",
    "Related", "Synonyms", "Antonyms", "Synonyms_2", "Antonyms_2"]

  /** The titles of the active and passive voice frames, in the order voices are labelled. */
  const VerbVoices: seq<string> := ["Ενεργητική φωνή", "Παθητική φωνή"]

  /** The tenses table one keeps. */
  const RelevantTensesOne: seq<string> := ["Ενεστώτας", "Παρατατικός", "Αόριστος", "Συνοπτ. Μέλλ."]

  /** The tenses table two keeps. */
  const RelevantTensesTwo: seq<string> := ["Ενεστώτας", "Παρατατικός"]

  /** At most this many rows of a voice frame are read. */
  const MaxVoiceRows: nat := 16

  /** The rows of one tense block: a category row, a tense-name row and six person rows. */
  const BlockRows: nat := 8

  /** The rows of a table of the second layout. */
  const TableTwoRows: nat := 7

  /** The texts of a row's cells. */
  type Row = seq<string>

  /** Tense name to its person forms. */
  type Tenses = map<string, seq<string>>

  /** Voice name to its tenses. */
  type Conjugation = map<string, Tenses>

  /** A `NavFrame` div: the text of its `NavHead` (if any) and the rows of its `NavContent` (if any). */
  datatype NavFrame = NavFrame(head: Option<string>, content: Option<seq<Row>>)

  // ----- Cells and rows -----

  /** The non-empty cell texts of a row, in order (`if text: row_data.append(text)`). */
  function Cells(row: Row): (r: Row)
    ensures r == Keep(row, NonEmpty, true)
    ensures forall c :: c in r <==> c in row && |c| > 0
  {
    if |row| == 0 then []
    else
      KeepCons(row, NonEmpty, true);
      (if |row[0]| > 0 then [row[0]] else []) + Cells(row[1..])
  }

  /** The rows of a voice frame that table one reads: the first sixteen, each without empty cells. */
  function VoiceRows(rows: seq<Row>): (r: seq<Row>)
    ensures |r| <= MaxVoiceRows && |r| <= |rows|
    ensures |r| == MaxVoiceRows || |r| == |rows|
    ensures forall i :: 0 <= i < |r| ==> r[i] == Cells(rows[i])
  {
    var n := if |rows| < MaxVoiceRows then |rows| else MaxVoiceRows;
    seq(n, i requires 0 <= i < n => Cells(rows[i]))
  }

  // ----- Transposition (`zip(*rows)`) -----

  /** The length of the shortest row: `zip` stops there. */
  function Width(rows: seq<Row>): (w: nat)
    ensures forall i :: 0 <= i < |rows| ==> w <= |rows[i]|
    ensures |rows| > 0 ==> exists i :: 0 <= i < |rows| && w == |rows[i]|
    ensures |rows| == 0 ==> w == 0
  {
    if |rows| == 0 then 0
    else if |rows| == 1 then |rows[0]|
    else
      var w := Width(rows[1..]);
      assert forall i :: 1 <= i < |rows| ==> rows[i] == rows[1..][i - 1];
      if |rows[0]| < w then |rows[0]| else w
  }

  /** `list(zip(*rows))`: column `j` holds the `j`-th cell of every row. */
  function Transpose(rows: seq<Row>): (r: seq<Row>)
    ensures |r| == Width(rows)
    ensures forall j :: 0 <= j < |r| ==> |r[j]| == |rows|
    ensures forall j, i :: 0 <= j < |r| && 0 <= i < |rows| ==> r[j][i] == rows[i][j]
  {
    var w := Width(rows);
    seq(w, j requires 0 <= j < w => seq(|rows|, i requires 0 <= i < |rows| => rows[i][j]))
  }

  /** All rows have `w` cells. */
  predicate Rectangular(rows: seq<Row>, w: nat) {
    forall i :: 0 <= i < |rows| ==> |rows[i]| == w
  }

  /** Transposing a non-empty rectangular table twice gives it back. */
  lemma TransposeInvolution(rows: seq<Row>, w: nat)
    requires |rows| > 0 && w > 0 && Rectangular(rows, w)
    ensures Transpose(Transpose(rows)) == rows
  {
    var t := Transpose(rows);
    assert Width(rows) == w;
    assert Rectangular(t, |rows|);
    var tt := Transpose(t);
    assert Width(t) == |rows|;
    forall i | 0 <= i < |rows| ensures tt[i] == rows[i] {
      assert |tt[i]| == |t| == w;
    }
  }

  // ----- Keeping the tenses of a block -----

  /**
   * `for col in columns: tense, *conj = col; if keep(tense): parsed[tense] = conj`,
   * starting from `acc`. Later columns overwrite earlier ones.
   */
  function Keyed(cols: seq<Row>, keep: string -> bool, acc: Tenses): (r: Tenses)
    requires forall j :: 0 <= j < |cols| ==> |cols[j]| >= 1
    ensures forall k :: k in r <==> k in acc || (keep(k) && HeadsSome(cols, k))
    decreases |cols|
  {
    if |cols| == 0 then acc
    else
      var tense := cols[0][0];
      var next := if keep(tense) then acc[tense := cols[0][1..]] else acc;
      HeadsSomeCons(cols);
      Keyed(cols[1..], keep, next)
  }

  /** Some column has head `k`. */
  predicate HeadsSome(cols: seq<Row>, k: string)
    requires forall j :: 0 <= j < |cols| ==> |cols[j]| >= 1
  {
    exists j :: 0 <= j < |cols| && cols[j][0] == k
  }

  lemma HeadsSomeCons(cols: seq<Row>)
    requires |cols| > 0 && forall j :: 0 <= j < |cols| ==> |cols[j]| >= 1
    ensures forall k :: HeadsSome(cols, k) <==> cols[0][0] == k || HeadsSome(cols[1..], k)
  {
    forall k | HeadsSome(cols, k) && cols[0][0] != k ensures HeadsSome(cols[1..], k) {
      var j :| 0 <= j < |cols| && cols[j][0] == k;
      assert cols[1..][j - 1] == cols[j];
    }
    forall k | HeadsSome(cols[1..], k) ensures HeadsSome(cols, k) {
      var j :| 0 <= j < |cols| - 1 && cols[1..][j][0] == k;
      assert cols[j + 1] == cols[1..][j];
    }
  }

  /** Every kept value is the tail of a column with that head, or was already in `acc`. */
  lemma {:induction false} KeyedFrom(cols: seq<Row>, keep: string -> bool, acc: Tenses, k: string)
    requires forall j :: 0 <= j < |cols| ==> |cols[j]| >= 1
    requires k in Keyed(cols, keep, acc)
    ensures (k in acc && Keyed(cols, keep, acc)[k] == acc[k])
      || exists j :: 0 <= j < |cols| && cols[j][0] == k && Keyed(cols, keep, acc)[k] == cols[j][1..]
    decreases |cols|
  {
    if |cols| > 0 {
      var tense := cols[0][0];
      var next := if keep(tense) then acc[tense := cols[0][1..]] else acc;
      KeyedFrom(cols[1..], keep, next, k);
      if !(k in next && Keyed(cols[1..], keep, next)[k] == next[k]) {
        var j :| 0 <= j < |cols| - 1 && cols[1..][j][0] == k && Keyed(cols[1..], keep, next)[k] == cols[1..][j][1..];
        assert cols[j + 1] == cols[1..][j];
      }
    }
  }

  /** Columns of `n + 1` cells give values of `n` forms, under kept heads only. */
  lemma KeyedShape(cols: seq<Row>, keep: string -> bool, acc: Tenses, n: nat)
    requires forall j :: 0 <= j < |cols| ==> |cols[j]| == n + 1
    requires forall k :: k in acc ==> keep(k) && |acc[k]| == n
    ensures forall k :: k in Keyed(cols, keep, acc) ==> keep(k) && |Keyed(cols, keep, acc)[k]| == n
  {
    forall k | k in Keyed(cols, keep, acc) ensures keep(k) && |Keyed(cols, keep, acc)[k]| == n {
      KeyedFrom(cols, keep, acc, k);
    }
  }

  /** Later columns overwrite earlier ones: the last column with a kept head decides its value. */
  lemma {:induction false} KeyedLast(cols: seq<Row>, keep: string -> bool, acc: Tenses, j: nat)
    requires forall j :: 0 <= j < |cols| ==> |cols[j]| >= 1
    requires j < |cols| && keep(cols[j][0]) && LastWith(cols, j)
    ensures cols[j][0] in Keyed(cols, keep, acc)
    ensures Keyed(cols, keep, acc)[cols[j][0]] == cols[j][1..]
    decreases |cols|
  {
    var tense := cols[0][0];
    var next := if keep(tense) then acc[tense := cols[0][1..]] else acc;
    if j == 0 {
      KeyedUntouched(cols[1..], keep, next, tense);
    } else {
      assert cols[1..][j - 1] == cols[j];
      assert LastWith(cols[1..], j - 1) by {
        forall j2 | j - 1 < j2 < |cols| - 1 ensures cols[1..][j2][0] != cols[1..][j - 1][0] {
          assert cols[1..][j2] == cols[j2 + 1];
        }
      }
      KeyedLast(cols[1..], keep, next, j - 1);
    }
  }

  /** A key no kept column names keeps its value from `acc`. */
  lemma {:induction false} KeyedUntouched(cols: seq<Row>, keep: string -> bool, acc: Tenses, k: string)
    requires forall j :: 0 <= j < |cols| ==> |cols[j]| >= 1
    requires k in acc && forall j :: 0 <= j < |cols| ==> cols[j][0] != k
    ensures k in Keyed(cols, keep, acc) && Keyed(cols, keep, acc)[k] == acc[k]
    decreases |cols|
  {
    if |cols| > 0 {
      var tense := cols[0][0];
      var next := if keep(tense) then acc[tense := cols[0][1..]] else acc;
      assert forall j :: 0 <= j < |cols| - 1 ==> cols[1..][j] == cols[j + 1];
      KeyedUntouched(cols[1..], keep, next, k);
    }
  }

  /** Keying the columns of `a + b` keys those of `a`, then those of `b` on top. */
  lemma {:induction false} KeyedAppend(a: seq<Row>, b: seq<Row>, keep: string -> bool, acc: Tenses)
    requires forall j :: 0 <= j < |a| ==> |a[j]| >= 1
    requires forall j :: 0 <= j < |b| ==> |b[j]| >= 1
    ensures forall j :: 0 <= j < |a + b| ==> |(a + b)[j]| >= 1
    ensures Keyed(a + b, keep, acc) == Keyed(b, keep, Keyed(a, keep, acc))
    decreases |a|
  {
    if |a| > 0 {
      var next := if keep(a[0][0]) then acc[a[0][0] := a[0][1..]] else acc;
      assert (a + b)[1..] == a[1..] + b;
      KeyedAppend(a[1..], b, keep, next);
    } else {
      assert a + b == b;
    }
  }

  /** Every kept head takes the tail of its last column. */
  lemma KeyedLastAll(cols: seq<Row>, keep: string -> bool, acc: Tenses)
    requires forall j :: 0 <= j < |cols| ==> |cols[j]| >= 1
    ensures forall j :: 0 <= j < |cols| && keep(cols[j][0]) && LastWith(cols, j) ==>
      cols[j][0] in Keyed(cols, keep, acc) && Keyed(cols, keep, acc)[cols[j][0]] == cols[j][1..]
  {
    forall j | 0 <= j < |cols| && keep(cols[j][0]) && LastWith(cols, j)
      ensures cols[j][0] in Keyed(cols, keep, acc) && Keyed(cols, keep, acc)[cols[j][0]] == cols[j][1..]
    {
      KeyedLast(cols, keep, acc, j);
    }
  }

  /** No column after `j` has the same head as column `j`. */
  predicate LastWith(cols: seq<Row>, j: int)
    requires 0 <= j < |cols| && forall j :: 0 <= j < |cols| ==> |cols[j]| >= 1
  {
    forall j2 :: j < j2 < |cols| ==> cols[j2][0] != cols[j][0]
  }

  predicate IsRelevantOne(tense: string) {
    tense in RelevantTensesOne
  }

  /**
   * The columns of the blocks of a voice from block `i` on, in order: each
   * block without its category row, transposed.
   */
  function VoiceColumns(voice: seq<Row>, i: nat): (r: seq<Row>)
    requires |voice| % BlockRows == 0 && i * BlockRows <= |voice|
    ensures forall j :: 0 <= j < |r| ==> |r[j]| == BlockRows - 1
    decreases |voice| - i * BlockRows
  {
    if i * BlockRows == |voice| then []
    else Transpose(voice[BlockRows * i + 1 .. BlockRows * (i + 1)]) + VoiceColumns(voice, i + 1)
  }

  /**
   * The tenses of a voice: for each 8-row block, skip the category row,
   * transpose the other seven and keep the relevant tense columns. The
   * result is one pass over all the voice's columns, so a later block
   * overwrites a tense an earlier one set.
   */
  function ParseVoice(voice: seq<Row>, i: nat, acc: Tenses): (r: Tenses)
    requires |voice| % BlockRows == 0 && i * BlockRows <= |voice|
    requires forall k :: k in acc ==> IsRelevantOne(k) && |acc[k]| == 6
    ensures r == Keyed(VoiceColumns(voice, i), IsRelevantOne, acc)
    ensures forall k :: k in r <==> k in acc || (IsRelevantOne(k) && HeadsSome(VoiceColumns(voice, i), k))
    ensures forall k :: k in r ==> IsRelevantOne(k) && |r[k]| == 6
    decreases |voice| - i * BlockRows
  {
    if i * BlockRows == |voice| then acc
    else
      var block := voice[BlockRows * i + 1 .. BlockRows * (i + 1)];
      var cols := Transpose(block);
      var next := Keyed(cols, IsRelevantOne, acc);
      KeyedShape(cols, IsRelevantOne, acc, 6);
      KeyedAppend(cols, VoiceColumns(voice, i + 1), IsRelevantOne, acc);
      ParseVoice(voice, i + 1, next)
  }

  /**
   * A relevant tense holds the six forms under its last column in the voice;
   * a tense no column names keeps its earlier forms.
   */
  lemma ParseVoiceLast(voice: seq<Row>, i: nat, acc: Tenses)
    requires |voice| % BlockRows == 0 && i * BlockRows <= |voice|
    requires forall k :: k in acc ==> IsRelevantOne(k) && |acc[k]| == 6
    ensures var cols := VoiceColumns(voice, i); var r := ParseVoice(voice, i, acc);
      forall j :: 0 <= j < |cols| && IsRelevantOne(cols[j][0]) && LastWith(cols, j) ==>
        cols[j][0] in r && r[cols[j][0]] == cols[j][1..]
    ensures var cols := VoiceColumns(voice, i); var r := ParseVoice(voice, i, acc);
      forall k :: k in acc && (forall j :: 0 <= j < |cols| ==> cols[j][0] != k) ==> k in r && r[k] == acc[k]
  {
    var cols := VoiceColumns(voice, i);
    KeyedLastAll(cols, IsRelevantOne, acc);
    forall k | k in acc && (forall j :: 0 <= j < |cols| ==> cols[j][0] != k)
      ensures k in Keyed(cols, IsRelevantOne, acc) && Keyed(cols, IsRelevantOne, acc)[k] == acc[k]
    {
      KeyedUntouched(cols, IsRelevantOne, acc, k);
    }
  }

  /** The frames that table one reads: a `NavHead` whose stripped text is a voice title. */
  predicate IsVoiceFrame(f: NavFrame) {
    f.head.Some? && Strip(f.head.value) in VerbVoices
  }

  /** The voice frames, in page order. */
  function VoiceFrames(frames: seq<NavFrame>): seq<NavFrame> {
    Keep(frames, IsVoiceFrame, true)
  }

  /** The read rows of each voice frame, in order; a frame without content fails. */
  function ReadVoices(voices: seq<NavFrame>): (r: Result<seq<seq<Row>>>)
    ensures r.Err? <==> exists i :: 0 <= i < |voices| && voices[i].content.None?
    ensures r.Err? ==> r.error == AttributeError
    ensures r.Ok? ==> |r.value| == |voices|
    ensures r.Ok? ==> forall i :: 0 <= i < |r.value| ==>
      voices[i].content.Some? && r.value[i] == VoiceRows(voices[i].content.value)
    decreases |voices|
  {
    if |voices| == 0 then Ok([])
    else
      assert forall i :: 1 <= i < |voices| ==> voices[i] == voices[1..][i - 1];
      if voices[0].content.None? then Err(AttributeError)
      else
        var rest :- ReadVoices(voices[1..]);
        Ok([VoiceRows(voices[0].content.value)] + rest)
  }

  /**
   * `table_data`: the read rows of every voice frame, in order. A voice frame
   * without `NavContent` makes `None.find_all` fail.
   */
  function TableData(frames: seq<NavFrame>): (r: Result<seq<seq<Row>>>)
    ensures r.Err? <==> exists i :: 0 <= i < |frames| && IsVoiceFrame(frames[i]) && frames[i].content.None?
    ensures r.Err? ==> r.error == AttributeError
    ensures r.Ok? ==> |r.value| == |VoiceFrames(frames)|
    ensures r.Ok? ==> forall i :: 0 <= i < |r.value| ==>
      VoiceFrames(frames)[i].content.Some? && r.value[i] == VoiceRows(VoiceFrames(frames)[i].content.value)
  {
    MissingContent(frames);
    ReadVoices(VoiceFrames(frames))
  }

  /** A voice frame lacks content exactly when one of the kept voice frames does. */
  lemma MissingContent(frames: seq<NavFrame>)
    ensures (exists i :: 0 <= i < |frames| && IsVoiceFrame(frames[i]) && frames[i].content.None?)
        <==> exists i :: 0 <= i < |VoiceFrames(frames)| && VoiceFrames(frames)[i].content.None?
  {
    var vf := VoiceFrames(frames);
    if i :| 0 <= i < |frames| && IsVoiceFrame(frames[i]) && frames[i].content.None? {
      KeepHas(frames, IsVoiceFrame, true, frames[i]);
      var m :| 0 <= m < |vf| && vf[m] == frames[i];
    }
    if m :| 0 <= m < |vf| && vf[m].content.None? {
      assert vf[m] in frames && IsVoiceFrame(vf[m]);
      var i :| 0 <= i < |frames| && frames[i] == vf[m];
    }
  }


  /** The voices from position `idx` on are well formed: whole blocks, and a title left to label them. */
  predicate VoiceFits(data: seq<seq<Row>>, idx: nat, i: int)
    requires 0 <= i < |data|
  {
    |data[i]| % BlockRows == 0 && idx + i < |VerbVoices|
  }

  /**
   * The voices, labelled by position: voice `idx + i` gets title
   * `VERB_VOICES[idx + i]` whatever its frame was titled. A voice with an
   * incomplete block raises `RabotError`; a third voice runs past the titles.
   */
  function Voices(data: seq<seq<Row>>, idx: nat): (r: Result<Conjugation>)
    ensures r.Err? <==> exists i :: 0 <= i < |data| && !VoiceFits(data, idx, i)
    ensures r.Err? ==> r.error == RabotError || r.error == IndexError
    ensures ((forall i :: 0 <= i < |data| ==> |data[i]| % BlockRows == 0) && |data| > 0 && idx + |data| > |VerbVoices|)
      ==> r == Err(IndexError)
    ensures r.Ok? ==> forall i :: 0 <= i < |data| ==> |data[i]| % BlockRows == 0 && idx + i < |VerbVoices|
    decreases |data|
  {
    if |data| == 0 then Ok(map[])
    else
      assert forall i :: 1 <= i < |data| ==> data[i] == data[1..][i - 1];
      VoicesShift(data, idx, data[1..], idx + 1);
      if |data[0]| % BlockRows != 0 then
        assert !VoiceFits(data, idx, 0);
        Err(RabotError)
      else if idx >= |VerbVoices| then
        assert !VoiceFits(data, idx, 0);
        Err(IndexError)
      else
        var rest :- Voices(data[1..], idx + 1);
        Ok(rest[VerbVoices[idx] := ParseVoice(data[0], 0, map[])])
  }

  /**
   * Voice `i` is labelled `VERB_VOICES[idx + i]` and holds the tenses of its
   * own rows; no other label appears.
   */
  lemma {:induction false} VoicesLabels(data: seq<seq<Row>>, idx: nat)
    requires Voices(data, idx).Ok?
    ensures forall i :: 0 <= i < |data| ==> idx + i < |VerbVoices| && |data[i]| % BlockRows == 0
    ensures var r := Voices(data, idx).value;
      forall k :: k in r <==> exists n :: idx <= n < idx + |data| && n < |VerbVoices| && k == VerbVoices[n]
    ensures var r := Voices(data, idx).value;
      forall i :: 0 <= i < |data| ==> VerbVoices[idx + i] in r && r[VerbVoices[idx + i]] == ParseVoice(data[i], 0, map[])
    decreases |data|
  {
    if |data| > 0 {
      VoicesLabels(data[1..], idx + 1);
      assert forall i :: 1 <= i < |data| ==> data[i] == data[1..][i - 1];
      var rest := Voices(data[1..], idx + 1).value;
      var r := Voices(data, idx).value;
      assert r == rest[VerbVoices[idx] := ParseVoice(data[0], 0, map[])];
      VerbVoicesDistinct();
      forall k | k in r ensures exists n :: idx <= n < idx + |data| && n < |VerbVoices| && k == VerbVoices[n] {
        if k != VerbVoices[idx] {
          assert k in rest;
        }
      }
      forall i | 0 <= i < |data| ensures VerbVoices[idx + i] in r && r[VerbVoices[idx + i]] == ParseVoice(data[i], 0, map[]) {
        if i > 0 {
          assert VerbVoices[idx + 1 + (i - 1)] in rest;
          assert idx + i != idx;
        }
      }
    }
  }

  lemma VoicesShift(data: seq<seq<Row>>, idx: nat, tail: seq<seq<Row>>, next: nat)
    requires |data| > 0 && tail == data[1..] && next == idx + 1
    ensures (exists i :: 0 <= i < |tail| && !VoiceFits(tail, next, i))
        <==> (exists i :: 1 <= i < |data| && !VoiceFits(data, idx, i))
  {
    if exists i :: 0 <= i < |tail| && !VoiceFits(tail, next, i) {
      var i :| 0 <= i < |tail| && !VoiceFits(tail, next, i);
      assert tail[i] == data[i + 1];
      assert !VoiceFits(data, idx, i + 1);
    }
    if exists i :: 1 <= i < |data| && !VoiceFits(data, idx, i) {
      var i :| 1 <= i < |data| && !VoiceFits(data, idx, i);
      assert tail[i - 1] == data[i];
      assert !VoiceFits(tail, next, i - 1);
    }
  }

  /** Voice `i` is the first that does not fit. */
  predicate FirstMisfit(data: seq<seq<Row>>, idx: nat, i: int) {
    && 0 <= i < |data|
    && !VoiceFits(data, idx, i)
    && forall j :: 0 <= j < i ==> VoiceFits(data, idx, j)
  }

  /** The error a misfitting voice raises: `RabotError` for rows that are not whole blocks, else `IndexError` for a voice without a label. */
  function MisfitError(rows: seq<Row>): Error {
    if |rows| % BlockRows != 0 then RabotError else IndexError
  }

  /**
   * The voices are checked in order: the first voice that does not fit
   * decides the error, `RabotError` when its rows are not whole 8-row
   * blocks and `IndexError` when it has no label left.
   */
  lemma {:induction false} VoicesError(data: seq<seq<Row>>, idx: nat)
    requires Voices(data, idx).Err?
    ensures exists i :: FirstMisfit(data, idx, i) && Voices(data, idx).error == MisfitError(data[i])
    decreases |data|
  {
    if |data[0]| % BlockRows != 0 || idx >= |VerbVoices| {
      assert FirstMisfit(data, idx, 0);
    } else {
      var tail := data[1..];
      VoicesError(tail, idx + 1);
      var j :| FirstMisfit(tail, idx + 1, j) && Voices(tail, idx + 1).error == MisfitError(tail[j]);
      assert data[j + 1] == tail[j];
      forall m | 1 <= m < j + 1 ensures VoiceFits(data, idx, m) {
        assert data[m] == tail[m - 1];
        assert VoiceFits(tail, idx + 1, m - 1);
      }
      assert FirstMisfit(data, idx, j + 1);
    }
  }

  /** The two voice titles are distinct, so positional labels never collide. */
  lemma VerbVoicesDistinct()
    ensures VerbVoices[0] != VerbVoices[1]
  {
    assert VerbVoices[0][0] != VerbVoices[1][0];
  }

  /**
   * `_parse_conjugation_table_one`: `None` without frames or without voice
   * frames, otherwise the positionally labelled voices, each the tenses of
   * its frame's rows.
   */
  function TableOne(frames: seq<NavFrame>): (r: Result<Option<Conjugation>>)
    ensures |frames| == 0 ==> r == Ok(None)
    ensures r == Ok(None) <==> |VoiceFrames(frames)| == 0
    ensures r == Err(AttributeError) <==> exists i :: 0 <= i < |frames| && IsVoiceFrame(frames[i]) && frames[i].content.None?
    ensures r.Err? ==> r.error in {AttributeError, RabotError, IndexError}
    ensures r.Ok? ==> |VoiceFrames(frames)| <= |VerbVoices|
    ensures r.Ok? ==> forall i :: 0 <= i < |VoiceFrames(frames)| ==>
      VoiceFrames(frames)[i].content.Some? && |VoiceRows(VoiceFrames(frames)[i].content.value)| % BlockRows == 0
  {
    if |frames| == 0 then Ok(None)
    else
      var data :- TableData(frames);
      if |data| == 0 then Ok(None)
      else
        var voices :- Voices(data, 0);
        VoicesLabels(data, 0);
        Ok(Some(voices))
  }

  /** Voice frame `i` has content whose kept rows form whole 8-row blocks, and a label. */
  predicate FrameFits(vf: seq<NavFrame>, i: int)
    requires 0 <= i < |vf|
  {
    vf[i].content.Some? && |VoiceRows(vf[i].content.value)| % BlockRows == 0 && i < |VerbVoices|
  }

  /** Voice frame `i` has content but is the first that does not fit. */
  predicate FirstFrameMisfit(vf: seq<NavFrame>, i: int) {
    && 0 <= i < |vf|
    && vf[i].content.Some?
    && !FrameFits(vf, i)
    && forall j :: 0 <= j < i ==> FrameFits(vf, j)
  }

  /** Every voice frame fits; in particular there are at most two. */
  predicate VoiceFramesFit(vf: seq<NavFrame>) {
    forall i :: 0 <= i < |vf| ==> FrameFits(vf, i)
  }

  /**
   * Table one is parsed exactly when there are no frames, or there are at most
   * two voice frames and each has content whose kept rows form whole 8-row blocks.
   */
  lemma TableOneOk(frames: seq<NavFrame>)
    ensures TableOne(frames).Ok? <==> (|frames| == 0 || VoiceFramesFit(VoiceFrames(frames)))
  {
    if |frames| > 0 {
      var vf := VoiceFrames(frames);
      var d := TableData(frames);
      if d.Ok? {
        DataFits(d.value, vf);
      } else {
        var i :| 0 <= i < |vf| && vf[i].content.None?;
        assert !FrameFits(vf, i);
      }
    }
  }

  /** The read voice data fits `Voices` exactly when the voice frames fit. */
  lemma DataFits(data: seq<seq<Row>>, vf: seq<NavFrame>)
    requires |data| == |vf|
    requires forall i :: 0 <= i < |data| ==> vf[i].content.Some? && data[i] == VoiceRows(vf[i].content.value)
    ensures forall i :: 0 <= i < |data| ==> (VoiceFits(data, 0, i) <==> FrameFits(vf, i))
    ensures (|data| == 0 || Voices(data, 0).Ok?) <==> VoiceFramesFit(vf)
  {
    assert forall i :: 0 <= i < |data| ==> (VoiceFits(data, 0, i) <==> FrameFits(vf, i));
  }

  /**
   * A table one that fails other than for missing content fails at the first
   * voice frame that does not fit: `RabotError` when its rows are not whole
   * 8-row blocks, otherwise `IndexError` for a third voice.
   */
  lemma TableOneError(frames: seq<NavFrame>)
    requires TableOne(frames).Err? && TableOne(frames).error != AttributeError
    ensures var vf := VoiceFrames(frames);
      exists i :: FirstFrameMisfit(vf, i) && TableOne(frames).error == MisfitError(VoiceRows(vf[i].content.value))
  {
    var d := TableData(frames);
    assert d.Ok?;
    assert |d.value| > 0;
    assert TableOne(frames).error == Voices(d.value, 0).error;
    FrameMisfit(d.value, VoiceFrames(frames));
  }

  /** The first voice that does not fit `Voices` is the first voice frame that does not fit. */
  lemma FrameMisfit(data: seq<seq<Row>>, vf: seq<NavFrame>)
    requires |data| == |vf|
    requires forall i :: 0 <= i < |data| ==> vf[i].content.Some? && data[i] == VoiceRows(vf[i].content.value)
    requires Voices(data, 0).Err?
    ensures exists i :: FirstFrameMisfit(vf, i) && Voices(data, 0).error == MisfitError(VoiceRows(vf[i].content.value))
  {
    VoicesError(data, 0);
    DataFits(data, vf);
    var i :| FirstMisfit(data, 0, i) && Voices(data, 0).error == MisfitError(data[i]);
    assert !FrameFits(vf, i);
    forall j | 0 <= j < i ensures FrameFits(vf, j) {
      assert VoiceFits(data, 0, j);
    }
    assert FirstFrameMisfit(vf, i);
    assert data[i] == VoiceRows(vf[i].content.value);
  }

  /** A parsed table one labels its voices `VERB_VOICES[0]`, ... in order, one per voice frame. */
  lemma TableOneLabels(frames: seq<NavFrame>)
    requires TableOne(frames).Ok? && TableOne(frames).value.Some?
    ensures var c := TableOne(frames).value.value;
      forall k :: k in c <==> exists i :: 0 <= i < |VoiceFrames(frames)| && k == VerbVoices[i]
  {
    VoicesLabels(TableData(frames).value, 0);
  }

  /** The voice labelled `VERB_VOICES[i]` holds the tenses of the rows of the `i`-th voice frame. */
  lemma TableOneVoices(frames: seq<NavFrame>, i: nat)
    requires TableOne(frames).Ok? && TableOne(frames).value.Some?
    requires i < |VoiceFrames(frames)|
    ensures var c := TableOne(frames).value.value;
      && VerbVoices[i] in c
      && c[VerbVoices[i]] == ParseVoice(VoiceRows(VoiceFrames(frames)[i].content.value), 0, map[])
  {
    var data := TableData(frames).value;
    VoicesLabels(data, 0);
    assert data[i] == VoiceRows(VoiceFrames(frames)[i].content.value);
  }

  // ----- Table two -----

  function HasSevenRows(table: seq<Row>): bool {
    |table| == TableTwoRows
  }

  /**
   * The rows table two reads: of each table with exactly seven rows, the rows
   * that keep some non-empty cell.
   */
  function SevenRowTables(tables: seq<seq<Row>>): (r: seq<Row>)
    ensures forall row :: row in r ==> |row| > 0
    ensures |r| <= TableTwoRows * |tables|
  {
    if |tables| == 0 then []
    else
      (if |tables[0]| == TableTwoRows then NonEmptyRows(tables[0]) else []) + SevenRowTables(tables[1..])
  }

  /**
   * The rows table two reads are exactly those of the seven-row tables, in
   * table order, each table contributing its rows with non-empty cells.
   */
  lemma {:induction false} SevenRowTablesRows(tables: seq<seq<Row>>)
    ensures SevenRowTables(tables) == FlatMap(Keep(tables, HasSevenRows, true), NonEmptyRows)
    decreases |tables|
  {
    if |tables| > 0 {
      SevenRowTablesRows(tables[1..]);
      KeepCons(tables, HasSevenRows, true);
      var rest := Keep(tables[1..], HasSevenRows, true);
      if HasSevenRows(tables[0]) {
        FlatMapAppend([tables[0]], rest, NonEmptyRows);
      } else {
        assert [] + rest == rest;
      }
    }
  }

  /** The non-empty cells of each row, row by row. */
  function RowCells(rows: seq<Row>): (r: seq<Row>)
    ensures |r| == |rows| && forall i :: 0 <= i < |rows| ==> r[i] == Cells(rows[i])
  {
    seq(|rows|, i requires 0 <= i < |rows| => Cells(rows[i]))
  }

  /**
   * The rows of a table without their empty cells, in order, dropping those
   * left empty (`if row_data: ...`).
   */
  function NonEmptyRows(rows: seq<Row>): (r: seq<Row>)
    ensures r == Keep(RowCells(rows), NonEmpty, true)
    ensures |r| <= |rows|
    ensures forall row :: row in r ==> |row| > 0
  {
    if |rows| == 0 then []
    else
      var cells := Cells(rows[0]);
      RowCellsCons(rows);
      (if |cells| > 0 then [cells] else []) + NonEmptyRows(rows[1..])
  }

  /** Keeping the non-empty rows of a table of rows peels off its first row. */
  lemma RowCellsCons(rows: seq<Row>)
    requires |rows| > 0
    ensures Keep(RowCells(rows), NonEmpty, true)
      == (if |Cells(rows[0])| > 0 then [Cells(rows[0])] else []) + Keep(RowCells(rows[1..]), NonEmpty, true)
  {
    var rc := RowCells(rows);
    RowCellsTail(rows);
    KeepCons(rc, NonEmpty, true);
  }

  /** Dropping the first row drops the first row's cells. */
  lemma RowCellsTail(rows: seq<Row>)
    requires |rows| > 0
    ensures RowCells(rows)[0] == Cells(rows[0])
    ensures RowCells(rows)[1..] == RowCells(rows[1..])
  {
    var rc, tail := RowCells(rows), RowCells(rows[1..]);
    assert |rc[1..]| == |tail|;
    forall i | 0 <= i < |tail| ensures rc[1..][i] == tail[i] {
      assert rows[1..][i] == rows[i + 1];
    }
  }

  function AnyTense(tense: string): bool {
    true
  }

  /** The voice table two reports. */
  const ActiveVoice: string := "Ενεργητική φωνή"

  /**
   * `_parse_conjugation_table_two`: no main content is a `RabotError`, no
   * tables or no rows is `None`, anything but seven rows fails the height
   * assertion; otherwise every column keyed by its head, of which the present
   * and the imperfect are reported for the active voice, or `KeyError` when
   * one is missing.
   */
  function TableTwo(main: Option<seq<seq<Row>>>): (r: Result<Option<Conjugation>>)
    ensures main.None? ==> r == Err(RabotError)
    ensures r == Ok(None) <==> main.Some? && (|main.value| == 0 || |SevenRowTables(main.value)| == 0)
    ensures r == Err(AssertionError) <==>
      (main.Some? && |main.value| > 0
       && |SevenRowTables(main.value)| != 0 && |SevenRowTables(main.value)| != TableTwoRows)
    ensures r.Ok? && r.value.Some? ==>
      (&& r.value.value.Keys == {ActiveVoice}
       && r.value.value[ActiveVoice].Keys == {RelevantTensesTwo[0], RelevantTensesTwo[1]}
       && forall t :: t in r.value.value[ActiveVoice] ==> |r.value.value[ActiveVoice][t]| == TableTwoRows - 1)
    ensures r.Ok? && r.value.Some? ==> main.Some? && |SevenRowTables(main.value)| == TableTwoRows
    ensures r.Err? ==> r.error in {RabotError, AssertionError, KeyError}
  {
    if main.None? then Err(RabotError)
    else if |main.value| == 0 then Ok(None)
    else
      var data := SevenRowTables(main.value);
      if |data| == 0 then Ok(None)
      else if |data| != TableTwoRows then Err(AssertionError)
      else
        var parsed := Keyed(Transpose(data), AnyTense, map[]);
        KeyedShape(Transpose(data), AnyTense, map[], 6);
        ActiveTwo(parsed)
  }

  /**
   * The end of `_parse_conjugation_table_two`: the present and the imperfect
   * of the parsed columns under the active voice, or `KeyError` when one is
   * missing.
   */
  function ActiveTwo(parsed: Tenses): (r: Result<Option<Conjugation>>)
    requires forall t :: t in parsed ==> |parsed[t]| == TableTwoRows - 1
    ensures r.Ok? <==> RelevantTensesTwo[0] in parsed && RelevantTensesTwo[1] in parsed
    ensures r.Err? ==> r.error == KeyError
    ensures r.Ok? ==>
      (&& r.value.Some?
       && r.value.value.Keys == {ActiveVoice}
       && r.value.value[ActiveVoice].Keys == {RelevantTensesTwo[0], RelevantTensesTwo[1]}
       && forall t :: t in r.value.value[ActiveVoice] ==> r.value.value[ActiveVoice][t] == parsed[t])
  {
    var present := RelevantTensesTwo[0];
    var imperfect := RelevantTensesTwo[1];
    if present !in parsed then Err(KeyError)
    else if imperfect !in parsed then Err(KeyError)
    else Ok(Some(map[ActiveVoice := map[present := parsed[present], imperfect := parsed[imperfect]]]))
  }

  /**
   * A parsed table two holds, for the present and the imperfect, the forms
   * of the last of the seven rows' columns headed by that tense.
   */
  lemma TableTwoColumns(main: seq<seq<Row>>)
    requires TableTwo(Some(main)).Ok? && TableTwo(Some(main)).value.Some?
    ensures |SevenRowTables(main)| == TableTwoRows
    ensures var cols := Transpose(SevenRowTables(main)); var c := TableTwo(Some(main)).value.value;
      forall j :: 0 <= j < |cols| && cols[j][0] in RelevantTensesTwo && LastWith(cols, j) ==>
        cols[j][0] in c[ActiveVoice] && c[ActiveVoice][cols[j][0]] == cols[j][1..]
  {
    var cols := Transpose(SevenRowTables(main));
    KeyedLastAll(cols, AnyTense, map[]);
  }

  /** The heads of the transposed columns are the cells of the first row, up to the width. */
  lemma TransposeHeads(rows: seq<Row>, k: string)
    requires |rows| > 0
    ensures HeadsSome(Transpose(rows), k) <==> exists j :: 0 <= j < Width(rows) && rows[0][j] == k
  {
    var cols := Transpose(rows);
    if exists j :: 0 <= j < Width(rows) && rows[0][j] == k {
      var j :| 0 <= j < Width(rows) && rows[0][j] == k;
      assert cols[j][0] == k;
    }
  }

  /** Table two on seven rows fails only for a missing present or imperfect column. */
  lemma TableTwoOk(main: seq<seq<Row>>)
    requires |main| > 0 && |SevenRowTables(main)| == TableTwoRows
    ensures var parsed := Keyed(Transpose(SevenRowTables(main)), AnyTense, map[]);
      TableTwo(Some(main)).Ok? <==> RelevantTensesTwo[0] in parsed && RelevantTensesTwo[1] in parsed
  {
  }

  /** Table two succeeds exactly when the seven rows hold a present and an imperfect column. */
  lemma TableTwoKeys(main: seq<seq<Row>>)
    requires |main| > 0 && |SevenRowTables(main)| == TableTwoRows
    ensures var data := SevenRowTables(main);
      TableTwo(Some(main)).Ok? <==>
        (exists j :: 0 <= j < Width(data) && data[0][j] == RelevantTensesTwo[0])
        && (exists j :: 0 <= j < Width(data) && data[0][j] == RelevantTensesTwo[1])
  {
    var data := SevenRowTables(main);
    TableTwoOk(main);
    TransposeHeads(data, RelevantTensesTwo[0]);
    TransposeHeads(data, RelevantTensesTwo[1]);
  }

  // ----- Putting the layouts together -----

  /** Python truthiness of a parsed conjugation: present and non-empty. */
  predicate Truthy(c: Option<Conjugation>) {
    c.Some? && |c.value| > 0
  }

  /**
   * `_parse_conjugation`: `None` without the "Κλίση" header, otherwise
   * `table_one or table_two`.
   */
  function ParseConjugation(hasHeader: bool, frames: seq<NavFrame>, main: Option<seq<seq<Row>>>)
    : (r: Result<Option<Conjugation>>)
    ensures !hasHeader ==> r == Ok(None)
    ensures hasHeader && TableOne(frames).Err? ==> r == TableOne(frames)
    ensures hasHeader && TableOne(frames).Ok? && TableOne(frames).value.Some? ==> r == TableOne(frames)
    ensures hasHeader && TableOne(frames) == Ok(None) ==> r == TableTwo(main)
  {
    if !hasHeader then Ok(None)
    else
      var one :- TableOne(frames);
      if Truthy(one) then Ok(one)
      else
        TableOneTruthy(frames);
        TableTwo(main)
  }

  /** A conjugation from table one is never empty, so `or` falls back to table two only on `None`. */
  lemma TableOneTruthy(frames: seq<NavFrame>)
    ensures TableOne(frames).Ok? && TableOne(frames).value.Some? ==> Truthy(TableOne(frames).value)
  {
    var r := TableOne(frames);
    if r.Ok? && r.value.Some? {
      assert VerbVoices[0] in r.value.value;
      assert |r.value.value| > 0;
    }
  }

  // ----- Retrying with suggestions -----

  /** The first candidate whose page parses, in order; a failing parse stops the search. */
  function FirstParsed(candidates: seq<string>, parse: string -> Result<Option<Conjugation>>)
    : (r: Result<Option<Conjugation>>)
    ensures r == Ok(None) <==> forall i :: 0 <= i < |candidates| ==> parse(candidates[i]) == Ok(None)
    ensures r != Ok(None) ==>
      exists i :: 0 <= i < |candidates| && r == parse(candidates[i])
        && forall j :: 0 <= j < i ==> parse(candidates[j]) == Ok(None)
    decreases |candidates|
  {
    if |candidates| == 0 then Ok(None)
    else
      assert forall i :: 1 <= i < |candidates| ==> candidates[i] == candidates[1..][i - 1];
      var res := parse(candidates[0]);
      if res != Ok(None) then res
      else FirstParsed(candidates[1..], parse)
  }

  /** The search looks only at the candidates' pages. */
  lemma {:induction false} FirstParsedOnlyCandidates(candidates: seq<string>, p: string -> Result<Option<Conjugation>>,
                                                     q: string -> Result<Option<Conjugation>>)
    requires forall s :: s in candidates ==> p(s) == q(s)
    ensures FirstParsed(candidates, p) == FirstParsed(candidates, q)
    decreases |candidates|
  {
    if |candidates| > 0 {
      assert candidates[0] in candidates;
      if p(candidates[0]) == Ok(None) {
        FirstParsedOnlyCandidates(candidates[1..], p, q);
      }
    }
  }

  /**
   * `_fetch_conjugation`: the stripped word's own page, then each distinct
   * suggestion other than the word, in the iteration order `order` of
   * `{*suggestions} - {word}`.
   */
  function FetchConjugation(word: string, suggestions: seq<string>, order: seq<string>,
                            parse: string -> Result<Option<Conjugation>>): (r: Result<Option<Conjugation>>)
    requires NoDuplicates(order)
    requires forall s :: s in order <==> s in suggestions && s != Strip(word)
    ensures parse(Strip(word)) != Ok(None) ==> r == parse(Strip(word))
    ensures parse(Strip(word)) == Ok(None) ==> r == FirstParsed(order, parse)
    ensures r.Ok? && r.value.Some? ==>
      (|| r == parse(Strip(word))
       || exists i :: 0 <= i < |order| && order[i] in suggestions && order[i] != Strip(word) && r == parse(order[i]))
  {
    var res := parse(Strip(word));
    if res != Ok(None) then res
    else FirstParsed(order, parse)
  }

  /**
   * Once the word's own page fails, the suggestions are searched without it:
   * the result is the search under any parse that agrees off the word, whatever
   * that parse says about the word itself.
   */
  lemma FetchNeverRetriesWord(word: string, suggestions: seq<string>, order: seq<string>,
                              p: string -> Result<Option<Conjugation>>, q: string -> Result<Option<Conjugation>>)
    requires NoDuplicates(order)
    requires forall s :: s in order <==> s in suggestions && s != Strip(word)
    requires p(Strip(word)) == Ok(None)
    requires forall s :: s != Strip(word) ==> p(s) == q(s)
    ensures FetchConjugation(word, suggestions, order, p) == FirstParsed(order, q)
  {
    FirstParsedOnlyCandidates(order, p, q);
  }

  // ----- Parts of speech -----

  /** The section ids searched for a query in `language`. */
  function SectionIds(language: string): seq<string> {
    if language == "english" then EntriesEn else Entries
  }

  /** `for entry in entries: if parse_entry(entry) is not None: pos[entry] = ...`, from `acc`. */
  function CollectSections(ids: seq<string>, find: string -> Option<seq<string>>, acc: map<string, seq<string>>)
    : (r: map<string, seq<string>>)
    ensures forall k :: k in r <==> k in acc || (k in ids && find(k).Some?)
    ensures forall k :: k in ids && find(k).Some? ==> r[k] == find(k).value
    ensures forall k :: k in r && !(k in ids && find(k).Some?) ==> r[k] == acc[k]
    decreases |ids|
  {
    if |ids| == 0 then acc
    else
      var f := find(ids[0]);
      var next := if f.Some? then acc[ids[0] := f.value] else acc;
      CollectSections(ids[1..], find, next)
  }

  /**
   * `parse_wiktionary_pos`: the found sections among the ones of the query's
   * language, each with its entries.
   */
  function ParsePos(language: string, find: string -> Option<seq<string>>): (r: map<string, seq<string>>)
    ensures forall k :: k in r <==> k in SectionIds(language) && find(k).Some?
    ensures forall k :: k in r ==> r[k] == find(k).value
  {
    CollectSections(SectionIds(language), find, map[])
  }
}

=== FILE: wordref.dfy ===
/**
 * The WordReference scraper of `wordref.py` after HTML traversal: a table is
 * given as its `data-dict` attribute and its `odd`/`even` rows, each row as
 * the class and text of its cells. The model covers tag stripping
 * (`parse_words`), grouping rows into items, example filtering and
 * balancing, direction inversion, the final filter, the request URL and the
 * retry loop of random mode.
 */
module WordRef {
  import opened Wrappers
  import opened Text
  import Utils

  // ---------------------------------------------------------------------------
  // parse_words
  // ---------------------------------------------------------------------------

  /** The keys of `ATTRIBUTES_EL`, in dictionary (insertion) order. */
  const AttributesEl: seq<string> := [
    "επίθ", "επίθ άκλ", "φρ ως", "ουσ ουδ", "ουσ αρσ", "ουσ θηλ", "ρ έκφρ",
    "ρ αμ + επίρ", "ρ αμ", "ρ μ + πρόθ", "ρ μ", "έκφρ", "περίφρ", "επίρ"
  ]

  /** The members of the set `ATTRIBUTES_EN`, in source order. */
  const AttributesEn: seq<string> := [
    "adj", "adv", "n", "v expr", "vi", "vtr phrasal sep", "vtr + prep", "vtr"
  ]

  /**
   * An iteration order of the set `ATTRIBUTES_EN`: Python does not fix it, so
   * it is an input, constrained to enumerate the set exactly once.
   */
  predicate IsEnOrder(order: seq<string>) {
    multiset(order) == multiset(AttributesEn)
  }

  /** No tag is the empty string. */
  predicate NonEmptyTags(tags: seq<string>) {
    forall k :: 0 <= k < |tags| ==> |tags[k]| > 0
  }

  /** `ATTRIBUTES_EN if is_english(text) else ATTRIBUTES_EL`. */
  function TagsFor(text: string, enOrder: seq<string>): (tags: seq<string>)
    requires IsEnOrder(enOrder)
    ensures Utils.IsEnglish(text) ==> multiset(tags) == multiset(AttributesEn)
    ensures !Utils.IsEnglish(text) ==> tags == AttributesEl
    ensures NonEmptyTags(tags)
  {
    if Utils.IsEnglish(text) then
      forall k | 0 <= k < |enOrder| ensures |enOrder[k]| > 0 {
        assert enOrder[k] in multiset(AttributesEn);
      }
      enOrder
    else
      AttributesEl
  }

  /**
   * `re.sub(re.escape(tag) + "$", "", t)` with `$` read as the end of the
   * string: a trailing `tag` is cut off, whatever precedes it.
   */
  function CutSuffix(t: string, tag: string): (r: string)
    ensures r == t || (EndsWith(t, tag) && r + tag == t)
    ensures |tag| > 0 ==> (r == t <==> !EndsWith(t, tag))
  {
    if EndsWith(t, tag) then
      assert t[..|t| - |tag|] + t[|t| - |tag|..] == t;
      t[..|t| - |tag|]
    else
      t
  }

  /** The body of the `for att in attributes` loop, over the tags in iteration order. */
  function CutTags(t: string, tags: seq<string>): (r: string)
    ensures StartsWith(t, r)
  {
    if |tags| == 0 then t
    else
      var u := CutSuffix(CutSuffix(t, tags[0]), "+");
      var r := CutTags(u, tags[1..]);
      assert u == t[..|u|];
      assert r == u[..|r|];
      r
  }

  /** One pass of the `while True` loop: strip, then cut every tag. */
  function Pass(t: string, tags: seq<string>): (r: string)
    ensures |r| <= |t|
    ensures |r| == |t| ==> r == t
    ensures Contains(t, r)
  {
    var s := Strip(t);
    var r := CutTags(s, tags);
    assert s[..|r|] == r;
    assert OccursAt(s, r, 0);
    assert Contains(t, s);
    ContainsTrans(t, s, r);
    r
  }

  /** The `while True` loop of `parse_words`: passes until one changes nothing. */
  function StripTags(t: string, tags: seq<string>): (r: string)
    ensures Pass(r, tags) == r
    ensures Contains(t, r)
    decreases |t|
  {
    var u := Pass(t, tags);
    if u == t then
      SliceContained(t, 0, |t|);
      assert t[0..|t|] == t;
      t
    else
      var r := StripTags(u, tags);
      ContainsTrans(t, u, r);
      r
  }

  /** If cutting every tag changes nothing, the text ends with no tag and (given a tag) with no `+`. */
  lemma {:induction false} CutTagsUnchanged(t: string, tags: seq<string>)
    requires NonEmptyTags(tags)
    requires CutTags(t, tags) == t
    ensures forall k :: 0 <= k < |tags| ==> !EndsWith(t, tags[k])
    ensures |tags| > 0 ==> !EndsWith(t, "+")
  {
    if |tags| > 0 {
      var v := CutSuffix(t, tags[0]);
      var u := CutSuffix(v, "+");
      assert |CutTags(u, tags[1..])| <= |u| <= |v| <= |t|;
      assert v == t;
      assert u == t;
      CutTagsUnchanged(t, tags[1..]);
      forall k | 1 <= k < |tags| ensures !EndsWith(t, tags[k]) {
        assert tags[1..][k - 1] == tags[k];
      }
    }
  }

  /**
   * At the fixed point the text has no surrounding whitespace, ends with no
   * tag of the table and, when there is a table, does not end with `+`.
   */
  lemma FixedPointShape(t: string, tags: seq<string>)
    requires NonEmptyTags(tags)
    requires Pass(t, tags) == t
    ensures Strip(t) == t
    ensures forall k :: 0 <= k < |tags| ==> !EndsWith(t, tags[k])
    ensures |tags| > 0 ==> !EndsWith(t, "+")
  {
    assert |CutTags(Strip(t), tags)| <= |Strip(t)| <= |t|;
    CutTagsUnchanged(t, tags);
  }

  /** The non-empty pieces, in order (`[w for w in pieces if w]`). */
  function NonEmptyPieces(pieces: seq<string>): (r: seq<string>)
    ensures |r| <= |pieces|
    ensures forall w :: w in r <==> w in pieces && |w| > 0
    ensures (forall k :: 0 <= k < |pieces| ==> |pieces[k]| > 0) ==> r == pieces
    ensures r == Keep(pieces, NonEmpty, true)
  {
    if |pieces| == 0 then []
    else
      KeepCons(pieces, NonEmpty, true);
      (if |pieces[0]| > 0 then [pieces[0]] else []) + NonEmptyPieces(pieces[1..])
  }

  /** `[w for w in text.split(", ") if w]`. */
  function Words(text: string): (r: seq<string>)
    ensures forall w :: w in r ==> |w| > 0 && !Contains(w, CommaSep) && Contains(text, w)
  {
    var pieces := SplitComma(text);
    SplitCommaPiecesContained(text);
    NonEmptyPieces(pieces)
  }

  /** `parse_words(text)`: the tag-free words of a cell text. */
  function ParseWords(text: string, enOrder: seq<string>): (r: seq<string>)
    requires IsEnOrder(enOrder)
    ensures forall w :: w in r ==> |w| > 0 && !Contains(w, CommaSep) && Contains(text, w)
  {
    var fixed := StripTags(text, TagsFor(text, enOrder));
    var r := Words(fixed);
    forall w | w in r ensures Contains(text, w) {
      ContainsTrans(text, fixed, w);
    }
    r
  }

  /**
   * When no piece is empty, the words joined back with `", "` give the text
   * they were split from: splitting loses nothing else.
   */
  lemma WordsRejoin(text: string)
    requires forall k :: 0 <= k < |SplitComma(text)| ==> |SplitComma(text)[k]| > 0
    ensures Join(CommaSep, Words(text)) == text
  {
    SplitCommaJoin(text);
  }

  /** A clean single word (no tag, no `+`, no edge whitespace, no `", "`) is returned as is. */
  lemma ParseWordsCleanWord(text: string, enOrder: seq<string>)
    requires IsEnOrder(enOrder)
    requires |text| > 0 && !Contains(text, CommaSep)
    requires Pass(text, TagsFor(text, enOrder)) == text
    ensures ParseWords(text, enOrder) == [text]
  {
    StripTagsFixed(text, TagsFor(text, enOrder));
    WordsSingle(text);
  }

  /** A text that a pass leaves unchanged is its own cleaned form. */
  lemma StripTagsFixed(t: string, tags: seq<string>)
    requires Pass(t, tags) == t
    ensures StripTags(t, tags) == t
  {
  }

  /** A non-empty text without `", "` is one word. */
  lemma WordsSingle(text: string)
    requires |text| > 0 && !Contains(text, CommaSep)
    ensures Words(text) == [text]
  {
    SplitCommaSingle(text);
  }

  /** A text without `", "` splits into itself. */
  lemma {:induction false} SplitCommaSingle(s: string)
    requires !Contains(s, CommaSep)
    ensures SplitComma(s) == [s]
    decreases |s|
  {
    if |s| > 0 {
      assert !StartsWith(s, CommaSep);
      assert !Contains(s[1..], CommaSep) by {
        if Contains(s[1..], CommaSep) {
          ContainsInSlice(s, 1, |s|, CommaSep);
        }
      }
      SplitCommaSingle(s[1..]);
      assert [s[0]] + s[1..] == s;
    }
  }

  /**
   * Tags are cut as raw suffixes, not as words: with the English tags in
   * source order, a word ending in "n" followed by the tag " n" loses the tag
   * on the first pass and its own final "n" on the second.
   */
  lemma ParseWordsCutsIntoWord(w: string)
    requires |w| >= 2 && Last(w) == 'n' && Utils.IsEnglish(w)
    requires !IsSpace(w[0]) && w[|w| - 2] !in "jvnrip+" && !IsSpace(w[|w| - 2])
    requires forall k :: 0 <= k < |w| ==> w[k] != ','
    ensures ParseWords(w + " n", AttributesEn) == [w[..|w| - 1]]
  {
    var text, word := w + " n", w[..|w| - 1];
    CutIntoWordEnglish(w, text);
    CutIntoWordStripTags(w, text, word);
    CutIntoWordSplit(w, word);
    ParseWordsSteps(text, AttributesEn, word);
  }

  lemma CutIntoWordEnglish(w: string, text: string)
    requires Utils.IsEnglish(w) && text == w + " n"
    ensures TagsFor(text, AttributesEn) == AttributesEn
  {
    Utils.IsEnglishConcat(w, " n");
  }

  lemma CutIntoWordStripTags(w: string, text: string, word: string)
    requires |w| >= 2 && Last(w) == 'n'
    requires !IsSpace(w[0]) && w[|w| - 2] !in "jvnrip+" && !IsSpace(w[|w| - 2])
    requires text == w + " n" && word == w[..|w| - 1]
    ensures StripTags(text, AttributesEn) == word
  {
    var spaced := w + " ";
    CutIntoWordPass1(w, text, spaced);
    CutIntoWordPass2(w, spaced, word);
    CutIntoWordPass3(word);
    StripTagsFixed(word, AttributesEn);
    StripTagsStep(spaced, AttributesEn);
    StripTagsStep(text, AttributesEn);
  }

  lemma CutIntoWordSplit(w: string, word: string)
    requires |w| >= 2 && word == w[..|w| - 1]
    requires forall k :: 0 <= k < |w| ==> w[k] != ','
    ensures Words(word) == [word]
  {
    NoCommaNoSep(word);
    WordsSingle(word);
  }

  /** A pass that changes the text hands over to the next one. */
  lemma StripTagsStep(t: string, tags: seq<string>)
    requires Pass(t, tags) != t
    ensures StripTags(t, tags) == StripTags(Pass(t, tags), tags)
  {
  }

  /** `parse_words` as its two stages: the tag-stripping loop, then the split. */
  lemma ParseWordsSteps(text: string, enOrder: seq<string>, fixed: string)
    requires IsEnOrder(enOrder)
    requires StripTags(text, TagsFor(text, enOrder)) == fixed
    ensures ParseWords(text, enOrder) == Words(fixed)
  {
  }

  /** First pass: the tag " n" goes, leaving a trailing space. */
  lemma CutIntoWordPass1(w: string, t: string, u: string)
    requires |w| >= 2 && !IsSpace(w[0]) && t == w + " n" && u == w + " "
    ensures Pass(t, AttributesEn) == u
  {
    StripUnchanged(t);
    CutFinalN(t, u);
  }

  /** Second pass: stripped back to the word, whose own final "n" is then cut as a tag. */
  lemma CutIntoWordPass2(w: string, t: string, u: string)
    requires |w| >= 2 && Last(w) == 'n' && !IsSpace(w[0]) && t == w + " "
    requires w[|w| - 2] !in "jvnrip+" && u == w[..|w| - 1]
    ensures Pass(t, AttributesEn) == u
  {
    StripFinalSpace(w, t);
    CutFinalN(w, u);
  }

  /** Third pass: the shortened word ends with no tag, so the loop stops. */
  lemma CutIntoWordPass3(t: string)
    requires |t| > 0 && !IsSpace(t[0]) && !IsSpace(Last(t)) && Last(t) !in "jvnrip+"
    ensures Pass(t, AttributesEn) == t
  {
    StripUnchanged(t);
    EnglishTagEnds();
    CutTagsMissLast(t, AttributesEn);
  }

  lemma StripFinalSpace(w: string, t: string)
    requires |w| > 0 && !IsSpace(w[0]) && Last(w) == 'n' && t == w + " "
    ensures Strip(t) == w
  {
    StripUnchanged(w);
    assert TrimLeft(t) == t;
    assert t[..|t| - 1] == w;
  }

  /** The last letters of the English tags, in source order. */
  lemma EnglishTagEnds()
    ensures NonEmptyTags(AttributesEn)
    ensures forall k :: 0 <= k < |AttributesEn| ==> Last(AttributesEn[k]) in "jvnrip"
    ensures Last(AttributesEn[0]) == 'j' && Last(AttributesEn[1]) == 'v' && AttributesEn[2] == "n"
  {
  }

  function Last(s: string): char
    requires |s| > 0
  {
    s[|s| - 1]
  }

  /** A text ends with the last letter of each of its suffixes. */
  lemma EndsWithLast(t: string, p: string)
    requires |p| > 0 && EndsWith(t, p)
    ensures Last(t) == Last(p)
  {
    assert t[|t| - |p|..][|p| - 1] == t[|t| - 1];
  }

  /** A text ending in a letter no tag ends with, and not in `+`, passes every tag unchanged. */
  lemma {:induction false} CutTagsMissLast(t: string, tags: seq<string>)
    requires |t| > 0 && Last(t) != '+'
    requires NonEmptyTags(tags)
    requires forall k :: 0 <= k < |tags| ==> Last(tags[k]) != Last(t)
    ensures CutTags(t, tags) == t
  {
    if |tags| > 0 {
      assert !EndsWith(t, tags[0]);
      assert !EndsWith(t, "+");
      CutTagsMissLast(t, tags[1..]);
    }
  }

  /** A text ending in "n", and not in "in", loses exactly that "n" to the English tags in source order. */
  lemma CutFinalN(t: string, u: string)
    requires |t| > 1 && Last(t) == 'n' && u == t[..|t| - 1]
    requires |u| > 0 && Last(u) !in "jvnrip+"
    ensures CutTags(t, AttributesEn) == u
  {
    EnglishTagEnds();
    CutFinalNOn(t, u, AttributesEn);
  }

  /**
   * The same over any tags shaped like the English ones: two that cannot
   * match, then "n", then only tags ending in a letter of "jvnrip".
   */
  lemma CutFinalNOn(t: string, u: string, tags: seq<string>)
    requires |t| > 1 && Last(t) == 'n' && u == t[..|t| - 1]
    requires |u| > 0 && Last(u) !in "jvnrip+"
    requires |tags| > 2 && NonEmptyTags(tags) && tags[2] == "n"
    requires Last(tags[0]) == 'j' && Last(tags[1]) == 'v'
    requires forall k :: 0 <= k < |tags| ==> Last(tags[k]) in "jvnrip"
    ensures CutTags(t, tags) == u
  {
    assert tags[0..] == tags;
    TagMissesAt(t, tags, 0);
    TagMissesAt(t, tags, 1);
    assert CutSuffix(t, tags[2]) == u;
    NoTrailingPlus(u);
    CutTagsAt(t, tags, 2, u);
    forall k | 3 <= k < |tags| ensures Last(tags[k]) != Last(u) {
      assert Last(tags[k]) in "jvnrip";
    }
    CutTagsMissFrom(u, tags, 3);
  }

  /** A text no tag from position `i` on can cut passes those tags unchanged. */
  lemma {:induction false} CutTagsMissFrom(t: string, tags: seq<string>, i: nat)
    requires i <= |tags| && |t| > 0 && Last(t) != '+'
    requires forall k :: i <= k < |tags| ==> |tags[k]| > 0 && Last(tags[k]) != Last(t)
    ensures CutTags(t, tags[i..]) == t
    decreases |tags| - i
  {
    if i < |tags| {
      TagMissesAt(t, tags, i);
      CutTagsMissFrom(t, tags, i + 1);
    }
  }

  /** One step of the tag loop, at position `i` of the tag sequence. */
  lemma CutTagsAt(t: string, tags: seq<string>, i: nat, u: string)
    requires i < |tags| && CutSuffix(CutSuffix(t, tags[i]), "+") == u
    ensures CutTags(t, tags[i..]) == CutTags(u, tags[i + 1..])
  {
    assert tags[i..][1..] == tags[i + 1..];
  }

  /** A tag whose last letter differs from the text's last letter, which is not `+`, leaves the text unchanged. */
  lemma TagMissesAt(t: string, tags: seq<string>, i: nat)
    requires i < |tags| && |tags[i]| > 0 && |t| > 0
    requires Last(tags[i]) != Last(t) && Last(t) != '+'
    ensures CutTags(t, tags[i..]) == CutTags(t, tags[i + 1..])
  {
    NoTagCut(t, tags[i]);
    CutTagsAt(t, tags, i, t);
  }

  lemma NoTagCut(t: string, tag: string)
    requires |tag| > 0 && |t| > 0 && Last(tag) != Last(t) && Last(t) != '+'
    ensures CutSuffix(CutSuffix(t, tag), "+") == t
  {
    if EndsWith(t, tag) {
      EndsWithLast(t, tag);
    }
    NoTrailingPlus(t);
  }

  lemma NoTrailingPlus(t: string)
    requires |t| > 0 && Last(t) != '+'
    ensures CutSuffix(t, "+") == t
  {
    if EndsWith(t, "+") {
      EndsWithLast(t, "+");
    }
  }

  // ---------------------------------------------------------------------------
  // Rows and groups
  // ---------------------------------------------------------------------------

  datatype RowClass = Odd | Even

  /** The classes of `td` cells the scraper looks for; `OtherCell` is any other cell. */
  datatype CellClass = FrWrd | ToWrd | FrEx | ToEx | OtherCell

  /** A `td`: its class and the texts of its child nodes (iterating a tag yields its children). */
  datatype Cell = Cell(cls: CellClass, parts: seq<string>)

  /** A `tr` of class `odd` or `even`. */
  datatype Row = Row(cls: RowClass, cells: seq<Cell>)

  /** `tag.text`: the concatenated text of the children. */
  function CellText(parts: seq<string>): string {
    if |parts| == 0 then "" else parts[0] + CellText(parts[1..])
  }

  /** All rows of a group share one class. */
  predicate Uniform(g: seq<Row>) {
    forall i :: 0 <= i < |g| ==> g[i].cls == g[0].cls
  }

  function Flatten(groups: seq<seq<Row>>): seq<Row> {
    if |groups| == 0 then [] else groups[0] + Flatten(groups[1..])
  }

  /** A valid grouping: non-empty runs of one class each, neighbours of different classes. */
  predicate IsGrouping(groups: seq<seq<Row>>) {
    && (forall i :: 0 <= i < |groups| ==> |groups[i]| > 0 && Uniform(groups[i]))
    && (forall i :: 0 < i < |groups| ==> groups[i - 1][0].cls != groups[i][0].cls)
  }

  /** A run put in front of a grouping whose first row has another class is a grouping. */
  lemma GroupingCons(g: seq<Row>, rest: seq<seq<Row>>)
    requires |g| > 0 && Uniform(g) && IsGrouping(rest)
    requires |rest| > 0 ==> rest[0][0].cls != g[0].cls
    ensures IsGrouping([g] + rest)
    ensures Flatten([g] + rest) == g + Flatten(rest)
  {
    var gs := [g] + rest;
    assert gs[1..] == rest;
    forall i | 0 < i < |gs| ensures gs[i - 1][0].cls != gs[i][0].cls {
      if i > 1 {
        assert gs[i - 1] == rest[i - 2] && gs[i] == rest[i - 1];
      }
    }
  }

  /** Length of the leading run of rows of the first row's class. */
  function RunLength(rows: seq<Row>): (k: nat)
    requires |rows| > 0
    ensures 1 <= k <= |rows|
    ensures forall i :: 0 <= i < k ==> rows[i].cls == rows[0].cls
    ensures k == |rows| || rows[k].cls != rows[0].cls
  {
    if |rows| == 1 || rows[1].cls != rows[0].cls then 1
    else
      var k := RunLength(rows[1..]);
      assert forall i :: 1 <= i <= k ==> rows[i] == rows[1..][i - 1];
      1 + k
  }

  /** The grouping loop of `fetch_wordref_entries`: a new group whenever the row class changes. */
  function GroupRows(rows: seq<Row>): (groups: seq<seq<Row>>)
    ensures IsGrouping(groups)
    ensures Flatten(groups) == rows
    ensures |rows| > 0 ==> |groups| > 0 && groups[0][0] == rows[0]
    decreases |rows|
  {
    if |rows| == 0 then []
    else
      var k := RunLength(rows);
      var rest := GroupRows(rows[k..]);
      RunSplit(rows, k, rest);
      [rows[..k]] + rest
  }

  /** The leading run in front of the grouping of the rows after it groups all the rows. */
  lemma RunSplit(rows: seq<Row>, k: nat, rest: seq<seq<Row>>)
    requires 0 < k <= |rows|
    requires forall i :: 0 <= i < k ==> rows[i].cls == rows[0].cls
    requires k == |rows| || rows[k].cls != rows[0].cls
    requires IsGrouping(rest) && Flatten(rest) == rows[k..]
    requires |rows[k..]| > 0 ==> |rest| > 0 && rest[0][0] == rows[k]
    ensures IsGrouping([rows[..k]] + rest)
    ensures Flatten([rows[..k]] + rest) == rows
  {
    var g := rows[..k];
    RunUniform(rows, k);
    if |rest| > 0 {
      GroupingStarts(rest);
      assert |rows[k..]| > 0;
      assert k < |rows|;
      assert rest[0][0] == rows[k];
      assert rest[0][0].cls != g[0].cls;
    }
    GroupingCons(g, rest);
    assert g + rows[k..] == rows;
  }

  lemma RunUniform(rows: seq<Row>, k: nat)
    requires 0 < k <= |rows|
    requires forall i :: 0 <= i < k ==> rows[i].cls == rows[0].cls
    ensures |rows[..k]| > 0 && Uniform(rows[..k]) && rows[..k][0] == rows[0]
  {
    var g := rows[..k];
    forall i | 0 <= i < |g| ensures g[i].cls == g[0].cls {
      assert g[i] == rows[i];
    }
  }

  /** A non-empty grouping flattens to rows starting with its first group's first row. */
  lemma GroupingStarts(rest: seq<seq<Row>>)
    requires IsGrouping(rest) && |rest| > 0
    ensures |Flatten(rest)| > 0 && Flatten(rest)[0] == rest[0][0]
  {
    assert Flatten(rest) == rest[0] + Flatten(rest[1..]);
  }

  /** Grouping is the inverse of flattening: every valid grouping is found again from its rows. */
  lemma {:induction false} GroupRowsFlatten(groups: seq<seq<Row>>)
    requires IsGrouping(groups)
    ensures GroupRows(Flatten(groups)) == groups
  {
    if |groups| > 0 {
      var rows := Flatten(groups);
      var g := groups[0];
      assert IsGrouping(groups[1..]) by {
        forall i | 0 < i < |groups[1..]|
          ensures groups[1..][i - 1][0].cls != groups[1..][i][0].cls
        {
          assert groups[1..][i - 1] == groups[i] && groups[1..][i] == groups[i + 1];
        }
      }
      GroupRowsFlatten(groups[1..]);
      assert rows == g + Flatten(groups[1..]);
      assert rows[0] == g[0];
      RunLengthOfGroup(g, Flatten(groups[1..]), groups);
      assert rows[..|g|] == g;
      assert rows[|g|..] == Flatten(groups[1..]);
    }
  }

  /** The first run of a flattened grouping is exactly its first group. */
  lemma RunLengthOfGroup(g: seq<Row>, tail: seq<Row>, groups: seq<seq<Row>>)
    requires IsGrouping(groups) && |groups| > 0 && g == groups[0]
    requires tail == Flatten(groups[1..])
    ensures RunLength(g + tail) == |g|
  {
    var rows := g + tail;
    var k := RunLength(rows);
    forall i | 0 <= i < |g| ensures rows[i].cls == rows[0].cls {
      assert rows[i] == g[i];
    }
    if |tail| > 0 {
      assert |groups| > 1;
      assert tail[0] == groups[1][0];
      assert rows[|g|] == tail[0];
    }
  }

  /** The layout drawn in the docstring: odd,odd / even / odd,odd,odd / even,even. */
  lemma GroupRowsExample(o: Row, e: Row)
    requires o.cls == Odd && e.cls == Even
    ensures GroupRows([o, o, e, o, o, o, e, e]) == [[o, o], [e], [o, o, o], [e, e]]
  {
    var groups := [[o, o], [e], [o, o, o], [e, e]];
    assert IsGrouping(groups);
    assert Flatten(groups[3..]) == [e, e];
    assert Flatten(groups[2..]) == [o, o, o, e, e];
    assert Flatten(groups[1..]) == [e, o, o, o, e, e];
    assert Flatten(groups) == [o, o, e, o, o, o, e, e];
    GroupRowsFlatten(groups);
  }

  // ---------------------------------------------------------------------------
  // Items
  // ---------------------------------------------------------------------------

  /** `DictEntryItem`: words and example sentences on the "from" and "to" sides. */
  datatype Item = Item(frWords: seq<string>, toWords: seq<string>, frExamples: seq<string>, toExamples: seq<string>) {
    /** `invert()`: exchange the two sides. */
    function Invert(): (r: Item)
      ensures r.frWords == toWords && r.toWords == frWords
      ensures r.frExamples == toExamples && r.toExamples == frExamples
    {
      Item(toWords, frWords, toExamples, frExamples)
    }
  }

  lemma InvertInvolution(it: Item)
    ensures it.Invert().Invert() == it
    ensures it.Invert() == it <==> it.frWords == it.toWords && it.frExamples == it.toExamples
  {
  }

  /** The cells of a group in document order: row by row, each row left to right. */
  function AllCells(g: seq<Row>): seq<Cell> {
    if |g| == 0 then [] else g[0].cells + AllCells(g[1..])
  }

  /** The cell is of class `cls`. */
  function HasClass(cls: CellClass): Cell -> bool {
    (c: Cell) => c.cls == cls
  }

  /** `group.find_all("td", {"class": cls})`: every cell of class `cls` of a group, in document order. */
  function CellsOf(g: seq<Row>, cls: CellClass): (r: seq<Cell>)
    ensures r == Keep(AllCells(g), HasClass(cls), true)
    ensures forall c :: c in r ==> c.cls == cls
    ensures (exists i, j :: 0 <= i < |g| && 0 <= j < |g[i].cells| && g[i].cells[j].cls == cls) ==> |r| > 0
  {
    if |g| == 0 then []
    else
      var r := CellsInRow(g[0].cells, cls) + CellsOf(g[1..], cls);
      KeepAppend(g[0].cells, AllCells(g[1..]), HasClass(cls), true);
      assert forall i :: 1 <= i < |g| ==> g[i] == g[1..][i - 1];
      r
  }

  /** The cells of class `cls` of one row, left to right. */
  function CellsInRow(cells: seq<Cell>, cls: CellClass): (r: seq<Cell>)
    ensures r == Keep(cells, HasClass(cls), true)
    ensures forall c :: c in r ==> c.cls == cls
    ensures (exists j :: 0 <= j < |cells| && cells[j].cls == cls) <==> |r| > 0
  {
    if |cells| == 0 then []
    else
      assert forall j :: 1 <= j < |cells| ==> cells[j] == cells[1..][j - 1];
      (if cells[0].cls == cls then [cells[0]] else []) + CellsInRow(cells[1..], cls)
  }

  /** Finding the cells of a class in two runs of rows finds those of the first run, then those of the second. */
  lemma CellsOfAppend(a: seq<Row>, b: seq<Row>, cls: CellClass)
    ensures CellsOf(a + b, cls) == CellsOf(a, cls) + CellsOf(b, cls)
  {
    AllCellsAppend(a, b);
    KeepAppend(AllCells(a), AllCells(b), HasClass(cls), true);
  }

  lemma {:induction false} AllCellsAppend(a: seq<Row>, b: seq<Row>)
    ensures AllCells(a + b) == AllCells(a) + AllCells(b)
    decreases |a|
  {
    if |a| == 0 {
      assert a + b == b;
    } else {
      assert (a + b)[1..] == a[1..] + b;
      AllCellsAppend(a[1..], b);
    }
  }

  /** `w` occurs in one of the texts `parts`. */
  predicate InSomePart(parts: seq<string>, w: string) {
    exists k :: 0 <= k < |parts| && Contains(parts[k], w)
  }

  /** `for tag in cell: words.extend(parse_words(tag.text))`. */
  function WordsOf(parts: seq<string>, enOrder: seq<string>): (r: seq<string>)
    requires IsEnOrder(enOrder)
    ensures forall w :: w in r ==> |w| > 0 && InSomePart(parts, w)
    ensures r == FlatMap(parts, Parser(enOrder))
  {
    if |parts| == 0 then []
    else
      var head := ParseWords(parts[0], enOrder);
      var tail := WordsOf(parts[1..], enOrder);
      InSomePartCons(parts, head, tail);
      head + tail
  }

  /** The words of two runs of texts are the words of the first run, then those of the second. */
  lemma WordsOfAppend(a: seq<string>, b: seq<string>, enOrder: seq<string>)
    requires IsEnOrder(enOrder)
    ensures WordsOf(a + b, enOrder) == WordsOf(a, enOrder) + WordsOf(b, enOrder)
  {
    FlatMapAppend(a, b, Parser(enOrder));
  }

  /** `parse_words` under one iteration order of the English tags. */
  function Parser(enOrder: seq<string>): (f: string -> seq<string>)
    requires IsEnOrder(enOrder)
    ensures forall t :: f(t) == ParseWords(t, enOrder)
  {
    (t: string) => ParseWords(t, enOrder)
  }

  /** Words of the first text, then words found in the later texts, are all found in some text. */
  lemma InSomePartCons(parts: seq<string>, head: seq<string>, tail: seq<string>)
    requires |parts| > 0
    requires forall w :: w in head ==> Contains(parts[0], w)
    requires forall w :: w in tail ==> InSomePart(parts[1..], w)
    ensures forall w :: w in head + tail ==> InSomePart(parts, w)
  {
    forall w | w in head + tail ensures InSomePart(parts, w) {
      if w in head {
        assert Contains(parts[0], w);
      } else {
        var k :| 0 <= k < |parts| - 1 && Contains(parts[1..][k], w);
        assert parts[1..][k] == parts[k + 1];
      }
    }
  }

  /** The mark of a sentence that WordReference flags with an info icon. */
  const InfoMark: string := "ⓘ"

  /** `item.text.strip()`: the stripped text of an example cell. */
  function ExampleText(c: Cell): string {
    Strip(CellText(c.parts))
  }

  /** `"ⓘ" not in text`. */
  function NoInfo(text: string): bool {
    !Contains(text, InfoMark)
  }

  /** The stripped texts of the cells, in order. */
  function ExampleTexts(cells: seq<Cell>): (r: seq<string>)
    ensures |r| == |cells|
    ensures forall i :: 0 <= i < |cells| ==> r[i] == ExampleText(cells[i])
  {
    seq(|cells|, i requires 0 <= i < |cells| => ExampleText(cells[i]))
  }

  /**
   * The stripped texts of example cells, leaving out those that contain the
   * info mark: every other one is kept, in order.
   */
  function Examples(cells: seq<Cell>): (r: seq<string>)
    ensures r == Keep(ExampleTexts(cells), NoInfo, true)
    ensures |r| <= |cells|
    ensures forall e :: e in r ==> !Contains(e, InfoMark) && Strip(e) == e
  {
    if |cells| == 0 then []
    else
      var text := Strip(CellText(cells[0].parts));
      StripIdempotent(CellText(cells[0].parts));
      assert ExampleTexts(cells)[1..] == ExampleTexts(cells[1..]);
      (if Contains(text, InfoMark) then [] else [text]) + Examples(cells[1..])
  }

  /** The examples of two runs of cells are those of the first run, then those of the second. */
  lemma ExamplesAppend(a: seq<Cell>, b: seq<Cell>)
    ensures Examples(a + b) == Examples(a) + Examples(b)
  {
    assert ExampleTexts(a + b) == ExampleTexts(a) + ExampleTexts(b);
    KeepAppend(ExampleTexts(a), ExampleTexts(b), NoInfo, true);
  }

  /** `a` is a prefix of `b`. */
  predicate IsPrefix<T(==)>(a: seq<T>, b: seq<T>) {
    |a| <= |b| && b[..|a|] == a
  }

  /** The pairs are balanced by keeping the first `min(|fr|, |to|)` of each list. */
  function Balance(fr: seq<string>, to: seq<string>): (r: (seq<string>, seq<string>))
    ensures |r.0| == |r.1| && (|r.0| == |fr| || |r.1| == |to|)
    ensures IsPrefix(r.0, fr) && IsPrefix(r.1, to)
  {
    var m := if |fr| < |to| then |fr| else |to|;
    (fr[..m], to[..m])
  }

  /**
   * What `fetch_wordref_entries` builds from group `g`: the parsed words of
   * the group's first `FrWrd` and first `ToWrd` cell, and the examples of the
   * group's `FrEx` and `ToEx` cells, balanced.
   */
  predicate BuiltFrom(g: seq<Row>, enOrder: seq<string>, it: Item)
    requires IsEnOrder(enOrder)
  {
    && HasWordCells(g)
    && it.frWords == WordsOf(CellsOf(g, FrWrd)[0].parts, enOrder)
    && it.toWords == WordsOf(CellsOf(g, ToWrd)[0].parts, enOrder)
    && (it.frExamples, it.toExamples) == Balance(Examples(CellsOf(g, FrEx)), Examples(CellsOf(g, ToEx)))
  }

  /**
   * The item built from one group: the words of the first `FrWrd` and `ToWrd`
   * cells, then the balanced examples. A group lacking either word cell makes
   * `for tag in None` fail.
   */
  function GroupItem(g: seq<Row>, enOrder: seq<string>): (r: Result<Item>)
    requires IsEnOrder(enOrder)
    ensures r.Err? <==> !HasWordCells(g)
    ensures r.Err? ==> r.error == TypeError
    ensures r.Ok? ==> BuiltFrom(g, enOrder, r.value)
  {
    if HasWordCells(g) then Ok(BuildItem(g, enOrder)) else Err(TypeError)
  }

  /** The group has a `FrWrd` and a `ToWrd` cell (`group.find` finds both). */
  predicate HasWordCells(g: seq<Row>) {
    |CellsOf(g, FrWrd)| > 0 && |CellsOf(g, ToWrd)| > 0
  }

  function BuildItem(g: seq<Row>, enOrder: seq<string>): (it: Item)
    requires IsEnOrder(enOrder) && HasWordCells(g)
    ensures BuiltFrom(g, enOrder, it)
  {
    var exs := Balance(Examples(CellsOf(g, FrEx)), Examples(CellsOf(g, ToEx)));
    Item(WordsOf(CellsOf(g, FrWrd)[0].parts, enOrder), WordsOf(CellsOf(g, ToWrd)[0].parts, enOrder), exs.0, exs.1)
  }

  /**
   * `[f(x) for x in xs]` where `f` may raise: the first failure is the
   * failure of the whole list.
   */
  function TryMap<A, B>(xs: seq<A>, f: A --> Result<B>): (r: Result<seq<B>>)
    requires forall x :: x in xs ==> f.requires(x)
    ensures r.Ok? <==> forall i :: 0 <= i < |xs| ==> f(xs[i]).Ok?
    ensures r.Ok? ==> |r.value| == |xs| && forall i :: 0 <= i < |xs| ==> r.value[i] == f(xs[i]).value
    ensures r.Err? ==> exists i :: 0 <= i < |xs| && f(xs[i]) == Err(r.error)
  {
    if |xs| == 0 then Ok([])
    else
      var head := f(xs[0]);
      var tail := TryMap(xs[1..], f);
      if head.Err? then Err(head.error)
      else if tail.Err? then
        var i :| 0 <= i < |xs[1..]| && f(xs[1..][i]) == Err(tail.error);
        assert xs[1..][i] == xs[i + 1];
        Err(tail.error)
      else
        var r := [head.value] + tail.value;
        forall i | 1 <= i < |xs| ensures f(xs[i]).Ok? && r[i] == f(xs[i]).value {
          assert xs[i] == xs[1..][i - 1];
        }
        Ok(r)
  }

  /** `fetch_wordref_entries`: one item per group, the first failing group failing the table. */
  function GroupItems(groups: seq<seq<Row>>, enOrder: seq<string>): (r: Result<seq<Item>>)
    requires IsEnOrder(enOrder)
    ensures r.Ok? <==> forall i :: 0 <= i < |groups| ==> HasWordCells(groups[i])
    ensures r.Ok? ==> |r.value| == |groups| && forall i :: 0 <= i < |groups| ==> BuiltFrom(groups[i], enOrder, r.value[i])
    ensures r.Err? ==> r.error == TypeError
  {
    var item := g requires IsEnOrder(enOrder) => GroupItem(g, enOrder);
    var r := TryMap(groups, item);
    assert forall i :: 0 <= i < |groups| ==> item(groups[i]) == GroupItem(groups[i], enOrder);
    r
  }

  /** A `table.WRD`: its `data-dict` attribute (`None` when missing) and its `odd`/`even` rows. */
  datatype WrdTable = WrdTable(dataDict: Option<string>, rows: seq<Row>)

  /** `gr_en ^ (data-dict == "gren")`: the table reads in the other direction than requested. */
  predicate Reversed(grEn: bool, dataDict: string) {
    grEn != (dataDict == "gren")
  }

  function InvertAll(items: seq<Item>): (r: seq<Item>)
    ensures |r| == |items|
    ensures forall i :: 0 <= i < |items| ==> r[i] == items[i].Invert()
  {
    if |items| == 0 then [] else [items[0].Invert()] + InvertAll(items[1..])
  }

  /**
   * The items of one table's groups, in the table's own direction: item `i`
   * is built from the `i`-th group of rows.
   */
  function OwnItems(table: WrdTable, enOrder: seq<string>): (r: Result<seq<Item>>)
    requires IsEnOrder(enOrder)
    ensures r.Ok? <==> forall i :: 0 <= i < |GroupRows(table.rows)| ==> HasWordCells(GroupRows(table.rows)[i])
    ensures r.Ok? ==> |r.value| == |GroupRows(table.rows)|
    ensures r.Ok? ==> forall i :: 0 <= i < |r.value| ==> BuiltFrom(GroupRows(table.rows)[i], enOrder, r.value[i])
    ensures r.Err? ==> r.error == TypeError
    ensures r.Ok? ==> forall it :: it in r.value ==> Balanced(it)
  {
    var groups := GroupRows(table.rows);
    var own := GroupItems(groups, enOrder);
    if own.Ok? then BuiltBalanced(groups, enOrder, own.value); own else own
  }

  /**
   * The items of one table, inverted when the table reads the other way than
   * requested (`gr_en ^ (data-dict == "gren")`). The attribute is read after
   * the items are built, so a table without it fails with `KeyError` only
   * when its items could be built.
   */
  function TableItems(table: WrdTable, grEn: bool, enOrder: seq<string>): (r: Result<seq<Item>>)
    requires IsEnOrder(enOrder)
    ensures OwnItems(table, enOrder).Err? ==> r == OwnItems(table, enOrder)
    ensures OwnItems(table, enOrder).Ok? && table.dataDict.None? ==> r == Err(KeyError)
    ensures OwnItems(table, enOrder).Ok? && table.dataDict.Some? ==>
      r == Ok(if grEn != (table.dataDict.value == "gren") then InvertAll(OwnItems(table, enOrder).value)
              else OwnItems(table, enOrder).value)
  {
    Orient(OwnItems(table, enOrder), grEn, table.dataDict)
  }

  /** A table fails only by a missing word cell or a missing `data-dict`, and its items are balanced. */
  lemma TableItemsShape(table: WrdTable, grEn: bool, enOrder: seq<string>)
    requires IsEnOrder(enOrder)
    ensures TableItems(table, grEn, enOrder).Err? ==> TableItems(table, grEn, enOrder).error in {TypeError, KeyError}
    ensures TableItems(table, grEn, enOrder).Ok? ==> forall it :: it in TableItems(table, grEn, enOrder).value ==> Balanced(it)
  {
  }

  /** A table's own items, inverted when it reads the other way; a failure stays a failure. */
  function Orient(own: Result<seq<Item>>, grEn: bool, dataDict: Option<string>): (r: Result<seq<Item>>)
    ensures own.Err? ==> r == own
    ensures own.Ok? && dataDict.None? ==> r == Err(KeyError)
    ensures own.Ok? && dataDict.Some? ==>
      r == Ok(if grEn != (dataDict.value == "gren") then InvertAll(own.value) else own.value)
    ensures own.Ok? && (forall it :: it in own.value ==> Balanced(it)) && r.Ok? ==> forall it :: it in r.value ==> Balanced(it)
  {
    if own.Err? then own
    else if dataDict.None? then Err(KeyError)
    else if Reversed(grEn, dataDict.value) then
      var inv := InvertAll(own.value);
      assert forall i :: 0 <= i < |inv| ==> own.value[i] in own.value;
      Ok(inv)
    else own
  }

  /** Reading a table the other way inverts each of its items. */
  lemma OrientFlip(own: Result<seq<Item>>, grEn: bool, dataDict: Option<string>)
    ensures Orient(own, !grEn, dataDict).Ok? == Orient(own, grEn, dataDict).Ok?
    ensures Orient(own, grEn, dataDict).Ok? ==> Orient(own, !grEn, dataDict).value == InvertAll(Orient(own, grEn, dataDict).value)
  {
    if own.Ok? {
      InvertAllInvolution(own.value);
    }
  }

  /**
   * `for x in xs: out.extend(f(x))` where `f` may raise: the results of `f`
   * concatenated in order, or the failure of the first `x` that fails.
   */
  function TryFlatMap<A, B>(xs: seq<A>, f: A -> Result<seq<B>>): (r: Result<seq<B>>)
    ensures r.Ok? <==> forall i :: 0 <= i < |xs| ==> f(xs[i]).Ok?
    ensures r.Err? ==> exists i :: (&& 0 <= i < |xs| && f(xs[i]) == Err(r.error)
                                    && forall j :: 0 <= j < i ==> f(xs[j]).Ok?)
    ensures r.Ok? ==> forall y :: y in r.value ==> exists i :: 0 <= i < |xs| && y in f(xs[i]).value
    ensures |xs| == 1 ==> r == f(xs[0])
  {
    if |xs| == 0 then Ok([])
    else
      var head := f(xs[0]);
      var tail := TryFlatMap(xs[1..], f);
      assert forall i :: 1 <= i < |xs| ==> xs[i] == xs[1..][i - 1];
      if head.Err? then Err(head.error)
      else if tail.Err? then
        var i :| 0 <= i < |xs| - 1 && f(xs[1..][i]) == Err(tail.error)
          && forall j :: 0 <= j < i ==> f(xs[1..][j]).Ok?;
        assert f(xs[i + 1]) == Err(tail.error);
        Err(tail.error)
      else
        assert |xs| == 1 ==> tail.value == [] && head.value + tail.value == head.value;
        Ok(head.value + tail.value)
  }

  /** Over two runs of inputs it succeeds when both do, with the results of the first run first. */
  lemma {:induction false} TryFlatMapAppend<A, B>(a: seq<A>, b: seq<A>, f: A -> Result<seq<B>>)
    ensures TryFlatMap(a + b, f).Ok? <==> TryFlatMap(a, f).Ok? && TryFlatMap(b, f).Ok?
    ensures TryFlatMap(a + b, f).Ok? ==> TryFlatMap(a + b, f).value == TryFlatMap(a, f).value + TryFlatMap(b, f).value
    decreases |a|
  {
    if |a| == 0 {
      assert a + b == b;
    } else {
      assert (a + b)[0] == a[0];
      assert (a + b)[1..] == a[1..] + b;
      TryFlatMapAppend(a[1..], b, f);
      if f(a[0]).Ok? && TryFlatMap(a[1..], f).Ok? && TryFlatMap(b, f).Ok? {
        ConcatAssoc(f(a[0]).value, TryFlatMap(a[1..], f).value, TryFlatMap(b, f).value);
      }
    }
  }

  /** `TableItems` for one requested direction. */
  function ItemsOfTable(grEn: bool, enOrder: seq<string>): (f: WrdTable -> Result<seq<Item>>)
    requires IsEnOrder(enOrder)
    ensures forall t :: f(t) == TableItems(t, grEn, enOrder)
  {
    (t: WrdTable) => TableItems(t, grEn, enOrder)
  }

  /**
   * The items of every table in turn (`all_wr_entries.extend(...)`): the
   * items of each table, concatenated in order, or the failure of the first
   * table that fails. `TryFlatMapAppend` splits it over runs of tables.
   */
  function CollectItems(tables: seq<WrdTable>, grEn: bool, enOrder: seq<string>): (r: Result<seq<Item>>)
    requires IsEnOrder(enOrder)
    ensures r.Ok? <==> forall i :: 0 <= i < |tables| ==> TableItems(tables[i], grEn, enOrder).Ok?
    ensures r.Err? ==> exists i :: (&& 0 <= i < |tables| && TableItems(tables[i], grEn, enOrder) == Err(r.error)
                                    && forall j :: 0 <= j < i ==> TableItems(tables[j], grEn, enOrder).Ok?)
    ensures |tables| == 1 ==> r == TableItems(tables[0], grEn, enOrder)
  {
    TryFlatMap(tables, ItemsOfTable(grEn, enOrder))
  }

  /** The collection fails only by a missing word cell or a missing `data-dict`, and its items are balanced. */
  lemma CollectItemsShape(tables: seq<WrdTable>, grEn: bool, enOrder: seq<string>)
    requires IsEnOrder(enOrder)
    ensures CollectItems(tables, grEn, enOrder).Err? ==> CollectItems(tables, grEn, enOrder).error in {TypeError, KeyError}
    ensures CollectItems(tables, grEn, enOrder).Ok? ==> forall it :: it in CollectItems(tables, grEn, enOrder).value ==> Balanced(it)
  {
    var f := ItemsOfTable(grEn, enOrder);
    forall i | 0 <= i < |tables|
      ensures f(tables[i]).Err? ==> f(tables[i]).error in {TypeError, KeyError}
      ensures f(tables[i]).Ok? ==> forall it :: it in f(tables[i]).value ==> Balanced(it)
    {
      TableItemsShape(tables[i], grEn, enOrder);
    }
  }

  /** The items of two runs of tables are those of the first run, then those of the second. */
  lemma CollectItemsAppend(a: seq<WrdTable>, b: seq<WrdTable>, grEn: bool, enOrder: seq<string>)
    requires IsEnOrder(enOrder)
    ensures CollectItems(a + b, grEn, enOrder).Ok? <==> CollectItems(a, grEn, enOrder).Ok? && CollectItems(b, grEn, enOrder).Ok?
    ensures CollectItems(a + b, grEn, enOrder).Ok? ==>
      CollectItems(a + b, grEn, enOrder).value == CollectItems(a, grEn, enOrder).value + CollectItems(b, grEn, enOrder).value
  {
    TryFlatMapAppend(a, b, ItemsOfTable(grEn, enOrder));
  }

  /** As many example sentences on one side as on the other. */
  predicate Balanced(it: Item) {
    |it.frExamples| == |it.toExamples|
  }

  lemma BuiltBalanced(groups: seq<seq<Row>>, enOrder: seq<string>, items: seq<Item>)
    requires IsEnOrder(enOrder)
    requires |items| == |groups| && forall i :: 0 <= i < |groups| ==> BuiltFrom(groups[i], enOrder, items[i])
    ensures forall it :: it in items ==> Balanced(it)
  {
  }

  /** An item with example sentences on both sides (`wre.fr_exs and wre.to_exs`). */
  predicate HasExamples(it: Item) {
    |it.frExamples| > 0 && |it.toExamples| > 0
  }

  const BaseUrl: string := "https://www.wordreference.com"

  /**
   * `fetch_accented_word`: the first whitespace-separated token of the bold
   * text of the first translation cell, commas stripped. `boldText` is that
   * text, `None` when the page lacks the cell; on any failure (including
   * the `IndexError` of an empty text) the current word is kept, and a
   * missing word raises `RabotError`.
   */
  function FetchAccentedWord(boldText: Option<string>, word: Option<string>): (r: Result<string>)
    ensures r.Err? <==> word.None? && (boldText.None? || SplitWs(boldText.value) == [])
    ensures r.Err? ==> r.error == RabotError
    ensures r.Ok? && (boldText.None? || SplitWs(boldText.value) == []) ==> r.value == word.value
    ensures boldText.Some? && SplitWs(boldText.value) != [] ==> r == Ok(StripChar(SplitWs(boldText.value)[0], ','))
  {
    if boldText.Some? && SplitWs(boldText.value) != [] then
      Ok(StripChar(SplitWs(boldText.value)[0], ','))
    else if word.None? then Err(RabotError)
    else Ok(word.value)
  }

  /** The first token, commas stripped, lies within the token and has no space and no comma at either end. */
  lemma AccentedShape(b: string)
    requires SplitWs(b) != []
    ensures var w := StripChar(SplitWs(b)[0], ',');
      && Contains(SplitWs(b)[0], w)
      && (w == [] || (w[0] != ',' && w[|w| - 1] != ','))
      && forall c :: c in w ==> !IsSpace(c)
  {
    var t := SplitWs(b)[0];
    assert t in SplitWs(b);
    var w := StripChar(t, ',');
    var i :| OccursAt(t, w, i);
    OccursChars(t, w, i);
  }


  /**
   * The word `try_fetch_entry` goes on with: looked up when translating from
   * Greek or in random mode, otherwise the requested word.
   */
  function EntryWord(grEn: bool, isRandom: bool, boldText: Option<string>, word: Option<string>): (r: Result<Option<string>>)
    ensures !grEn && !isRandom ==> r == Ok(word)
    ensures r.Err? ==> r.error == RabotError && word.None?
    ensures r.Ok? && word.Some? ==> r.value.Some?
    ensures grEn || isRandom ==>
      && (r.Ok? <==> FetchAccentedWord(boldText, word).Ok?)
      && (r.Ok? ==> r.value == Some(FetchAccentedWord(boldText, word).value))
  {
    if grEn || isRandom then
      var w := FetchAccentedWord(boldText, word);
      if w.Err? then Err(w.error) else Ok(Some(w.value))
    else Ok(word)
  }

  /**
   * On the first random attempt `self.word` is still unset, so there is no
   * word to fall back on: a page without the translation cell raises
   * `RabotError`, and one with a translation cell yields a word.
   */
  lemma RandomNeedsLookup(grEn: bool, word: Option<string>)
    requires word.None?
    ensures EntryWord(grEn, true, None, word) == Err(RabotError)
    ensures forall t :: SplitWs(t) != [] ==> EntryWord(grEn, true, Some(t), word).Ok?
  {
  }

  /**
   * A later random attempt finds `self.word` set by the attempt before it: a
   * page without the translation cell then goes on with that earlier word
   * instead of raising, while a page with one replaces it.
   */
  lemma RandomRetryReusesWord(grEn: bool, previous: string, boldText: Option<string>)
    ensures boldText.None? ==> EntryWord(grEn, true, boldText, Some(previous)) == Ok(Some(previous))
    ensures boldText.Some? && SplitWs(boldText.value) != [] ==>
      EntryWord(grEn, true, boldText, Some(previous)) == Ok(Some(StripChar(SplitWs(boldText.value)[0], ',')))
  {
  }

  /** `DictEntry(word, gr_en, url, entries)`. */
  datatype DictEntry = DictEntry(word: string, grEn: bool, url: string, items: seq<Item>)

  /**
   * `try_fetch_entry` after the page is fetched: `word` is the word once the
   * accented form has been looked up (`None` when there is none); the
   * entry's URL always points at the Greek-English dictionary.
   */
  function TryFetchEntry(word: Option<string>, grEn: bool, tables: seq<WrdTable>, enOrder: seq<string>): (r: Result<DictEntry>)
    requires IsEnOrder(enOrder)
    ensures word.None? ==> r == Err(RabotError)
    ensures r.Err? <==> word.None? || CollectItems(tables, grEn, enOrder).Err?
    ensures r.Err? ==> r.error in {RabotError, TypeError, KeyError}
    ensures r.Ok? ==> && r.value.word == word.value && r.value.grEn == grEn
                      && r.value.url == BaseUrl + "/gren/" + word.value
                      && (forall it :: it in r.value.items ==> HasExamples(it) && Balanced(it))
                      && (forall it :: it in r.value.items ==> it in CollectItems(tables, grEn, enOrder).value)
                      && r.value.items == Keep(CollectItems(tables, grEn, enOrder).value, HasExamples, true)
  {
    if word.None? then Err(RabotError)
    else
      var all := CollectItems(tables, grEn, enOrder);
      CollectItemsShape(tables, grEn, enOrder);
      if all.Err? then Err(all.error)
      else Ok(DictEntry(word.value, grEn, BaseUrl + "/gren/" + word.value, Keep(all.value, HasExamples, true)))
  }

  lemma InvertAllInvolution(items: seq<Item>)
    ensures InvertAll(InvertAll(items)) == items
  {
  }

  lemma {:induction false} InvertAllAppend(a: seq<Item>, b: seq<Item>)
    ensures InvertAll(a + b) == InvertAll(a) + InvertAll(b)
  {
    assert InvertAll(a + b) == InvertAll(a) + InvertAll(b);
  }

  /** Flipping the requested direction inverts every item of a table, and fails on the same tables. */
  lemma TableItemsFlip(table: WrdTable, grEn: bool, enOrder: seq<string>)
    requires IsEnOrder(enOrder)
    ensures TableItems(table, !grEn, enOrder).Ok? == TableItems(table, grEn, enOrder).Ok?
    ensures TableItems(table, grEn, enOrder).Ok? ==>
      TableItems(table, !grEn, enOrder).value == InvertAll(TableItems(table, grEn, enOrder).value)
  {
    OrientFlip(OwnItems(table, enOrder), grEn, table.dataDict);
  }

  /** Flipping the requested direction inverts every collected item, and fails on the same tables. */
  lemma {:induction false} CollectItemsFlip(tables: seq<WrdTable>, grEn: bool, enOrder: seq<string>)
    requires IsEnOrder(enOrder)
    ensures CollectItems(tables, !grEn, enOrder).Ok? == CollectItems(tables, grEn, enOrder).Ok?
    ensures CollectItems(tables, grEn, enOrder).Ok? ==>
      CollectItems(tables, !grEn, enOrder).value == InvertAll(CollectItems(tables, grEn, enOrder).value)
    decreases |tables|
  {
    if |tables| > 0 {
      CollectItemsFlip(tables[1..], grEn, enOrder);
      TableItemsFlip(tables[0], grEn, enOrder);
      var mine := TableItems(tables[0], grEn, enOrder);
      var rest := CollectItems(tables[1..], grEn, enOrder);
      if mine.Ok? && rest.Ok? {
        InvertAllAppend(mine.value, rest.value);
      }
    }
  }

  /** Keeping the items with examples commutes with inverting them. */
  lemma {:induction false} KeepWithExamplesInvert(items: seq<Item>)
    ensures Keep(InvertAll(items), HasExamples, true) == InvertAll(Keep(items, HasExamples, true))
  {
    if |items| > 0 {
      KeepWithExamplesInvert(items[1..]);
      assert InvertAll(items)[1..] == InvertAll(items[1..]);
      var head := if HasExamples(items[0]) then [items[0]] else [];
      InvertAllAppend(head, Keep(items[1..], HasExamples, true));
    }
  }

  /**
   * Asking in the other direction gives the same word and URL and the same
   * items, each inverted.
   */
  lemma TryFetchEntryFlip(word: Option<string>, grEn: bool, tables: seq<WrdTable>, enOrder: seq<string>)
    requires IsEnOrder(enOrder)
    ensures TryFetchEntry(word, !grEn, tables, enOrder).Ok? == TryFetchEntry(word, grEn, tables, enOrder).Ok?
    ensures TryFetchEntry(word, grEn, tables, enOrder).Ok? ==>
      && TryFetchEntry(word, !grEn, tables, enOrder).value.url == TryFetchEntry(word, grEn, tables, enOrder).value.url
      && TryFetchEntry(word, !grEn, tables, enOrder).value.items
         == InvertAll(TryFetchEntry(word, grEn, tables, enOrder).value.items)
  {
    CollectItemsFlip(tables, grEn, enOrder);
    if CollectItems(tables, grEn, enOrder).Ok? {
      KeepWithExamplesInvert(CollectItems(tables, grEn, enOrder).value);
    }
  }

  // ---------------------------------------------------------------------------
  // The request and the retry loop
  // ---------------------------------------------------------------------------

  /** The state `Wordref.__init__` sets up: the word kept, random mode, the URL to fetch. */
  datatype Request = Request(word: Option<string>, isRandom: bool, url: string)

  /** `Wordref.__init__`: no word means a random word; otherwise the direction is guessed from the word. */
  function NewRequest(word: Option<string>): (q: Request)
    ensures q.isRandom <==> word.None?
    ensures word.None? ==> q.word.None? && q.url == BaseUrl + "/random/gren"
    ensures word.Some? ==> q.word == Some(Strip(word.value))
    ensures word.Some? ==> |q.url| == |BaseUrl| + |word.value| + 6
    ensures word.Some? ==> StartsWith(q.url, BaseUrl + "/") && EndsWith(q.url, "/" + word.value)
    ensures word.Some? ==> q.url[|BaseUrl| + 1..|BaseUrl| + 5] == (if Utils.IsEnglish(word.value) then "engr" else "gren")
    ensures word.Some? ==> q.url[|BaseUrl| + 6..] == word.value
  {
    match word
    case None => Request(None, true, BaseUrl + "/random/gren")
    case Some(w) =>
      var direction := if Utils.IsEnglish(w) then "engr" else "gren";
      var url := BaseUrl + "/" + direction + "/" + w;
      assert url[|BaseUrl| + 1..|BaseUrl| + 5] == direction;
      assert url[..|BaseUrl| + 1] == BaseUrl + "/";
      assert url[|url| - |w| - 1..] == "/" + w;
      assert url[|BaseUrl| + 6..] == w;
      Request(Some(Strip(w)), false, url)
  }

  /** `max_random_iterations`. */
  const MaxRandomIterations: nat := 5

  /** An attempt that ran to the end without an embed (`try_fetch_embed` returned `None`). */
  predicate Empty<T>(x: Result<Option<T>>) {
    x.Ok? && x.value.None?
  }

  /**
   * `fetch_embed`: `attempt(i)` is the outcome of the `i`-th call of
   * `try_fetch_embed` (an exception propagates at once). Outside random mode
   * there is one attempt; in random mode attempts go on while they come back
   * empty, at most `MaxRandomIterations` times.
   */
  method FetchEmbed<T>(isRandom: bool, attempt: nat -> Result<Option<T>>) returns (r: Result<Option<T>>, tries: nat)
    ensures !isRandom ==> tries == 1 && r == attempt(0)
    ensures isRandom ==> 1 <= tries <= MaxRandomIterations
    ensures isRandom ==> forall i :: 0 <= i < tries - 1 ==> Empty(attempt(i))
    ensures isRandom && !Empty(r) ==> r == attempt(tries - 1)
    ensures isRandom ==> (Empty(r) <==> forall i :: 0 <= i < MaxRandomIterations ==> Empty(attempt(i)))
  {
    if !isRandom {
      return attempt(0), 1;
    }
    tries := 0;
    r := Ok(None);
    while tries < MaxRandomIterations
      invariant tries <= MaxRandomIterations
      invariant forall i :: 0 <= i < tries ==> Empty(attempt(i))
      invariant Empty(r)
    {
      var outcome := attempt(tries);
      tries := tries + 1;
      if !Empty(outcome) {
        return outcome, tries;
      }
    }
  }
}

=== FILE: wrappers.dfy ===
/**
 * Failure-compatible result types shared by every module of the model.
 *
 * The bot signals failure with Python exceptions; the model turns each raise
 * into an `Err` carrying the kind of exception that would propagate.
 */
module Wrappers {

  /** The Python exception kinds that the modelled code can raise. */
  datatype Error =
    | RabotError          // the project's own `RabotError`
    | AssertionError      // a failing `assert`
    | KeyError            // a missing dictionary key
    | IndexError          // a tuple index out of range
    | AttributeError      // an attribute looked up on `None`
    | TypeError           // iterating over `None`, `None in str`
    | ZeroDivisionError   // a division by zero
    | NotImplementedError // an unsupported language name

  datatype Option<+T> = None | Some(value: T)

  datatype Result<+T> = Ok(value: T) | Err(error: Error) {

    predicate IsFailure() {
      Err?
    }

    function PropagateFailure<U>(): Result<U>
      requires Err?
    {
      Err(error)
    }

    function Extract(): T
      requires Ok?
    {
      value
    }
  }
}
